=== FILE: README.md ===
# libdistance in Dafny

A model of the C library libdistance: the distance routines
`levenshtein_d`, `damerau_d`, `needleman_wunsch_d`, `minkowski_d`,
`hamming_d` and `jaccard_d`, the Bloom-filter fingerprint `adler32`,
`bloom_create` and `bloom_d`, and the helpers of `distance.h`.

The routines take C strings, and the code depends on that:
- the scans of `hamming_d` and `jaccard_d` stop at the terminating NUL;
- `damerau_d` reads `s[len1]` and `t[len2]`.

So an input is a `seq<int>` whose elements are all in 1..127
(`Distance.IsCString`). Every read goes through `Distance.At`, which gives 0
outside the sequence. That reproduces the terminator reads exactly. It also
gives a fixed "never equal" value for the reads before the buffer
(`s[i-2]` in `damerau_d`) and past the shorter input (the seed lookups of
`needleman_wunsch_d`).

Modules follow the C files.

| module | models |
|---|---|
| `Distance` | `distance.h` (`min`, `max`, `struct matrix`), plus the shared positional counts `Mismatches` and `Matches` |
| `FlatTable` | the `(len1+1)*(len2+1)` array addressed `d[j*n+i]` that all four table routines allocate |
| `EditTable` | the shared recurrence of the table routines. It is parameterised by the costs of the three edges into a cell (insert, delete, substitute) and by the seeds of row 0 and column 0. Its lemmas are the generic facts: bands, monotonicity, transposition and diagonal runs. |
| `Levenshtein`, `Damerau`, `NeedlemanWunsch`, `Minkowski` | the four table routines. Each has a recursive `Dist` (the value returned) and a method that fills an array as the C code does and is proved to return `Dist`. |
| `Hamming`, `Jaccard` | the positional comparisons |
| `Bloom` | `adler32`, `bloom_create` and `bloom_d`. A digest of `n` bytes is its `8n` bits. |
| `Vectors`, `BloomVectors` | the expected values of `test/test.c`, `python/test.py` and `python/pydistance.c` |

The model follows the code literally in these places:
- The cost table of `struct matrix` is 255 by 255, so byte 255 is not a valid index (distance.h:7-11).
- The seeds of `needleman_wunsch_d` are single table lookups, and cell (0, 0) is 0 (needleman_wunsch.c:36-46).
- `bloom_create` stops when the next window would pass `digest_len` (bloom.c:154). So exactly `digest_len - 3` windows over the first `digest_len` bytes are hashed, and the data must hold at least `digest_len` bytes.
- The swap flag of `damerau_d` is `static` (damerau.c:35). `Damerau.Run` takes the flag in and hands it back. `Damerau.LeakedFlagHarmless` shows the value a previous call left behind never changes the distance.
- `jaccard_d` returns matches / length for unequal strings (jaccard.c:40-52).
- Errors are the return values of the code (-1, -1.0).
- `bloom_d` counts `d1` twice (bloom.c:177-179). The model keeps both readings:
  - `Bloom.Written` is the code as written;
  - `Bloom.Dist` is the normaliser the comment of bloom.c:31-36 describes, with each count taken from its own digest.

  See "Findings".

## Model

| member | source | states |
|---|---|---|
| Distance.Max | distance.h:13-15 | `max` is at least both arguments and is one of them |
| Distance.Min | distance.h:17-19 | `min` is at most both arguments and is one of them |
| Distance.Min3 | distance.h:17-19 | `min(a, min(b, c))` is at most each of a, b, c and equals one of them |
| Distance.Min3Real | needleman_wunsch.c:61 | the nested minimum on doubles is at most each argument and equals one of them |
| Distance.At | damerau.c:53-54 | for a C string, a read gives a byte in 1..127 inside the string and the NUL 0 at or past its end |
| Distance.MatchesAndMismatches | hamming.c:34-41 | each position up to n counts as a match or a mismatch, never both |
| Distance.NoMismatches | hamming.c:34-41 | no mismatch in the first n positions exactly when the strings agree on all of them |
| Distance.NoMatches | jaccard.c:42-49 | no match in the first n positions exactly when the strings differ at every one |
| Distance.MismatchesSymmetric | hamming.c:34-41 | the mismatch count does not depend on the order of the strings |
| Distance.MismatchesJoin | hamming.c:34-41 | the mismatches of two concatenations are the sum of the mismatches of the parts |
| Distance.Fill | test/test.c:236-241 | a table filled with v is square, 255 by 255, and holds v at every valid index |
| Distance.Uniform | test/test.c:236-241 | the uniform cost table charges conv for every conversion and ins for every insertion; it is non-negative when both are |
| FlatTable.IdxDistinct | levenshtein.c:54-57 | distinct cells have distinct array slots, so writing one cell leaves the others unchanged |
| EditTable.Result | levenshtein.c:34-63 | when either length is 0 the result is the other length |
| EditTable.Seed | levenshtein.c:41-44 | the seeding loops leave row 0 and column 0 equal to the recurrence |
| EditTable.StoreMin | levenshtein.c:54-57 | storing `min(a, min(b, c))` at (i, j) extends the filled part of the table by that cell |
| EditTable.LastCell | levenshtein.c:59 | once every row is filled, the last array slot holds the last cell |
| EditTable.Monotone | levenshtein.c:54-57 | cheaper edges (and seeds) never give a dearer cell |
| EditTable.Transpose | levenshtein.c:46-57 | with mirrored edge costs, the table of (t, s) is the transpose of the table of (s, t) |
| EditTable.LowerBand | levenshtein.c:41-57 | with unit gaps, cell (i, j) is at least \|i - j\| |
| EditTable.UpperBand | levenshtein.c:41-57 | with unit gaps and substitutions of at most 1, cell (i, j) is at most max(i, j) |
| EditTable.NonNegative | minkowski.c:37-54 | with non-negative edges and ramp seeds, no cell is negative |
| EditTable.DiagonalRun | levenshtein.c:56-57 | a run of free substitutions carries a cell value along the diagonal |
| EditTable.BelowDiagonal | levenshtein.c:56-57 | cell (n, n) is at most the cost of substituting along the diagonal |
| EditTable.AboveCappedDiagonal | levenshtein.c:41-57 | with unit gaps, cell (n, n) is at least the diagonal cost capped at 2: leaving the diagonal costs two gaps |
| EditTable.InsertRun | levenshtein.c:54 | k further unit insertions raise a cell by at most k |
| EditTable.ZeroCell | levenshtein.c:41-57 | with unit gaps, a cell of value 0 lies on the diagonal and every substitution before it is free |
| Levenshtein.Dist | levenshtein.c:34-63 | an empty input gives the other input's length |
| Levenshtein.LevenshteinD | levenshtein.c:25-65 | the array-filling routine returns `Dist`; the result is between 0 and the longer length, and is 0 exactly for equal strings |
| Levenshtein.Bounds | levenshtein.c:13-16 | the distance lies between the length difference and the longer length |
| Levenshtein.Identity | test/test.c:68-70 | a string is at distance 0 from itself |
| Levenshtein.ZeroIffEqual | levenshtein.c:46-59 | distance 0 holds exactly for equal strings |
| Levenshtein.Symmetric | python/test.py:16-17 | the distance does not depend on the order of the inputs |
| Levenshtein.AgainstMismatches | levenshtein.c:49-57 | for equal lengths the distance is at most the mismatch count and at least that count capped at 2 |
| Levenshtein.InsertedBlock | levenshtein.c:54-57 | inserting a block w into a string costs exactly \|w\| |
| Damerau.Rule | damerau.c:51-64 | the cell cost is at most Levenshtein's; a cost of 0 on unequal bytes sets the flag only on a swapped pair ahead and clears it only on the swapped pair behind |
| Damerau.Run | damerau.c:34-76 | an empty input gives the other input's length, and the flag passes through unchanged |
| Damerau.DamerauD | damerau.c:23-78 | the array-filling routine returns the distance and the flag of `Run`; the distance lies between 0 and the Levenshtein distance |
| Damerau.AtMostLevenshtein | damerau.c:7-9 | the distance never exceeds the Levenshtein distance, which never exceeds the longer length |
| Damerau.Identity | test/test.c:96-98 | a string is at distance 0 from itself |
| Damerau.LengthGap | damerau.c:41-69 | the distance is at least the length difference |
| Damerau.CostIgnoresFlag | damerau.c:51-64 | at a cell the scan reaches, the cost is the same whichever flag it arrives with |
| Damerau.LeakedFlagHarmless | damerau.c:35 | for C strings, the flag a previous call leaves behind never changes the distance |
| Damerau.SwapDistAtMost | damerau.c:7-9 | under the stateless swap relaxation, the distance is at most the code's |
| Damerau.SwapIsFree | damerau.c:7-9 | under the stateless swap relaxation, one adjacent swap costs nothing |
| Damerau.ChainedSwapsFree | damerau.c:7-9 | the relaxation also frees chained pairs: "aba" against "bab" costs 0 though the two hold different bytes, so it falls below the distance the header comment describes |
| Damerau.AbcdAcbd | python/pydistance.c:93-94 | "abcd" and "acbd" are at distance 0 |
| Damerau.SwapKept | damerau.c:51-64 | as written, one adjacent swap x y / y x costs nothing whenever the flag its first cell raises survives to its second: that is, unless "y x" occurs before the swap, or x is followed in the rest of the string by the byte in front of the swap |
| NeedlemanWunsch.Dist | needleman_wunsch.c:31-67 | an empty input gives the other input's length |
| NeedlemanWunsch.SeedBorders | needleman_wunsch.c:36-46 | the seeding loops leave the single-lookup borders and a 0 corner in the array |
| NeedlemanWunsch.FillCell | needleman_wunsch.c:50-61 | one cell step stores the recurrence's value |
| NeedlemanWunsch.NeedlemanWunschD | needleman_wunsch.c:19-69 | the routine returns `Dist`; with a non-negative table the result is non-negative, and 0 for equal strings |
| NeedlemanWunsch.CellNotBelowZero | needleman_wunsch.c:36-61 | with a non-negative table no cell is negative |
| NeedlemanWunsch.Identity | test/test.c:243-245 | with a non-negative table a string is at distance 0 from itself |
| NeedlemanWunsch.OneConversion | needleman_wunsch.c:53-61 | with a non-negative table, one substituted byte costs at most its conversion entry |
| NeedlemanWunsch.UniformSeparates | needleman_wunsch.c:50-61 | under uniform costs 0 < conv <= ins, the distance is below conv exactly for equal strings, where it is 0 |
| Minkowski.IntDist | minkowski.c:32-60 | an empty input gives the other input's length |
| Minkowski.MinkowskiD | minkowski.c:20-62 | the routine returns `Dist`, which is non-negative and 0 for equal strings |
| Minkowski.Manhattan | distance.h:47-48 | `MANHATTAN_D` is the power-1 distance: non-negative, symmetric and 0 for equal strings |
| Minkowski.Euclid | distance.h:49-50 | `EUCLID_D` is the power-2 distance: non-negative, symmetric and 0 for equal strings |
| Minkowski.AtLeastZero | minkowski.c:37-56 | the integer distance is never negative |
| Minkowski.Identity | test/test.c:318-324 | equal strings are at distance 0 for every power |
| Minkowski.Symmetric | test/test.c:326-332 | the distance does not depend on the order of the inputs |
| Minkowski.PowerZeroIsLevenshtein | minkowski.c:45-52 | at power 0 every edge costs 1 (`pow(x, 0) == 1`), so the distance is Levenshtein's |
| Minkowski.DuplicateFree | minkowski.c:45-54 | repeating a byte next to itself is free |
| Minkowski.OneSubstitution | minkowski.c:45-54 | substituting x by y costs at most \|x - y\|^power |
| Hamming.Hamming | hamming.c:27-32 | the result is -1 exactly when the lengths differ or are 0, and 0 for equal strings |
| Hamming.HammingD | hamming.c:15-42 | the scanning routine returns `Hamming`, which is between 0 and the length for comparable strings |
| Hamming.CountsMismatches | hamming.c:34-41 | for comparable strings the result is the number of differing positions |
| Hamming.Range | hamming.c:27-41 | for comparable strings the result lies in 0..length |
| Hamming.ZeroIffEqual | hamming.c:31-41 | for comparable strings the result is 0 exactly when they are equal |
| Hamming.Symmetric | hamming.c:34-41 | the result does not depend on the order of the inputs |
| Hamming.AgainstLevenshtein | hamming.c:34-41 | the Levenshtein distance is at most the Hamming distance and at least that distance capped at 2 |
| Jaccard.Jaccard | jaccard.c:33-38 | -1.0 when the lengths differ or are 0, 0.0 for equal strings |
| Jaccard.JaccardD | jaccard.c:20-53 | the scanning routine returns `Jaccard` |
| Jaccard.MatchRatio | jaccard.c:40-52 | for unequal comparable strings the result is the share of equal positions |
| Jaccard.AgainstHamming | jaccard.c:40-52 | for unequal comparable strings the result is 1 minus the Hamming distance over the length |
| Jaccard.Range | jaccard.c:42-52 | for unequal comparable strings the result lies in [0, 1) |
| Jaccard.AllDiffer | jaccard.c:51-52 | strings that differ at every position also give 0.0 |
| Jaccard.Symmetric | jaccard.c:42-52 | the result does not depend on the order of the inputs |
| Jaccard.ExitDisagreesWithScan | jaccard.c:37-52 | the early exit gives 0 for equal strings where the scan would give 1 |
| Jaccard.EqualLooksLikeDisjoint | jaccard.c:37-52 | "ab" against itself and "ab" against "cd" both give 0.0 |
| Jaccard.CorrectedIsMismatchShare | jaccard.c:40-52 | the corrected routine gives the share of differing positions: 0 exactly for equal strings, 1 when every position differs |
| Jaccard.CorrectedComplementsWritten | jaccard.c:51-52 | the corrected value and the written value add up to 1 |
| Bloom.Adler32 | bloom.c:102-129 | NULL gives 1; otherwise both halves of the checksum stay below 65521 and the result fits in 32 bits |
| Bloom.WindowChecksum | bloom.c:96-128 | a 4-byte window hashed from seed 0 gives (4b0+3b1+2b2+b3)·65536 + (b0+b1+b2+b3), with both halves below 65521 |
| Bloom.WindowBit | bloom.c:149-151 | every window's bit index lies inside the digest |
| Bloom.ByteSumBit | bloom.c:149-150 | for 8- and 16-byte digests (64 or 128 bits), a window's bit is its byte sum modulo the bit count |
| Bloom.BloomCreate | bloom.c:137-157 | the digest starts cleared, and a bit ends up set exactly when some hashed window maps to it |
| Bloom.SetBits | bloom.c:147-156 | after the first `count` windows, a bit is set exactly when one of those windows maps to it |
| Bloom.SamePrefixSameDigest | bloom.c:148-156 | inputs that agree on their first `digest_len` bytes have the same digest |
| Bloom.DigestBits | bloom.c:148-156 | a digest holds at least 1 and at most `digest_len - 3` set bits |
| Bloom.CommonAtMost | bloom.c:182-184 | the bits common to two digests are at most the bits of each |
| Bloom.CommonSymmetric | bloom.c:182-184 | the common bit count does not depend on the order of the digests |
| Bloom.BloomD | bloom.c:163-192 | the counting loops return the documented distance, which lies in [0, 1) and is 0 when no bit is shared |
| Bloom.Range | bloom.c:186-191 | both readings of `bloom_d` lie in [0, 1) |
| Bloom.Disjoint | bloom.c:189-191 | digests without a common bit are at distance 0 under both readings |
| Bloom.SelfDistance | test/test.c:173-175 | every digest is at distance 0 from itself under both readings |
| Bloom.Symmetric | bloom.c:31-36 | the documented distance does not depend on the order of the digests |
| Bloom.WrittenWhenFirstLarger | bloom.c:174-190 | the code agrees with its comment whenever `d1` has at least as many bits as `d2` |
| Bloom.WrittenIsLopsided | bloom.c:177-179 | as written, {0} against {0, 1} is at distance 0 and {0, 1} against {0} at 0.5; the documented distance is 0.5 both ways |
| BloomVectors.SpamDigest | test/test.c:155-197 | the 8-byte digest of the first spam line has bits {0, 25, 26, 27, 32}, and its 16-byte digest the bits its 13 windows' byte sums give modulo 128 |
| BloomVectors.ScamDigest | test/test.c:156-198 | the 8-byte digest of the second spam line has bits {0, 25, 26, 32}, and likewise for its 16-byte digest |
| BloomVectors.ProseDigest | test/test.c:157-199 | the 8-byte digest of the prose line has bits {19, 32, 33, 52}, and likewise for its 16-byte digest |
| BloomVectors.Expected | test/test.c:169-184 | 8-byte digests give 0 against themselves, then 0.2, 0.8 and 0.75, under both readings |
| BloomVectors.Expected128 | test/test.c:197-212 | 16-byte digests give 0 against themselves, then 0.5, 5/6 and 11/12, under both readings; the test compares with 0.83333333333 and 0.91666666666 to within 0.0001 (test/test.c:37-39) |
| Vectors.FooBar | test/test.c:74-76 | "foo bar" and "foo   bar" are at Levenshtein distance 2 |
| Vectors.SwapLevenshtein | python/test.py:14-17 | one adjacent swap of different bytes is at Levenshtein distance 2, in either order |
| Vectors.JoseLevenshtein | python/test.py:14-17 | both jose pairs are at Levenshtein distance 2 |
| Vectors.JoseHamming | python/test.py:23-24 | both jose pairs are at Hamming distance 2 |
| Vectors.SpamHamming | test/test.c:134-136 | the two 53-byte spam lines differ at 36 positions |
| Vectors.JaccardShare | jaccard.c:40-52 | comparable strings with k of n positions differing, k not 0, give (n - k) / n |
| Vectors.ParteJaccard | test/test.c:286-288 | "this party is started" against "this parte is started" gives 20/21 |
| Vectors.WasJaccard | test/test.c:290-292 | "this party is started" against "this party wasstarted" gives 18/21 |
| Vectors.UniformConversion | needleman_wunsch.c:50-61 | under uniform costs 0 < conv <= ins, one substituted byte costs exactly conv |
| Vectors.PartyNeedlemanWunsch | test/test.c:251-253 | with the test's uniform table, "this party is started" against "this parte is started" gives 0.1 |
| Vectors.PartySpace | test/test.c:350-352 | doubling a space of "this party is started" is at Manhattan distance 0 |
| Vectors.PartyManhattan | test/test.c:326-328 | "this party is started" against "this parte is started" at power 1 is at most 20 |
| Vectors.ParteManhattan | test/test.c:330-332 | the other order at power 1 is at most 20 |
| Vectors.ParteSquare | test/test.c:334-336 | at power 2 it is at most 400 |
| Vectors.InsertedDamerau | damerau.c:41-69 | one inserted byte is at Damerau distance 1 with a fresh flag |
| Vectors.NazarioSpace | test/test.c:108-110 | "hello my name is jose nazario" against the same line with a doubled space gives 1 |
| Vectors.JoseSwaps | python/test.py:29-31 | under the stateless swap relaxation both jose pairs are at distance 0 |
| Vectors.JoseDamerau | python/test.py:26-31 | with the code's flag rule both jose pairs are at distance 0, as the test expects |
| Damerau.SwapCharged | damerau.c:53-62 | as written, "abaa" against "aaba" (one adjacent swap) costs 1; the stateless relaxation gives 0 |

## Left out

- Memory allocation (`malloc`, `free`, the unchecked allocation results) and the memory layout of the buffers. The model uses sequences and Dafny arrays.
- Floating point. `double` and `float` results are `real`s, so rounding is not modelled. `jaccard_d` computes in single precision.
- Damerau.SwapDist: a stateless relaxation, not the distance of the header comment of damerau.c:7-9. It frees each half of every swapped pair, so overlapping pairs such as "aba" against "bab" cost 0 (Damerau.ChainedSwapsFree). Only the single-swap promise (Damerau.SwapIsFree) is proved for it.
- Reads outside any buffer. `s[i - 2]` with i = 1 and `t[j - 2]` with j = 1 (damerau.c:58-59) read before their strings, and the seed loops of needleman_wunsch.c:36-45 read `t[k]` and `s[k]` past the shorter input. C leaves those bytes unknown. `Distance.At` fixes them at 0, the value of the terminator. A different stray byte could change a `damerau_d` cost, or select a different `needleman_wunsch_d` table entry than the model does.
- C `int` overflow. The tables and the Minkowski powers are unbounded integers. Large powers overflow in C, and the model does not reproduce that.
- The `NMAX` chunking and `DO16` unrolling of `adler32`. They only keep the 32-bit sums from overflowing between reductions modulo 65521, and do not change the result. `Bloom.Adler32` adds byte by byte and reduces once at the end, which is exactly what the code does for the 4-byte windows `bloom_create` hashes.
- The Gillies `bitcount` macro (bloom.c:57-62). It is specified as a population count (`Bloom.Pop`); the octal-mask trick itself is not proved.
- Bytes 128..255 and signed-`char` indexing. Inputs are C strings of bytes 1..127, so the sign-extended table indices of `needleman_wunsch_d` and the negative byte sums of `adler32` do not arise.
- Inputs shorter than `digest_len` for `bloom_create`. The code then hashes bytes past the end of the data, so the model requires at least `digest_len` bytes. A `digest_len` that is not a positive multiple of 4 is excluded too, as the comment of bloom.c:131-136 demands.
- Negative Minkowski powers. `pow` then yields fractions, and the `int` table truncates them.
- The Python bindings (python/pydistance.c), the swig scripts and the test harness code. They serve only as sources of expected values.
- Vectors.PartyManhattan: proves only the upper bound 20 of test/test.c:326-328, not equality. The lower bound needs an argument over every path of the weighted table.
- Vectors.ParteManhattan: upper bound 20 only, for the same reason.
- Vectors.ParteSquare: upper bound 400 only, for the same reason.
- Expected values that are not proved. They are left out because unfolding the recurrence over strings of 20 to 60 bytes is beyond what the verifier does in reasonable time, and no generic lemma covers them:
  - Levenshtein 19 (test/test.c:65-67);
  - Needleman-Wunsch 2.30 and 1.10 (test/test.c:247-249, 255-257);
  - Minkowski 23, 6575 and 18 (test/test.c:338-348);
  - Damerau 0, 2 and 2 for the pairs d1/d2, d1/d3 and d1/d5 (test/test.c:100-106, 112-114).

## Findings

| source | as written | input that shows it | evidently intended | confidence | as-written member | corrected member |
|---|---|---|---|---|---|---|
| damerau.c:53-62 | The second branch raises the flag at the first cell of a swapped pair. The third branch lowers it at the next cell in scan order whose bytes match the pair behind. That cell can lie off the pair's diagonal; the diagonal cell then finds the flag lowered and pays 1. | "abaa" against "aaba": a single adjacent swap, yet `damerau_d` gives 1 | one adjacent swap costs nothing (damerau.c:7-9) | not executed | Damerau.SwapCharged | Damerau.SwapIsFree (a stateless relaxation; see "## Left out") |
| jaccard.c:43-52 | `same` counts differing positions and `diff` equal ones, so the routine returns the share of equal positions. Equal strings exit early with 0.0. | "ab" against "ab" and "ab" against "cd" both give 0.0 | the share of differing positions: 0.0 for equal strings, 1.0 for strings differing everywhere | not executed | Jaccard.EqualLooksLikeDisjoint | Jaccard.CorrectedIsMismatchShare |
| bloom.c:177-179 | `bit_cnt2` is summed over `d1` again, so the normaliser is the bit count of `d1` alone | the 32-bit digests {0} and {0, 1}: 0.0 in one order, 0.5 in the other | the larger of both digests' bit counts (bloom.c:31-36), symmetric | not executed | Bloom.WrittenIsLopsided | Bloom.BloomD |

=== FILE: bloom.dfy ===
/**
 * The Bloom-filter fingerprint of bloom.c: `adler32` (a checksum over a
 * window of bytes), `bloom_create` (which sets one digest bit per 4-byte
 * window) and `bloom_d` (a distance between two digests from the bit counts
 * of each digest and of their conjunction).
 *
 * A digest of `digestLen` bytes is modelled as its `8 * digestLen` bits:
 * bit k of the model is bit k % 8 of byte k / 8 of the C buffer, which is
 * how bloom.c:151 addresses bit `bit_id`. Data bytes are non-negative
 * signed chars (0..127).
 */
module Bloom {
  import opened Distance

  /** `BASE` of bloom.c:89: the largest prime below 65536. */
  const Base: nat := 65521

  /** 1 << 16: the weight of the high half of the checksum. */
  const Half: nat := 0x1_0000

  /** `ADLER_WINDOW` of bloom.c:51: the bytes hashed per digest bit. */
  const Window: nat := 4

  /** The `const char *buf` argument of `adler32`, which may be NULL. */
  datatype Buffer = Null | Buffer(bytes: seq<int>)

  /** Data bytes as `bloom_create` reads them: non-negative signed chars. */
  predicate IsData(bytes: seq<int>)
  {
    forall k :: 0 <= k < |bytes| ==> 0 <= bytes[k] <= 127
  }

  /** The two running sums after `DO1` (bloom.c:96) has consumed `bytes`. */
  function Sums(s1: nat, s2: nat, bytes: seq<int>): (nat, nat)
    requires IsData(bytes)
    decreases |bytes|
  {
    if |bytes| == 0 then (s1, s2)
    else Sums(s1 + bytes[0], s2 + s1 + bytes[0], bytes[1..])
  }

  /**
   * `adler32(adler, buf, |bytes|)` of bloom.c:102-129: 1 for a NULL buffer;
   * otherwise the halves of `adler` are the starting sums, each byte is
   * added by `DO1`, both sums are reduced modulo `Base` once bytes have been
   * read, and the result packs them as `(s2 << 16) | s1`.
   */
  function Adler32(adler: nat, buf: Buffer): (r: nat)
    requires adler < 0x1_0000_0000
    requires buf.Buffer? ==> IsData(buf.bytes)
    ensures buf.Null? ==> r == 1
    ensures buf.Buffer? && |buf.bytes| == 0 ==> r == adler
    ensures buf.Buffer? && |buf.bytes| != 0 ==> r % Half < Base && r / Half < Base
    ensures r < 0x1_0000_0000
  {
    if buf.Null? then 1
    else
      var s1 := adler % Half;
      var s2 := (adler / Half) % Half;
      if |buf.bytes| == 0 then s2 * Half + s1
      else
        var sums := Sums(s1, s2, buf.bytes);
        (sums.1 % Base) * Half + sums.0 % Base
  }

  /** The running sums over four bytes, from zero. */
  lemma WindowSums(b0: int, b1: int, b2: int, b3: int)
    requires IsData([b0, b1, b2, b3])
    ensures Sums(0, 0, [b0, b1, b2, b3]) == (b0 + b1 + b2 + b3, 4 * b0 + 3 * b1 + 2 * b2 + b3)
  {
    assert [b0, b1, b2, b3][1..] == [b1, b2, b3];
    assert [b1, b2, b3][1..] == [b2, b3];
    assert [b2, b3][1..] == [b3];
    assert [b3][1..] == [];
    assert Sums(0, 0, [b0, b1, b2, b3]) == Sums(b0, b0, [b1, b2, b3]);
    assert Sums(b0, b0, [b1, b2, b3]) == Sums(b0 + b1, 2 * b0 + b1, [b2, b3]);
    assert Sums(b0 + b1, 2 * b0 + b1, [b2, b3]) == Sums(b0 + b1 + b2, 3 * b0 + 2 * b1 + b2, [b3]);
  }

  /**
   * On a 4-byte window and a zero seed the checksum is the byte sum in the
   * low half and the position-weighted sum in the high half; neither
   * reaches `Base`, so no reduction happens.
   */
  lemma WindowChecksum(b0: int, b1: int, b2: int, b3: int)
    requires IsData([b0, b1, b2, b3])
    ensures Adler32(0, Buffer([b0, b1, b2, b3])) == (4 * b0 + 3 * b1 + 2 * b2 + b3) * Half + (b0 + b1 + b2 + b3)
    ensures b0 + b1 + b2 + b3 < Base && 4 * b0 + 3 * b1 + 2 * b2 + b3 < Base
  {
    var w := [b0, b1, b2, b3];
    assert w[0] == b0 && w[1] == b1 && w[2] == b2 && w[3] == b3;
    WindowSums(b0, b1, b2, b3);
    var low := b0 + b1 + b2 + b3;
    var high := 4 * b0 + 3 * b1 + 2 * b2 + b3;
    assert low % Base == low && high % Base == high;
    assert Adler32(0, Buffer(w)) == (high % Base) * Half + low % Base;
  }

  /** `bloom_create` and `bloom_d` demand a digest length divisible by 4 (bloom.c:134-135, 161). */
  predicate ValidLength(digestLen: nat)
  {
    digestLen > 0 && digestLen % 4 == 0
  }

  /**
   * What `bloom_create` needs of its arguments: an aligned digest length and
   * at least `digestLen` bytes of data, since the last window read ends at
   * byte `digestLen` (bloom.c:149, 154); those bytes are all it reads.
   */
  predicate Fits(data: seq<int>, digestLen: nat)
  {
    ValidLength(digestLen) && digestLen <= |data| && forall k :: 0 <= k < digestLen ==> 0 <= data[k] <= 127
  }

  /** A window inside the first `digestLen` bytes holds data bytes. */
  lemma WindowIsData(data: seq<int>, digestLen: nat, offset: nat)
    requires Fits(data, digestLen) && offset + Window <= digestLen
    ensures IsData(data[offset..offset + Window])
  {
    var w := data[offset..offset + Window];
    forall k | 0 <= k < |w|
      ensures 0 <= w[k] <= 127
    {
      assert w[k] == data[offset + k];
    }
  }

  /** The number of windows hashed: offsets 0 .. digestLen - 4 (bloom.c:148-156). */
  function Windows(digestLen: nat): nat
    requires ValidLength(digestLen)
  {
    digestLen - Window + 1
  }

  /** `bit_id` of bloom.c:149-150 for the window at `offset`. */
  function WindowBit(data: seq<int>, digestLen: nat, offset: nat): (bit: nat)
    requires Fits(data, digestLen) && offset < Windows(digestLen)
    ensures bit < 8 * digestLen
  {
    WindowIsData(data, digestLen, offset);
    Adler32(0, Buffer(data[offset..offset + Window])) % (8 * digestLen)
  }

  /** The low half of a window's checksum: the sum of its four bytes. */
  function ByteSum(data: seq<int>, offset: nat): int
    requires offset + Window <= |data|
  {
    data[offset] + data[offset + 1] + data[offset + 2] + data[offset + 3]
  }

  /**
   * For the 8- and 16-byte digests of test/test.c:162, 190 the bit count
   * divides 65536, so the high half drops out of `bit_id`: a window's bit is
   * its byte sum modulo the bit count.
   */
  lemma ByteSumBit(data: seq<int>, digestLen: nat, offset: nat)
    requires Fits(data, digestLen) && offset < Windows(digestLen)
    requires digestLen == 8 || digestLen == 16
    ensures WindowBit(data, digestLen, offset) == ByteSum(data, offset) % (8 * digestLen)
  {
    var w := data[offset..offset + Window];
    assert w == [data[offset], data[offset + 1], data[offset + 2], data[offset + 3]];
    WindowChecksum(w[0], w[1], w[2], w[3]);
    var high := 4 * w[0] + 3 * w[1] + 2 * w[2] + w[3];
    var low := w[0] + w[1] + w[2] + w[3];
    HighHalfDrops(high, low, 8 * digestLen);
  }

  /** m divides 65536, so a multiple of 65536 vanishes modulo m. */
  lemma HighHalfDrops(high: nat, low: nat, m: nat)
    requires m == 64 || m == 128
    ensures (high * Half + low) % m == low % m
  {
    var q := high * (Half / m);
    assert high * Half == q * m;
    var r := low % m;
    assert low == (low / m) * m + r;
    assert q * m + low == (q + low / m) * m + r;
  }

  /** The all-clear digest `memset` leaves (bloom.c:147). */
  function Zeros(n: nat): (d: seq<bool>)
    ensures |d| == n
    ensures forall k :: 0 <= k < n ==> !d[k]
  {
    seq(n, _ => false)
  }

  /** The digest once the windows at offsets below `count` have set their bits. */
  function Marked(data: seq<int>, digestLen: nat, count: nat): (d: seq<bool>)
    requires Fits(data, digestLen) && count <= Windows(digestLen)
    ensures |d| == 8 * digestLen
  {
    if count == 0 then Zeros(8 * digestLen)
    else Marked(data, digestLen, count - 1)[WindowBit(data, digestLen, count - 1) := true]
  }

  /** The digest `bloom_create(data, |data|, digest, digestLen)` leaves in `digest`. */
  function Create(data: seq<int>, digestLen: nat): (d: seq<bool>)
    requires Fits(data, digestLen)
    ensures |d| == 8 * digestLen
  {
    Marked(data, digestLen, Windows(digestLen))
  }

  /**
   * bloom.c:137-157: clear the digest, then set the bit of every window,
   * sliding by one byte until the next window would pass `digestLen`.
   */
  method BloomCreate(data: seq<int>, digestLen: nat) returns (digest: seq<bool>)
    requires Fits(data, digestLen)
    ensures digest == Create(data, digestLen)
    ensures forall k :: 0 <= k < |digest| ==> (digest[k] <==> exists o :: 0 <= o < Windows(digestLen) && WindowBit(data, digestLen, o) == k)
  {
    digest := Zeros(8 * digestLen);
    var offset := 0;
    while true
      invariant 0 <= offset < Windows(digestLen)
      invariant digest == Marked(data, digestLen, offset)
      decreases Windows(digestLen) - offset
    {
      WindowIsData(data, digestLen, offset);
      var adler := Adler32(0, Buffer(data[offset..offset + Window]));
      var bitId := adler % (digestLen * 8);
      digest := digest[bitId := true];
      offset := offset + 1;
      if offset + Window > digestLen {
        break;
      }
    }
    SetBits(data, digestLen, Windows(digestLen));
  }

  /** A bit of the digest is set exactly when some hashed window maps to it. */
  lemma {:induction false} SetBits(data: seq<int>, digestLen: nat, count: nat)
    requires Fits(data, digestLen) && count <= Windows(digestLen)
    ensures forall k :: 0 <= k < 8 * digestLen ==> (Marked(data, digestLen, count)[k] <==> exists o :: 0 <= o < count && WindowBit(data, digestLen, o) == k)
  {
    if count != 0 {
      SetBits(data, digestLen, count - 1);
      var last := WindowBit(data, digestLen, count - 1);
      forall k | 0 <= k < 8 * digestLen
        ensures Marked(data, digestLen, count)[k] <==> exists o :: 0 <= o < count && WindowBit(data, digestLen, o) == k
      {
        if k != last && exists o :: 0 <= o < count && WindowBit(data, digestLen, o) == k {
          var o :| 0 <= o < count && WindowBit(data, digestLen, o) == k;
          assert o < count - 1;
        }
      }
    }
  }

  /** Only the first `digestLen` bytes of the data reach the digest. */
  lemma {:induction false} PrefixOnly(data: seq<int>, other: seq<int>, digestLen: nat, count: nat)
    requires Fits(data, digestLen) && Fits(other, digestLen) && count <= Windows(digestLen)
    requires data[..digestLen] == other[..digestLen]
    ensures Marked(data, digestLen, count) == Marked(other, digestLen, count)
  {
    if count != 0 {
      PrefixOnly(data, other, digestLen, count - 1);
      SameWindow(data, other, digestLen, count - 1);
    }
  }

  /** A window inside the first `digestLen` bytes sees only those bytes. */
  lemma SameWindow(data: seq<int>, other: seq<int>, digestLen: nat, offset: nat)
    requires offset + Window <= digestLen <= |data| && digestLen <= |other|
    requires data[..digestLen] == other[..digestLen]
    ensures data[offset..offset + Window] == other[offset..offset + Window]
  {
    assert data[offset..offset + Window] == data[..digestLen][offset..offset + Window];
    assert other[offset..offset + Window] == other[..digestLen][offset..offset + Window];
  }

  /** The digests of two inputs that agree on their first `digestLen` bytes are equal. */
  lemma SamePrefixSameDigest(data: seq<int>, other: seq<int>, digestLen: nat)
    requires Fits(data, digestLen) && Fits(other, digestLen)
    requires data[..digestLen] == other[..digestLen]
    ensures Create(data, digestLen) == Create(other, digestLen)
  {
    PrefixOnly(data, other, digestLen, Windows(digestLen));
  }

  // Population counts

  /** The set bits among the first n bits of d. */
  function Count(d: seq<bool>, n: nat): nat
    requires n <= |d|
  {
    if n == 0 then 0 else Count(d, n - 1) + (if d[n - 1] then 1 else 0)
  }

  /** The population count the `bitcount` loops of bloom.c:174-179 add up. */
  function Pop(d: seq<bool>): nat
  {
    Count(d, |d|)
  }

  /** The set bits among the first n bits of `d1 & d2` (bloom.c:182-184). */
  function Common(d1: seq<bool>, d2: seq<bool>, n: nat): nat
    requires n <= |d1| && n <= |d2|
  {
    if n == 0 then 0 else Common(d1, d2, n - 1) + (if d1[n - 1] && d2[n - 1] then 1 else 0)
  }

  /** Setting bit k adds one to the count exactly when that bit was clear and is counted. */
  lemma {:induction false} CountSet(d: seq<bool>, k: nat, n: nat)
    requires k < |d| && n <= |d|
    ensures Count(d[k := true], n) == Count(d, n) + (if k < n && !d[k] then 1 else 0)
  {
    if n != 0 {
      CountSet(d, k, n - 1);
    }
  }

  /** The cleared digest has no bits set. */
  lemma {:induction false} CountZeros(len: nat, n: nat)
    requires n <= len
    ensures Count(Zeros(len), n) == 0
  {
    if n != 0 {
      CountZeros(len, n - 1);
    }
  }

  /** Each window sets at most one new bit, and the first one always sets one. */
  lemma {:induction false} MarkedCount(data: seq<int>, digestLen: nat, count: nat)
    requires Fits(data, digestLen) && count <= Windows(digestLen)
    ensures Pop(Marked(data, digestLen, count)) <= count
    ensures count != 0 ==> Pop(Marked(data, digestLen, count)) >= 1
  {
    if count == 0 {
      CountZeros(8 * digestLen, 8 * digestLen);
    } else {
      MarkedCount(data, digestLen, count - 1);
      CountSet(Marked(data, digestLen, count - 1), WindowBit(data, digestLen, count - 1), 8 * digestLen);
    }
  }

  /** A digest holds between 1 and `digestLen - 3` set bits. */
  lemma DigestBits(data: seq<int>, digestLen: nat)
    requires Fits(data, digestLen)
    ensures 1 <= Pop(Create(data, digestLen)) <= digestLen - 3
  {
    MarkedCount(data, digestLen, Windows(digestLen));
  }

  /** The common bits are bits of each digest. */
  lemma {:induction false} CommonAtMost(d1: seq<bool>, d2: seq<bool>, n: nat)
    requires n <= |d1| && n <= |d2|
    ensures Common(d1, d2, n) <= Count(d1, n) && Common(d1, d2, n) <= Count(d2, n)
  {
    if n != 0 {
      CommonAtMost(d1, d2, n - 1);
    }
  }

  /** A digest shares all its bits with itself. */
  lemma {:induction false} CommonSelf(d: seq<bool>, n: nat)
    requires n <= |d|
    ensures Common(d, d, n) == Count(d, n)
  {
    if n != 0 {
      CommonSelf(d, n - 1);
    }
  }

  /** The conjunction does not depend on the order of the digests. */
  lemma {:induction false} CommonSymmetric(d1: seq<bool>, d2: seq<bool>, n: nat)
    requires n <= |d1| && n <= |d2|
    ensures Common(d1, d2, n) == Common(d2, d1, n)
  {
    if n != 0 {
      CommonSymmetric(d1, d2, n - 1);
    }
  }

  /** Setting bit k of d1 adds one common bit exactly when it is new and set in d2. */
  lemma {:induction false} CommonSet(d1: seq<bool>, d2: seq<bool>, k: nat, n: nat)
    requires k < |d1| && n <= |d1| && n <= |d2|
    ensures Common(d1[k := true], d2, n) == Common(d1, d2, n) + (if k < n && !d1[k] && d2[k] then 1 else 0)
  {
    if n != 0 {
      CommonSet(d1, d2, k, n - 1);
    }
  }

  /** The cleared digest shares no bit with any digest. */
  lemma {:induction false} CommonZeros(d: seq<bool>, n: nat)
    requires n <= |d|
    ensures Common(Zeros(|d|), d, n) == 0
  {
    if n != 0 {
      CommonZeros(d, n - 1);
    }
  }

  // The distance

  /** Two digests `bloom_d` can compare: the same aligned length. */
  predicate Comparable(d1: seq<bool>, d2: seq<bool>)
  {
    |d1| == |d2| && |d1| % 32 == 0
  }

  /** 1 - common / normaliser when the digests overlap, 0 otherwise (bloom.c:188-191). */
  function Ratio(common: nat, normaliser: nat): real
    requires common <= normaliser
  {
    if common != 0 then 1.0 - common as real / normaliser as real else 0.0
  }

  /**
   * The distance the comment of bloom.c:31-36 describes: the common bit
   * count normalised by the larger of the two digests' bit counts.
   */
  function Dist(d1: seq<bool>, d2: seq<bool>): real
    requires Comparable(d1, d2)
  {
    CommonAtMost(d1, d2, |d1|);
    Ratio(Common(d1, d2, |d1|), Max(Pop(d1), Pop(d2)))
  }

  /**
   * The value bloom.c:163-192 computes: `bit_cnt2` is summed over `d1`
   * again (bloom.c:177-179), so the normaliser is the count of `d1` alone.
   */
  function Written(d1: seq<bool>, d2: seq<bool>): real
    requires Comparable(d1, d2)
  {
    CommonAtMost(d1, d2, |d1|);
    var bitCnt1 := Pop(d1);
    var bitCnt2 := Pop(d1);
    Ratio(Common(d1, d2, |d1|), Max(bitCnt1, bitCnt2))
  }

  /**
   * `bloom_d` with the second count taken over `d2`, as its comment says:
   * three counting passes, then the ratio.
   */
  method BloomD(d1: seq<bool>, d2: seq<bool>) returns (distance: real)
    requires Comparable(d1, d2)
    ensures distance == Dist(d1, d2)
    ensures 0.0 <= distance < 1.0
    ensures distance == 0.0 <== Common(d1, d2, |d1|) == 0
  {
    var bitCnt1 := 0;
    var j := 0;
    while j < |d1|
      invariant 0 <= j <= |d1|
      invariant bitCnt1 == Count(d1, j)
    {
      bitCnt1 := bitCnt1 + (if d1[j] then 1 else 0);
      j := j + 1;
    }
    var bitCnt2 := 0;
    j := 0;
    while j < |d2|
      invariant 0 <= j <= |d2|
      invariant bitCnt2 == Count(d2, j)
    {
      bitCnt2 := bitCnt2 + (if d2[j] then 1 else 0);
      j := j + 1;
    }
    var d := 0;
    j := 0;
    while j < |d1|
      invariant 0 <= j <= |d1|
      invariant d == Common(d1, d2, j)
    {
      d := d + (if d1[j] && d2[j] then 1 else 0);
      j := j + 1;
    }
    var b := if bitCnt1 > bitCnt2 then bitCnt1 else bitCnt2;
    CommonAtMost(d1, d2, |d1|);
    if d != 0 {
      distance := 1.0 - d as real / b as real;
    } else {
      distance := 0.0;
    }
    Range(d1, d2);
  }

  /** An overlapping ratio lies in [0, 1); no overlap gives 0. */
  lemma RatioRange(common: nat, normaliser: nat)
    requires common <= normaliser
    ensures 0.0 <= Ratio(common, normaliser) < 1.0
    ensures common == 0 ==> Ratio(common, normaliser) == 0.0
    ensures common == normaliser ==> Ratio(common, normaliser) == 0.0
  {
    if common != 0 {
      var q := common as real / normaliser as real;
      assert q * normaliser as real == common as real;
      assert 0.0 < q <= 1.0;
    }
  }

  /** Both readings of `bloom_d` lie in [0, 1). */
  lemma Range(d1: seq<bool>, d2: seq<bool>)
    requires Comparable(d1, d2)
    ensures 0.0 <= Dist(d1, d2) < 1.0
    ensures 0.0 <= Written(d1, d2) < 1.0
  {
    CommonAtMost(d1, d2, |d1|);
    RatioRange(Common(d1, d2, |d1|), Max(Pop(d1), Pop(d2)));
    RatioRange(Common(d1, d2, |d1|), Pop(d1));
  }

  /** Digests without a common bit are at distance 0 under both readings. */
  lemma Disjoint(d1: seq<bool>, d2: seq<bool>)
    requires Comparable(d1, d2)
    requires forall k :: 0 <= k < |d1| ==> !(d1[k] && d2[k])
    ensures Dist(d1, d2) == 0.0 && Written(d1, d2) == 0.0
  {
    NoCommon(d1, d2, |d1|);
  }

  lemma {:induction false} NoCommon(d1: seq<bool>, d2: seq<bool>, n: nat)
    requires n <= |d1| && n <= |d2|
    requires forall k :: 0 <= k < n ==> !(d1[k] && d2[k])
    ensures Common(d1, d2, n) == 0
  {
    if n != 0 {
      NoCommon(d1, d2, n - 1);
    }
  }

  /** Every digest is at distance 0 from itself, under both readings. */
  lemma SelfDistance(d: seq<bool>)
    requires Comparable(d, d)
    ensures Dist(d, d) == 0.0 && Written(d, d) == 0.0
  {
    CommonSelf(d, |d|);
    RatioRange(Pop(d), Pop(d));
  }

  /** The documented distance does not depend on the order of the digests. */
  lemma Symmetric(d1: seq<bool>, d2: seq<bool>)
    requires Comparable(d1, d2)
    ensures Dist(d1, d2) == Dist(d2, d1)
  {
    CommonSymmetric(d1, d2, |d1|);
  }

  /** The code agrees with its comment whenever `d1` has at least as many bits as `d2`. */
  lemma WrittenWhenFirstLarger(d1: seq<bool>, d2: seq<bool>)
    requires Comparable(d1, d2)
    requires Pop(d1) >= Pop(d2)
    ensures Written(d1, d2) == Dist(d1, d2)
  {
  }

  /** A 32-bit digest with bits 0 and 1 set, and one with bit 0 alone. */
  function TwoBits(): (d: seq<bool>)
    ensures |d| == 32 && Pop(d) == 2
  {
    CountSet(Zeros(32)[0 := true], 1, 32);
    CountSet(Zeros(32), 0, 32);
    CountZeros(32, 32);
    Zeros(32)[0 := true][1 := true]
  }

  function OneBit(): (d: seq<bool>)
    ensures |d| == 32 && Pop(d) == 1
  {
    CountSet(Zeros(32), 0, 32);
    CountZeros(32, 32);
    Zeros(32)[0 := true]
  }

  /**
   * The double count of `d1` makes the code disagree with its comment and
   * with itself: the digest {0} against {0, 1} is at distance 0 as written,
   * yet {0, 1} against {0} is at 0.5, the documented value for both orders.
   */
  lemma WrittenIsLopsided()
    ensures Written(OneBit(), TwoBits()) == 0.0
    ensures Written(TwoBits(), OneBit()) == 0.5
    ensures Dist(OneBit(), TwoBits()) == 0.5 && Dist(TwoBits(), OneBit()) == 0.5
  {
    var one := OneBit();
    var two := TwoBits();
    CommonSet(Zeros(32), two, 0, 32);
    CommonZeros(two, 32);
    assert Common(one, two, 32) == 1;
    CommonSymmetric(one, two, 32);
  }
}

=== FILE: bloom_vectors.dfy ===
/**
 * The 64- and 128-bit digests test/test.c:155-212 builds from three
 * sentences, and the distances it expects between them. Only the first
 * `digest_len` bytes of a sentence reach a digest, so each sentence is
 * written as two 8-byte pieces followed by the rest. A digest is described
 * by the list of its window bits, in window order.
 */
module BloomVectors {
  import opened Distance
  import opened Bloom

  const Spam: seq<int> := Bytes("Ge t gen") + Bytes(":eric Vi") + Bytes("a-gr@ f:or as low as $2.50 per 50 mg   bryce")
  const Scam: seq<int> := Bytes("G et gen") + Bytes("eri:c Vi") + Bytes("a-gra f(o)r as 1ow as $2.50 per 50 mg  southampton")
  const Prose: seq<int> := Bytes("and now ") + Bytes("for some") + Bytes("thing completely, totally, utterly different")

  // Digests as lists of window bits

  /** A list of bit positions inside an n-bit digest. */
  predicate Below(bits: seq<nat>, n: nat)
  {
    forall i :: 0 <= i < |bits| ==> bits[i] < n
  }

  /** The n-bit digest in which the listed bits are set, one update per entry. */
  function Mark(bits: seq<nat>, n: nat): (d: seq<bool>)
    requires Below(bits, n)
    ensures |d| == n
    ensures forall k :: 0 <= k < n ==> (d[k] <==> k in bits)
  {
    if |bits| == 0 then Zeros(n)
    else
      var last := |bits| - 1;
      assert bits == bits[..last] + [bits[last]];
      Mark(bits[..last], n)[bits[last] := true]
  }

  /** Positions listed in strictly increasing order, so each only once. */
  predicate Increasing(bits: seq<nat>)
  {
    forall i :: 0 < i < |bits| ==> bits[i - 1] < bits[i]
  }

  lemma {:induction false} IncreasingApart(bits: seq<nat>, i: nat, j: nat)
    requires Increasing(bits) && i < j < |bits|
    ensures bits[i] < bits[j]
    decreases j - i
  {
    if i + 1 < j {
      IncreasingApart(bits, i + 1, j);
    }
  }

  /** A digest marked from an increasing list has one bit per entry. */
  lemma {:induction false} IncreasingCount(bits: seq<nat>, n: nat)
    requires Below(bits, n) && Increasing(bits)
    ensures Pop(Mark(bits, n)) == |bits|
  {
    if |bits| == 0 {
      CountZeros(n, n);
    } else {
      var last := |bits| - 1;
      var prefix := bits[..last];
      assert Increasing(prefix);
      IncreasingCount(prefix, n);
      forall i | 0 <= i < last
        ensures prefix[i] != bits[last]
      {
        IncreasingApart(bits, i, last);
      }
      CountSet(Mark(prefix, n), bits[last], n);
    }
  }

  /** Two lists with the same members mark the same digest. */
  lemma SameMembers(bits: seq<nat>, other: seq<nat>, n: nat)
    requires Below(bits, n) && Below(other, n)
    requires forall i :: 0 <= i < |bits| ==> bits[i] in other
    requires forall i :: 0 <= i < |other| ==> other[i] in bits
    ensures Mark(bits, n) == Mark(other, n)
  {
    forall k | 0 <= k < n
      ensures Mark(bits, n)[k] == Mark(other, n)[k]
    {
      if k in bits {
        var i :| 0 <= i < |bits| && bits[i] == k;
      }
      if k in other {
        var i :| 0 <= i < |other| && other[i] == k;
      }
    }
  }

  /** The common bits of two digests are the bits of their conjunction d. */
  lemma {:induction false} CommonIsCount(d1: seq<bool>, d2: seq<bool>, d: seq<bool>, n: nat)
    requires n <= |d1| && n <= |d2| && n <= |d|
    requires forall k :: 0 <= k < n ==> d[k] == (d1[k] && d2[k])
    ensures Common(d1, d2, n) == Count(d, n)
  {
    if n != 0 {
      CommonIsCount(d1, d2, d, n - 1);
    }
  }

  /** Two marked digests share the bits of a list of the members of both. */
  lemma MarkCommon(bits: seq<nat>, other: seq<nat>, both: seq<nat>, n: nat)
    requires Below(bits, n) && Below(other, n) && Below(both, n)
    requires forall i :: 0 <= i < |bits| ==> bits[i] in other ==> bits[i] in both
    requires forall i :: 0 <= i < |both| ==> both[i] in bits && both[i] in other
    ensures Common(Mark(bits, n), Mark(other, n), n) == Pop(Mark(both, n))
  {
    forall k | 0 <= k < n
      ensures Mark(both, n)[k] == (Mark(bits, n)[k] && Mark(other, n)[k])
    {
      if k in bits {
        var i :| 0 <= i < |bits| && bits[i] == k;
      }
      if k in both {
        var i :| 0 <= i < |both| && both[i] == k;
      }
    }
    CommonIsCount(Mark(bits, n), Mark(other, n), Mark(both, n), n);
  }

  /** Setting the bits of the first windows one by one marks exactly their list. */
  lemma {:induction false} MarkedIsMark(data: seq<int>, digestLen: nat, bits: seq<nat>)
    requires Fits(data, digestLen) && |bits| <= Windows(digestLen)
    requires forall o :: 0 <= o < |bits| ==> WindowBit(data, digestLen, o) == bits[o]
    ensures Below(bits, 8 * digestLen)
    ensures Marked(data, digestLen, |bits|) == Mark(bits, 8 * digestLen)
  {
    if |bits| != 0 {
      MarkedIsMark(data, digestLen, bits[..|bits| - 1]);
    }
  }

  /** The byte sums of the first windows, modulo m, are the listed bits. */
  predicate SumsAre(data: seq<int>, m: nat, bits: seq<nat>)
    requires |bits| + 3 <= |data| && m > 0
  {
    forall o :: 0 <= o < |bits| ==> ByteSum(data, o) % m == bits[o]
  }

  /**
   * For 8- and 16-byte digests, the digest of data is the list of its
   * windows' byte sums modulo the bit count.
   */
  lemma ByteSums(data: seq<int>, digestLen: nat, bits: seq<nat>)
    requires Fits(data, digestLen) && (digestLen == 8 || digestLen == 16) && |bits| == Windows(digestLen)
    requires SumsAre(data, 8 * digestLen, bits)
    ensures Below(bits, 8 * digestLen) && Create(data, digestLen) == Mark(bits, 8 * digestLen)
  {
    forall o | 0 <= o < |bits|
      ensures WindowBit(data, digestLen, o) == bits[o]
    {
      ByteSumBit(data, digestLen, o);
    }
    MarkedIsMark(data, digestLen, bits);
  }

  /** The byte sums of the first windows depend only on the bytes they cover. */
  lemma PrefixSums(data: seq<int>, prefix: seq<int>, m: nat, bits: seq<nat>)
    requires |bits| + 3 <= |prefix| <= |data| && data[..|prefix|] == prefix && m > 0
    requires SumsAre(prefix, m, bits)
    ensures SumsAre(data, m, bits)
  {
    forall o | 0 <= o < |bits|
      ensures ByteSum(data, o) == ByteSum(prefix, o)
    {
      assert data[o] == prefix[o] && data[o + 1] == prefix[o + 1];
      assert data[o + 2] == prefix[o + 2] && data[o + 3] == prefix[o + 3];
    }
  }

  /** A digest read from the bytes `first` the sentence starts with. */
  lemma FromPrefix(data: seq<int>, first: seq<int>, digestLen: nat, bits: seq<nat>)
    requires digestLen == 8 || digestLen == 16
    requires digestLen <= |first| <= |data| && data[..|first|] == first && IsCString(first)
    requires |bits| == Windows(digestLen) && SumsAre(first, 8 * digestLen, bits)
    ensures Fits(data, digestLen) && Below(bits, 8 * digestLen)
    ensures Create(data, digestLen) == Mark(bits, 8 * digestLen)
  {
    assert forall k :: 0 <= k < |first| ==> data[k] == first[k];
    PrefixSums(data, first, 8 * digestLen, bits);
    ByteSums(data, digestLen, bits);
  }

  /** A digest holds one bit per member of a window list, given those members in increasing order. */
  lemma CountOf(bits: seq<nat>, members: seq<nat>, n: nat)
    requires Below(bits, n) && Below(members, n) && Increasing(members)
    requires forall i :: 0 <= i < |bits| ==> bits[i] in members
    requires forall i :: 0 <= i < |members| ==> members[i] in bits
    ensures Pop(Mark(bits, n)) == |members|
  {
    SameMembers(bits, members, n);
    IncreasingCount(members, n);
  }

  /** Two digests share one bit per member of both lists, given those members in increasing order. */
  lemma CommonOf(bits: seq<nat>, other: seq<nat>, both: seq<nat>, n: nat)
    requires Below(bits, n) && Below(other, n) && Below(both, n) && Increasing(both)
    requires forall i :: 0 <= i < |bits| ==> bits[i] in other ==> bits[i] in both
    requires forall i :: 0 <= i < |both| ==> both[i] in bits && both[i] in other
    ensures Common(Mark(bits, n), Mark(other, n), n) == |both|
  {
    MarkCommon(bits, other, both, n);
    IncreasingCount(both, n);
  }

  // The window bits of the three sentences, in window order: byte sums modulo 64 and 128

  const Spam64: seq<nat> := [0, 25, 27, 32, 26]
  const Scam64: seq<nat> := [0, 25, 32, 32, 26]
  const Prose64: seq<nat> := [19, 32, 33, 52, 52]
  const Spam128: seq<nat> := [64, 25, 27, 96, 90, 116, 114, 127, 122, 35, 94, 66, 66]
  const Scam128: seq<nat> := [64, 25, 96, 96, 90, 31, 42, 46, 122, 120, 38, 19, 66]
  const Prose128: seq<nat> := [83, 96, 97, 116, 116, 108, 108, 103, 103, 116, 116, 111, 52]

  /** The first sixteen bytes of each sentence. */
  const SpamFirst: seq<int> := [71, 101, 32, 116, 32, 103, 101, 110, 58, 101, 114, 105, 99, 32, 86, 105]
  const ScamFirst: seq<int> := [71, 32, 101, 116, 32, 103, 101, 110, 101, 114, 105, 58, 99, 32, 86, 105]
  const ProseFirst: seq<int> := [97, 110, 100, 32, 110, 111, 119, 32, 102, 111, 114, 32, 115, 111, 109, 101]

  /** "Ge t gen:eric Vi" */
  lemma SpamStart()
    ensures Spam[..16] == SpamFirst && IsCString(SpamFirst)
  {
    assert Bytes("Ge t gen") == SpamFirst[..8] && Bytes(":eric Vi") == SpamFirst[8..];
  }

  /** "G et generi:c Vi" */
  lemma ScamStart()
    ensures Scam[..16] == ScamFirst && IsCString(ScamFirst)
  {
    assert Bytes("G et gen") == ScamFirst[..8] && Bytes("eri:c Vi") == ScamFirst[8..];
  }

  /** "and now for some" */
  lemma ProseStart()
    ensures Prose[..16] == ProseFirst && IsCString(ProseFirst)
  {
    assert Bytes("and now ") == ProseFirst[..8] && Bytes("for some") == ProseFirst[8..];
  }

  /** The window byte sums of the three sentences. */
  lemma SpamSums()
    ensures SumsAre(SpamFirst, 64, Spam64) && SumsAre(SpamFirst, 128, Spam128)
  {
    assert forall o :: 0 <= o < 5 ==> ByteSum(SpamFirst, o) % 64 == Spam64[o];
    assert forall o :: 0 <= o < 13 ==> ByteSum(SpamFirst, o) % 128 == Spam128[o];
  }

  lemma ScamSums()
    ensures SumsAre(ScamFirst, 64, Scam64) && SumsAre(ScamFirst, 128, Scam128)
  {
    assert forall o :: 0 <= o < 5 ==> ByteSum(ScamFirst, o) % 64 == Scam64[o];
    assert forall o :: 0 <= o < 13 ==> ByteSum(ScamFirst, o) % 128 == Scam128[o];
  }

  lemma ProseSums()
    ensures SumsAre(ProseFirst, 64, Prose64) && SumsAre(ProseFirst, 128, Prose128)
  {
    assert forall o :: 0 <= o < 5 ==> ByteSum(ProseFirst, o) % 64 == Prose64[o];
    assert forall o :: 0 <= o < 13 ==> ByteSum(ProseFirst, o) % 128 == Prose128[o];
  }

  /** The first spam line: bits {0, 25, 26, 27, 32} of 64, and twelve bits of 128. */
  lemma SpamDigest()
    ensures Fits(Spam, 8) && Create(Spam, 8) == Mark(Spam64, 64)
    ensures Fits(Spam, 16) && Create(Spam, 16) == Mark(Spam128, 128)
  {
    SpamStart();
    SpamSums();
    FromPrefix(Spam, SpamFirst, 8, Spam64);
    FromPrefix(Spam, SpamFirst, 16, Spam128);
  }

  /** The second spam line: bits {0, 25, 26, 32} of 64, and twelve bits of 128. */
  lemma ScamDigest()
    ensures Fits(Scam, 8) && Create(Scam, 8) == Mark(Scam64, 64)
    ensures Fits(Scam, 16) && Create(Scam, 16) == Mark(Scam128, 128)
  {
    ScamStart();
    ScamSums();
    FromPrefix(Scam, ScamFirst, 8, Scam64);
    FromPrefix(Scam, ScamFirst, 16, Scam128);
  }

  /** The prose line: bits {19, 32, 33, 52} of 64, and eight bits of 128. */
  lemma ProseDigest()
    ensures Fits(Prose, 8) && Create(Prose, 8) == Mark(Prose64, 64)
    ensures Fits(Prose, 16) && Create(Prose, 16) == Mark(Prose128, 128)
  {
    ProseStart();
    ProseSums();
    FromPrefix(Prose, ProseFirst, 8, Prose64);
    FromPrefix(Prose, ProseFirst, 16, Prose128);
  }

  // The set bits of each digest and of each pair of digests, in increasing order

  const SpamSet64: seq<nat> := [0, 25, 26, 27, 32]
  const ScamSet64: seq<nat> := [0, 25, 26, 32]
  const ProseSet64: seq<nat> := [19, 32, 33, 52]
  const SpamSet128: seq<nat> := [25, 27, 35, 64, 66, 90, 94, 96, 114, 116, 122, 127]
  const ScamSet128: seq<nat> := [19, 25, 31, 38, 42, 46, 64, 66, 90, 96, 120, 122]
  const ProseSet128: seq<nat> := [52, 83, 96, 97, 103, 108, 111, 116]
  const SpamScamSet128: seq<nat> := [25, 64, 66, 90, 96, 122]
  const SpamProseSet128: seq<nat> := [96, 116]
  const ScamProseSet128: seq<nat> := [96]

  /** Bit counts: 5, 4 and 4 of 64; 12, 12 and 8 of 128. */
  lemma SpamCount64()
    ensures Pop(Mark(Spam64, 64)) == 5
  {
    CountOf(Spam64, SpamSet64, 64);
  }

  lemma ScamCount64()
    ensures Pop(Mark(Scam64, 64)) == 4
  {
    CountOf(Scam64, ScamSet64, 64);
  }

  lemma ProseCount64()
    ensures Pop(Mark(Prose64, 64)) == 4
  {
    CountOf(Prose64, ProseSet64, 64);
  }

  lemma SpamCount128()
    ensures Pop(Mark(Spam128, 128)) == 12
  {
    CountOf(Spam128, SpamSet128, 128);
  }

  lemma ScamCount128()
    ensures Pop(Mark(Scam128, 128)) == 12
  {
    CountOf(Scam128, ScamSet128, 128);
  }

  lemma ProseCount128()
    ensures Pop(Mark(Prose128, 128)) == 8
  {
    CountOf(Prose128, ProseSet128, 128);
  }

  /** Common bits: {0, 25, 26, 32}, {32} and {32} of 64; six, two and one of 128. */
  lemma SpamScam64Common()
    ensures Common(Mark(Spam64, 64), Mark(Scam64, 64), 64) == 4
  {
    CommonOf(Spam64, Scam64, ScamSet64, 64);
  }

  lemma SpamProse64Common()
    ensures Common(Mark(Spam64, 64), Mark(Prose64, 64), 64) == 1
  {
    CommonOf(Spam64, Prose64, [32], 64);
  }

  lemma ScamProse64Common()
    ensures Common(Mark(Scam64, 64), Mark(Prose64, 64), 64) == 1
  {
    CommonOf(Scam64, Prose64, [32], 64);
  }

  lemma SpamScam128Common()
    ensures Common(Mark(Spam128, 128), Mark(Scam128, 128), 128) == 6
  {
    CommonOf(Spam128, Scam128, SpamScamSet128, 128);
  }

  lemma SpamProse128Common()
    ensures Common(Mark(Spam128, 128), Mark(Prose128, 128), 128) == 2
  {
    CommonOf(Spam128, Prose128, SpamProseSet128, 128);
  }

  lemma ScamProse128Common()
    ensures Common(Mark(Scam128, 128), Mark(Prose128, 128), 128) == 1
  {
    CommonOf(Scam128, Prose128, ScamProseSet128, 128);
  }

  /** The spam lines share four of five bits: 0.2 under either normaliser. */
  lemma SpamScam64()
    ensures Dist(Mark(Spam64, 64), Mark(Scam64, 64)) == 0.2
    ensures Written(Mark(Spam64, 64), Mark(Scam64, 64)) == 0.2
  {
    SpamCount64();
    ScamCount64();
    SpamScam64Common();
    assert Ratio(4, 5) == 0.2;
  }

  /** The first spam line shares one of five bits with the prose: 0.8. */
  lemma SpamProse64()
    ensures Dist(Mark(Spam64, 64), Mark(Prose64, 64)) == 0.8
    ensures Written(Mark(Spam64, 64), Mark(Prose64, 64)) == 0.8
  {
    SpamCount64();
    ProseCount64();
    SpamProse64Common();
    assert Ratio(1, 5) == 0.8;
  }

  /** The second spam line shares one of four bits with the prose: 0.75. */
  lemma ScamProse64()
    ensures Dist(Mark(Scam64, 64), Mark(Prose64, 64)) == 0.75
    ensures Written(Mark(Scam64, 64), Mark(Prose64, 64)) == 0.75
  {
    ScamCount64();
    ProseCount64();
    ScamProse64Common();
    assert Ratio(1, 4) == 0.75;
  }

  /** The spam lines share six of twelve bits: 0.5. */
  lemma SpamScam128()
    ensures Dist(Mark(Spam128, 128), Mark(Scam128, 128)) == 0.5
    ensures Written(Mark(Spam128, 128), Mark(Scam128, 128)) == 0.5
  {
    SpamCount128();
    ScamCount128();
    SpamScam128Common();
    assert Ratio(6, 12) == 0.5;
  }

  /** The first spam line shares two of twelve bits with the prose: 5/6, which test/test.c writes 0.83333333333. */
  lemma SpamProse128()
    ensures Dist(Mark(Spam128, 128), Mark(Prose128, 128)) == 5.0 / 6.0
    ensures Written(Mark(Spam128, 128), Mark(Prose128, 128)) == 5.0 / 6.0
  {
    SpamCount128();
    ProseCount128();
    SpamProse128Common();
    assert Ratio(2, 12) == 5.0 / 6.0;
  }

  /** The second spam line shares one of twelve bits with the prose: 11/12, which test/test.c writes 0.91666666666. */
  lemma ScamProse128()
    ensures Dist(Mark(Scam128, 128), Mark(Prose128, 128)) == 11.0 / 12.0
    ensures Written(Mark(Scam128, 128), Mark(Prose128, 128)) == 11.0 / 12.0
  {
    ScamCount128();
    ProseCount128();
    ScamProse128Common();
    assert Ratio(1, 12) == 11.0 / 12.0;
  }

  /**
   * The expectations of test/test.c:173-185 for 64-bit digests: 0 for a
   * digest against itself, then 0.2, 0.8 and 0.75, under the documented and
   * the written normaliser.
   */
  lemma Expected()
    ensures Fits(Spam, 8) && Fits(Scam, 8) && Fits(Prose, 8)
    ensures Dist(Create(Spam, 8), Create(Spam, 8)) == 0.0
    ensures Dist(Create(Spam, 8), Create(Scam, 8)) == 0.2 && Written(Create(Spam, 8), Create(Scam, 8)) == 0.2
    ensures Dist(Create(Spam, 8), Create(Prose, 8)) == 0.8 && Written(Create(Spam, 8), Create(Prose, 8)) == 0.8
    ensures Dist(Create(Scam, 8), Create(Prose, 8)) == 0.75 && Written(Create(Scam, 8), Create(Prose, 8)) == 0.75
  {
    SpamDigest();
    ScamDigest();
    ProseDigest();
    SelfDistance(Mark(Spam64, 64));
    SpamScam64();
    SpamProse64();
    ScamProse64();
  }

  /**
   * The expectations of test/test.c:201-212 for 128-bit digests: 0 for a
   * digest against itself, then 0.5, 5/6 and 11/12, under the documented
   * and the written normaliser.
   */
  lemma Expected128()
    ensures Fits(Spam, 16) && Fits(Scam, 16) && Fits(Prose, 16)
    ensures Dist(Create(Spam, 16), Create(Spam, 16)) == 0.0
    ensures Dist(Create(Spam, 16), Create(Scam, 16)) == 0.5 && Written(Create(Spam, 16), Create(Scam, 16)) == 0.5
    ensures Dist(Create(Spam, 16), Create(Prose, 16)) == 5.0 / 6.0 && Written(Create(Spam, 16), Create(Prose, 16)) == 5.0 / 6.0
    ensures Dist(Create(Scam, 16), Create(Prose, 16)) == 11.0 / 12.0 && Written(Create(Scam, 16), Create(Prose, 16)) == 11.0 / 12.0
  {
    SpamDigest();
    ScamDigest();
    ProseDigest();
    SelfDistance(Mark(Spam128, 128));
    SpamScam128();
    SpamProse128();
    ScamProse128();
  }
}

=== FILE: damerau.dfy ===
/**
 * `damerau_d` (damerau.c): the Levenshtein table with a rule that lets
 * a pair of adjacent bytes swap places at no cost.
 *
 * The rule is driven by a `swap` flag that the C code keeps in a `static`
 * variable, so it survives from one call to the next. Here the flag is
 * explicit state: it enters a call as a parameter, is threaded through the
 * cells in the order the loops visit them (i outer, j inner), and leaves the
 * call in the result.
 */
module Damerau {
  import opened Distance
  import opened FlatTable
  import opened EditTable
  import Levenshtein

  /** What the rule of damerau.c:51-64 decides for one cell: its cost and the flag after it. */
  datatype Step = Step(cost: nat, swap: bool)

  /** The bytes at (i, j) are a swapped pair: s[i-1] s[i] is t[j] t[j-1] (damerau.c:53-54). */
  predicate Swapped(s: seq<int>, t: seq<int>, i: int, j: int)
  {
    At(s, i - 1) == At(t, j) && At(s, i) == At(t, j - 1)
  }

  /**
   * The cost rule of damerau.c:51-64 at cell (i, j) with the flag `swap`:
   * equal bytes cost 0; a swapped pair costs 0 and raises the flag; the
   * second half of a swap seen with the flag raised costs 0 and lowers it;
   * anything else costs 1.
   */
  function Rule(s: seq<int>, t: seq<int>, swap: bool, i: int, j: int): (r: Step)
    ensures r.cost <= (if At(s, i - 1) == At(t, j - 1) then 0 else 1)
    ensures r.swap && !swap ==> r.cost == 0 && Swapped(s, t, i, j)
    ensures !r.swap && swap ==> r.cost == 0 && Swapped(s, t, i - 1, j - 1)
    ensures At(s, i - 1) != At(t, j - 1) && Swapped(s, t, i, j) ==> r == Step(0, true)
  {
    if At(s, i - 1) == At(t, j - 1) then Step(0, swap)
    else if Swapped(s, t, i, j) then Step(0, true)
    else if swap && Swapped(s, t, i - 1, j - 1) then Step(0, false)
    else Step(1, swap)
  }

  /**
   * The flag as cell (i, j) is reached: the incoming flag at (1, 1), and
   * after that the flag the previous cell of the scan left behind.
   */
  function SwapIn(s: seq<int>, t: seq<int>, swap: bool, i: nat, j: nat): bool
    requires 1 <= i <= |s| && 1 <= j <= |t|
    decreases i, j
  {
    if j > 1 then Rule(s, t, SwapIn(s, t, swap, i, j - 1), i, j - 1).swap
    else if i > 1 then Rule(s, t, SwapIn(s, t, swap, i - 1, |t|), i - 1, |t|).swap
    else swap
  }

  /** The rule applied at cell (i, j) with the flag the scan has carried there. */
  function Decide(s: seq<int>, t: seq<int>, swap: bool, i: nat, j: nat): Step
    requires 1 <= i <= |s| && 1 <= j <= |t|
  {
    Rule(s, t, SwapIn(s, t, swap, i, j), i, j)
  }

  /** The edit table of a call entered with the flag `swap`: unit gaps, substitutions as the rule decides. */
  function Edges(s: seq<int>, t: seq<int>, swap: bool): Costs
  {
    Costs(Levenshtein.Gap(), Levenshtein.Gap(),
      (i: nat, j: nat) => if 1 <= i <= |s| && 1 <= j <= |t| then Decide(s, t, swap, i, j).cost else 1)
  }

  /** The value `damerau_d` returns and the flag it leaves in its static variable. */
  datatype Outcome = Outcome(distance: int, swap: bool)

  /**
   * One call of `damerau_d` entered with the flag `swap` (damerau.c:23-78):
   * the longer length when an input is empty (the flag untouched),
   * otherwise the last cell and the flag the last cell left.
   */
  function Run(s: seq<int>, t: seq<int>, swap: bool): (r: Outcome)
    ensures |s| == 0 ==> r == Outcome(|t|, swap)
    ensures |t| == 0 ==> r == Outcome(|s|, swap)
  {
    Outcome(Result(Edges(s, t, swap), |s|, |t|),
      if |s| != 0 && |t| != 0 then Decide(s, t, swap, |s|, |t|).swap else swap)
  }

  /** The distance of a call entered with the flag lowered, as on the first call of a program. */
  function Dist(s: seq<int>, t: seq<int>): int
  {
    Run(s, t, false).distance
  }

  /** The routine of damerau.c:23-78, with the static flag passed in and handed back. */
  method DamerauD(s: seq<int>, t: seq<int>, swapIn: bool) returns (distance: int, swapOut: bool)
    ensures distance == Run(s, t, swapIn).distance && swapOut == Run(s, t, swapIn).swap
    ensures 0 <= distance <= Levenshtein.Dist(s, t)
  {
    var n := |s|;
    var m := |t|;
    var swap := swapIn;
    if n != 0 && m != 0 {
      ghost var c := Edges(s, t, swapIn);
      m := m + 1;
      n := n + 1;
      RowsIsProduct(n, m);
      var d := new int[n * m];
      Seed(d, |s|, |t|, c);
      var i := 1;
      while i < n
        invariant 1 <= i <= n
        invariant Done(d, |s|, |t|, Cells(c), i, 1)
        invariant i < n ==> swap == SwapIn(s, t, swapIn, i, 1)
        invariant i == n ==> swap == Decide(s, t, swapIn, |s|, |t|).swap
      {
        var j := 1;
        while j < m
          invariant 1 <= j <= m
          invariant Done(d, |s|, |t|, Cells(c), i, j)
          invariant j < m ==> swap == SwapIn(s, t, swapIn, i, j)
          invariant j == m ==> swap == Decide(s, t, swapIn, i, |t|).swap
        {
          var step := Rule(s, t, swap, i, j);
          StoreMin(d, |s|, |t|, c, i, j, 1, 1, step.cost);
          swap := step.swap;
          j := j + 1;
        }
        NextRow(d, |s|, |t|, Cells(c), i);
        i := i + 1;
      }
      LastCell(d, |s|, |t|, c);
      distance := d[n * m - 1];
      ResultIsLastCell(c, |s|, |t|);
    } else {
      distance := Max(m, n);
    }
    swapOut := swap;
    AtMostLevenshtein(s, t, swapIn);
  }

  // ---------------------------------------------------------------------
  // Comparison with Levenshtein
  // ---------------------------------------------------------------------

  /** No cost of the rule exceeds the Levenshtein cost of the same cell. */
  lemma EdgesBelowLevenshtein(s: seq<int>, t: seq<int>, swap: bool)
    ensures Cheaper(Edges(s, t, swap), Levenshtein.Edges(s, t), |s|, |t|)
  {
  }

  /** Unit gaps and a 0-or-1 substitution meet the bounds of `EditTable`. */
  lemma EdgesAreUnit(s: seq<int>, t: seq<int>, swap: bool)
    ensures UnitGaps(Edges(s, t, swap), |s|, |t|)
  {
  }

  /**
   * damerau_d(x, y) <= levenshtein_d(x, y) <= max(len1, len2), and the
   * result is never negative, whatever the flag.
   */
  lemma AtMostLevenshtein(s: seq<int>, t: seq<int>, swap: bool)
    ensures 0 <= Run(s, t, swap).distance <= Levenshtein.Dist(s, t) <= Max(|s|, |t|)
  {
    var c := Edges(s, t, swap);
    Levenshtein.Bounds(s, t);
    EdgesBelowLevenshtein(s, t, swap);
    EdgesAreUnit(s, t, swap);
    ResultIsLastCell(c, |s|, |t|);
    ResultIsLastCell(Levenshtein.Edges(s, t), |s|, |t|);
    Monotone(c, Levenshtein.Edges(s, t), |s|, |t|, |s|, |t|);
    NonNegative(c, |s|, |t|, |s|, |t|);
  }

  /** damerau(x, x) = 0, whatever the flag. */
  lemma Identity(s: seq<int>, swap: bool)
    ensures Run(s, s, swap).distance == 0
  {
    AtMostLevenshtein(s, s, swap);
    Levenshtein.Identity(s);
  }

  /** |len1 - len2| <= damerau_d(x, y): swaps never change a length. */
  lemma LengthGap(s: seq<int>, t: seq<int>, swap: bool)
    ensures |s| - |t| <= Run(s, t, swap).distance && |t| - |s| <= Run(s, t, swap).distance
  {
    var c := Edges(s, t, swap);
    EdgesAreUnit(s, t, swap);
    ResultIsLastCell(c, |s|, |t|);
    LowerBand(c, |s|, |t|, |s|, |t|);
  }

  // ---------------------------------------------------------------------
  // The static flag
  // ---------------------------------------------------------------------

  /** Scan position (i, j) is visited no later than (i2, j2): i outer, j inner. */
  predicate NotAfter(i: nat, j: nat, i2: nat, j2: nat)
  {
    i < i2 || (i == i2 && j <= j2)
  }

  /** A call entered with the flag raised and one entered with it lowered carry the same flag into cell (i, j). */
  predicate Synced(s: seq<int>, t: seq<int>, i: nat, j: nat)
    requires 1 <= i <= |s| && 1 <= j <= |t|
  {
    SwapIn(s, t, true, i, j) == SwapIn(s, t, false, i, j)
  }

  /** Once the two flags agree, they agree for the rest of the scan. */
  lemma {:induction false} SyncedStays(s: seq<int>, t: seq<int>, i: nat, j: nat, i2: nat, j2: nat)
    requires 1 <= i <= |s| && 1 <= j <= |t| && 1 <= i2 <= |s| && 1 <= j2 <= |t|
    requires NotAfter(i, j, i2, j2)
    requires Synced(s, t, i, j)
    ensures Synced(s, t, i2, j2)
    decreases i2, j2
  {
    if i == i2 && j == j2 {
    } else if j2 > 1 {
      SyncedStays(s, t, i, j, i2, j2 - 1);
    } else {
      SyncedStays(s, t, i, j, i2 - 1, |t|);
    }
  }

  /**
   * The flag only matters in the third branch, and in C strings that branch
   * needs the swapped pair at (i-1, j-1), whose cell raised the flag on both
   * runs earlier in the scan: the incoming flag never changes a cost.
   */
  lemma CostIgnoresFlag(s: seq<int>, t: seq<int>, i: nat, j: nat)
    requires IsCString(s) && IsCString(t)
    requires 1 <= i <= |s| && 1 <= j <= |t|
    ensures Decide(s, t, true, i, j).cost == Decide(s, t, false, i, j).cost
  {
    if At(s, i - 1) != At(t, j - 1) && Swapped(s, t, i - 1, j - 1) {
      assert At(s, i - 2) != At(t, j - 2);
      assert 2 <= i && 2 <= j;
      assert Synced(s, t, i - 1, j);
      SyncedStays(s, t, i - 1, j, i, j);
    }
  }

  /** For C strings both flags give the same table costs. */
  lemma EdgesIgnoreFlag(s: seq<int>, t: seq<int>)
    requires IsCString(s) && IsCString(t)
    ensures Cheaper(Edges(s, t, true), Edges(s, t, false), |s|, |t|)
    ensures Cheaper(Edges(s, t, false), Edges(s, t, true), |s|, |t|)
  {
    forall i: nat, j: nat | 1 <= i <= |s| && 1 <= j <= |t|
      ensures Edges(s, t, true).substitute(i, j) == Edges(s, t, false).substitute(i, j)
    {
      CostIgnoresFlag(s, t, i, j);
    }
  }

  /** Whatever flag an earlier call leaked, damerau_d returns the distance of a fresh call. */
  lemma LeakedFlagHarmless(s: seq<int>, t: seq<int>, swap: bool)
    requires IsCString(s) && IsCString(t)
    ensures Run(s, t, swap).distance == Dist(s, t)
  {
    EdgesIgnoreFlag(s, t);
    SameCosts(Edges(s, t, true), Edges(s, t, false), |s|, |t|);
  }

  // ---------------------------------------------------------------------
  // Adjacent swaps
  // ---------------------------------------------------------------------

  /**
   * A stateless relaxation of the swap rule of damerau.c:53-62: a mismatch
   * costs 0 when it is either half of a pair of adjacent bytes that trade
   * places, and 1 otherwise. Each half of every such pair is freed, even
   * when pairs overlap or chain, so this is not the distance the header
   * comment of damerau.c:7-9 describes (see ChainedSwapsFree); it does free
   * one adjacent swap, as that comment promises.
   */
  function SwapCost(s: seq<int>, t: seq<int>, i: int, j: int): (cost: nat)
    ensures cost <= (if At(s, i - 1) == At(t, j - 1) then 0 else 1)
  {
    if At(s, i - 1) == At(t, j - 1) then 0
    else if Swapped(s, t, i, j) then 0
    else if Swapped(s, t, i - 1, j - 1) && At(s, i - 2) != At(t, j - 2) then 0
    else 1
  }

  function SwapEdges(s: seq<int>, t: seq<int>): Costs
  {
    Costs(Levenshtein.Gap(), Levenshtein.Gap(), (i: nat, j: nat) => SwapCost(s, t, i, j))
  }

  /** The distance under the stateless swap relaxation. */
  function SwapDist(s: seq<int>, t: seq<int>): int
  {
    Result(SwapEdges(s, t), |s|, |t|)
  }

  /**
   * Whenever the flag rule charges nothing, neither does the stateless relaxation:
   * the third branch of damerau.c:58-59 fires only on the second half of a
   * real swap.
   */
  lemma SwapEdgesCheaper(s: seq<int>, t: seq<int>, swap: bool)
    ensures Cheaper(SwapEdges(s, t), Edges(s, t, swap), |s|, |t|)
  {
  }

  /** The relaxed distance never exceeds the flag-driven one, nor goes below 0. */
  lemma SwapDistAtMost(s: seq<int>, t: seq<int>, swap: bool)
    ensures 0 <= SwapDist(s, t) <= Run(s, t, swap).distance
  {
    var c := SwapEdges(s, t);
    SwapEdgesCheaper(s, t, swap);
    ResultIsLastCell(c, |s|, |t|);
    ResultIsLastCell(Edges(s, t, swap), |s|, |t|);
    Monotone(c, Edges(s, t, swap), |s|, |t|, |s|, |t|);
    assert UnitGaps(c, |s|, |t|);
    NonNegative(c, |s|, |t|, |s|, |t|);
  }

  /** Every diagonal cell of u x y v against u y x v is free under the stateless relaxation. */
  lemma SwapDiagonalFree(u: seq<int>, x: int, y: int, v: seq<int>)
    requires x != y
    ensures forall a: nat, b: nat :: 0 < a <= 0 + |u| + 2 + |v| && a - 0 == b - 0 ==>
      SwapEdges(u + [x, y] + v, u + [y, x] + v).substitute(a, b) <= 0
  {
    var s := u + [x, y] + v;
    var t := u + [y, x] + v;
    forall a: nat, b: nat | 0 < a <= 0 + |u| + 2 + |v| && a - 0 == b - 0
      ensures SwapEdges(s, t).substitute(a, b) <= 0
    {
      if a <= |u| {
        assert s[a - 1] == u[a - 1] == t[a - 1];
      } else if a == |u| + 1 {
        assert Swapped(s, t, a, b);
      } else if a == |u| + 2 {
        assert Swapped(s, t, a - 1, b - 1);
      } else {
        assert s[a - 1] == v[a - 3 - |u|] == t[a - 1];
      }
    }
  }

  /** Under the stateless relaxation one adjacent swap is free, as damerau.c:7-9 promises. */
  lemma SwapIsFree(u: seq<int>, x: int, y: int, v: seq<int>)
    requires x != y
    ensures SwapDist(u + [x, y] + v, u + [y, x] + v) == 0
  {
    var s := u + [x, y] + v;
    var t := u + [y, x] + v;
    var c := SwapEdges(s, t);
    ResultIsLastCell(c, |s|, |t|);
    SwapDiagonalFree(u, x, y, v);
    DiagonalRun(c, 0, 0, |s|);
    SwapDistAtMost(s, t, false);
  }

  /**
   * The relaxation frees chained pairs too: "aba" against "bab" costs
   * nothing, although the two hold different bytes, so no sequence of
   * adjacent swaps turns one into the other.
   */
  lemma ChainedSwapsFree()
    ensures multiset([97, 98, 97]) != multiset([98, 97, 98])
    ensures SwapDist([97, 98, 97], [98, 97, 98]) == 0
  {
    var s, t := [97, 98, 97], [98, 97, 98];
    assert multiset(s)[97] == 2 && multiset(t)[97] == 1;
    var c := SwapEdges(s, t);
    forall a: nat, b: nat | 0 < a <= 0 + |s| && a - 0 == b - 0
      ensures c.substitute(a, b) <= 0
    {
      if a == 1 {
        assert Swapped(s, t, 1, 1);
      } else if a == 2 {
        assert Swapped(s, t, 2, 2);
      } else {
        assert Swapped(s, t, 2, 2) && At(s, 1) != At(t, 1);
      }
    }
    DiagonalRun(c, 0, 0, |s|);
    ResultIsLastCell(c, |s|, |t|);
    assert UnitGaps(c, |s|, |t|);
    NonNegative(c, |s|, |t|, |s|, |t|);
  }

  /** Nowhere in w is a directly followed by b. */
  predicate PairFree(w: seq<int>, a: int, b: int)
  {
    forall m :: 0 <= m < |w| - 1 ==> !(w[m] == a && w[m + 1] == b)
  }

  /** A flag raised by cell (i, j) is still raised after cell (i, q) if no cell between would lower a raised flag. */
  lemma {:induction false} FlagAlongRow(s: seq<int>, t: seq<int>, swap: bool, i: nat, j: nat, q: nat)
    requires 1 <= i <= |s| && 1 <= j <= q <= |t|
    requires Decide(s, t, swap, i, j).swap
    requires forall r :: j < r <= q ==> Rule(s, t, true, i, r).swap
    ensures Decide(s, t, swap, i, q).swap
    decreases q
  {
    if q > j {
      FlagAlongRow(s, t, swap, i, j, q - 1);
    }
  }

  /** A flag raised at the end of row i - 1 reaches cell (i, q) if no cell before it in row i would lower it. */
  lemma {:induction false} FlagIntoRow(s: seq<int>, t: seq<int>, swap: bool, i: nat, q: nat)
    requires 2 <= i <= |s| && 1 <= q <= |t|
    requires Decide(s, t, swap, i - 1, |t|).swap
    requires forall r :: 1 <= r < q ==> Rule(s, t, true, i, r).swap
    ensures SwapIn(s, t, swap, i, q)
    decreases q
  {
    if q > 1 {
      FlagIntoRow(s, t, swap, i, q - 1);
    }
  }

  /** No cell after (|u| + 1, |u| + 1) in its row lowers the flag, unless x is followed by the last byte of u. */
  lemma RestOfRowKeeps(s: seq<int>, t: seq<int>, u: seq<int>, x: int, y: int, v: seq<int>, i: nat)
    requires x != y && s == u + [x, y] + v && t == u + [y, x] + v && IsCString(t) && i == |u| + 1
    requires |u| == 0 || PairFree([x] + v, x, u[|u| - 1])
    ensures forall r :: i < r <= |t| ==> Rule(s, t, true, i, r).swap
  {
    var k := |u|;
    forall r | i < r <= |t|
      ensures Rule(s, t, true, i, r).swap
    {
      if k == 0 {
        assert At(s, k - 1) == 0 && At(t, r - 1) != 0;
      } else if r == k + 2 {
        assert At(s, k) == x && At(t, r - 2) == y;
      } else {
        var m := r - 3 - k;
        assert ([x] + v)[m] == t[r - 2] && ([x] + v)[m + 1] == t[r - 1];
        assert At(s, k - 1) == u[k - 1] && At(s, k) == x;
      }
    }
  }

  /** No cell of row |u| + 2 before the diagonal lowers the flag, unless y x occurs in u. */
  lemma NextRowKeeps(s: seq<int>, t: seq<int>, u: seq<int>, x: int, y: int, v: seq<int>, i: nat)
    requires x != y && s == u + [x, y] + v && t == u + [y, x] + v && IsCString(s) && i == |u| + 2
    requires PairFree(u, y, x)
    ensures forall r :: 1 <= r < i ==> Rule(s, t, true, i, r).swap
  {
    var k := |u|;
    forall r | 1 <= r < i
      ensures Rule(s, t, true, i, r).swap
    {
      assert At(s, k) == x && At(s, k + 1) == y && y != 0;
      if r == 1 {
        assert At(t, r - 2) == 0;
      } else if r == k + 1 {
        assert At(t, r - 1) == y;
      } else {
        assert At(t, r - 2) == u[r - 2] && At(t, r - 1) == u[r - 1];
      }
    }
  }

  /**
   * When the flag the first half of a swap raises survives to the second
   * half, the flag rule does make the swap free: that happens unless y x
   * occurs in u, or x is followed by the last byte of u in x v.
   */
  lemma SwapKept(u: seq<int>, x: int, y: int, v: seq<int>)
    requires x != y && IsCString(u + [x, y] + v) && IsCString(u + [y, x] + v)
    requires PairFree(u, y, x)
    requires |u| == 0 || PairFree([x] + v, x, u[|u| - 1])
    ensures Dist(u + [x, y] + v, u + [y, x] + v) == 0
  {
    var s := u + [x, y] + v;
    var t := u + [y, x] + v;
    var k := |u|;
    assert At(s, k) == x == At(t, k + 1) && At(s, k + 1) == y == At(t, k);
    assert Decide(s, t, false, k + 1, k + 1).swap;
    RestOfRowKeeps(s, t, u, x, y, v, k + 1);
    FlagAlongRow(s, t, false, k + 1, k + 1, |t|);
    NextRowKeeps(s, t, u, x, y, v, k + 2);
    FlagIntoRow(s, t, false, k + 2, k + 2);
    var c := Edges(s, t, false);
    forall a: nat, b: nat | 0 < a <= 0 + |s| && a - 0 == b - 0
      ensures c.substitute(a, b) <= 0
    {
      if a <= k {
        assert s[a - 1] == u[a - 1] == t[a - 1];
      } else if a == k + 1 {
        assert Swapped(s, t, a, b);
      } else if a == k + 2 {
        assert At(s, a) == At(t, a);
        assert SwapIn(s, t, false, a, b) && Swapped(s, t, a - 1, b - 1);
      } else {
        assert s[a - 1] == v[a - 3 - k] == t[a - 1];
      }
    }
    DiagonalRun(c, 0, 0, |s|);
    ResultIsLastCell(c, |s|, |t|);
    AtMostLevenshtein(s, t, false);
  }

  /** The scan of the flag rule over "abaa" against "aaba": the flag is spent at (2, 4). */
  lemma AbaaSteps(s: seq<int>, t: seq<int>)
    requires s == [97, 98, 97, 97] && t == [97, 97, 98, 97]
    ensures Decide(s, t, false, 1, 1) == Step(0, false)
    ensures Decide(s, t, false, 1, 2) == Step(0, false)
    ensures Decide(s, t, false, 1, 3) == Step(0, true)
    ensures Decide(s, t, false, 1, 4) == Step(0, true)
    ensures Decide(s, t, false, 2, 1) == Step(1, true)
    ensures Decide(s, t, false, 2, 2) == Step(0, true)
    ensures Decide(s, t, false, 2, 3) == Step(0, true)
    ensures Decide(s, t, false, 2, 4) == Step(0, false)
    ensures Decide(s, t, false, 3, 1) == Step(0, false)
    ensures Decide(s, t, false, 3, 2) == Step(0, false)
    ensures Decide(s, t, false, 3, 3) == Step(1, false)
    ensures Decide(s, t, false, 3, 4) == Step(0, false)
    ensures Decide(s, t, false, 4, 1) == Step(0, false)
    ensures Decide(s, t, false, 4, 2) == Step(0, false)
    ensures Decide(s, t, false, 4, 3) == Step(1, false)
    ensures Decide(s, t, false, 4, 4) == Step(0, false)
  {
    assert Decide(s, t, false, 1, 1) == Step(0, false);
    assert Decide(s, t, false, 1, 2) == Step(0, false);
    assert Decide(s, t, false, 1, 3) == Step(0, true);
    assert Decide(s, t, false, 1, 4) == Step(0, true);
    assert Decide(s, t, false, 2, 1) == Step(1, true);
    assert Decide(s, t, false, 2, 2) == Step(0, true);
    assert Decide(s, t, false, 2, 3) == Step(0, true);
    assert Decide(s, t, false, 2, 4) == Step(0, false);
    assert Decide(s, t, false, 3, 1) == Step(0, false);
    assert Decide(s, t, false, 3, 2) == Step(0, false);
    assert Decide(s, t, false, 3, 3) == Step(1, false);
    assert Decide(s, t, false, 3, 4) == Step(0, false);
    assert Decide(s, t, false, 4, 1) == Step(0, false);
    assert Decide(s, t, false, 4, 2) == Step(0, false);
    assert Decide(s, t, false, 4, 3) == Step(1, false);
    assert Decide(s, t, false, 4, 4) == Step(0, false);
  }

  /**
   * "abaa" and "aaba" differ by one adjacent swap, yet `damerau_d` charges
   * 1 for them: a second swapped pattern later in row 2 lowers the flag
   * before the swap's second half is reached. The stateless relaxation gives 0.
   */
  lemma SwapCharged()
    ensures Dist(Bytes("abaa"), Bytes("aaba")) == 1
    ensures SwapDist(Bytes("abaa"), Bytes("aaba")) == 0
  {
    var s := Bytes("abaa");
    var t := Bytes("aaba");
    assert s == [97, 98, 97, 97] && t == [97, 97, 98, 97];
    var c := Edges(s, t, false);
    AbaaSteps(s, t);
    assert Cell(c, 1, 1) == 0;
    assert Cell(c, 1, 2) == 1;
    assert Cell(c, 1, 3) == 2;
    assert Cell(c, 1, 4) == 3;
    assert Cell(c, 2, 1) == 1;
    assert Cell(c, 2, 2) == 0;
    assert Cell(c, 2, 3) == 1;
    assert Cell(c, 2, 4) == 2;
    assert Cell(c, 3, 1) == 2;
    assert Cell(c, 3, 2) == 1;
    assert Cell(c, 3, 3) == 1;
    assert Cell(c, 3, 4) == 1;
    assert Cell(c, 4, 1) == 3;
    assert Cell(c, 4, 2) == 2;
    assert Cell(c, 4, 3) == 2;
    assert Cell(c, 4, 4) == 1;
    ResultIsLastCell(c, |s|, |t|);
    assert s == [97] + [98, 97] + [97] && t == [97] + [97, 98] + [97];
    SwapIsFree([97], 98, 97, [97]);
  }

  /** The scan of the flag rule over "abcd" against "acbd". */
  lemma AbcdSteps(s: seq<int>, t: seq<int>)
    requires s == [97, 98, 99, 100] && t == [97, 99, 98, 100]
    ensures Decide(s, t, false, 1, 1) == Step(0, false)
    ensures Decide(s, t, false, 1, 2) == Step(1, false)
    ensures Decide(s, t, false, 1, 3) == Step(1, false)
    ensures Decide(s, t, false, 1, 4) == Step(1, false)
    ensures Decide(s, t, false, 2, 1) == Step(1, false)
    ensures Decide(s, t, false, 2, 2) == Step(0, true)
    ensures Decide(s, t, false, 2, 3) == Step(0, true)
    ensures Decide(s, t, false, 2, 4) == Step(1, true)
    ensures Decide(s, t, false, 3, 1) == Step(1, true)
    ensures Decide(s, t, false, 3, 2) == Step(0, true)
    ensures Decide(s, t, false, 3, 3) == Step(0, false)
    ensures Decide(s, t, false, 3, 4) == Step(1, false)
    ensures Decide(s, t, false, 4, 1) == Step(1, false)
    ensures Decide(s, t, false, 4, 2) == Step(1, false)
    ensures Decide(s, t, false, 4, 3) == Step(1, false)
    ensures Decide(s, t, false, 4, 4) == Step(0, false)
  {
    assert Decide(s, t, false, 1, 1) == Step(0, false);
    assert Decide(s, t, false, 1, 2) == Step(1, false);
    assert Decide(s, t, false, 1, 3) == Step(1, false);
    assert Decide(s, t, false, 1, 4) == Step(1, false);
    assert Decide(s, t, false, 2, 1) == Step(1, false);
    assert Decide(s, t, false, 2, 2) == Step(0, true);
    assert Decide(s, t, false, 2, 3) == Step(0, true);
    assert Decide(s, t, false, 2, 4) == Step(1, true);
    assert Decide(s, t, false, 3, 1) == Step(1, true);
    assert Decide(s, t, false, 3, 2) == Step(0, true);
    assert Decide(s, t, false, 3, 3) == Step(0, false);
    assert Decide(s, t, false, 3, 4) == Step(1, false);
    assert Decide(s, t, false, 4, 1) == Step(1, false);
    assert Decide(s, t, false, 4, 2) == Step(1, false);
    assert Decide(s, t, false, 4, 3) == Step(1, false);
    assert Decide(s, t, false, 4, 4) == Step(0, false);
  }

  /** The example of python/pydistance.c:93-94: "abcd" and "acbd" are at distance 0. */
  lemma AbcdAcbd()
    ensures Dist(Bytes("abcd"), Bytes("acbd")) == 0
  {
    var s := Bytes("abcd");
    var t := Bytes("acbd");
    assert s == [97, 98, 99, 100] && t == [97, 99, 98, 100];
    var c := Edges(s, t, false);
    AbcdSteps(s, t);
    forall a: nat, b: nat | 0 < a <= 0 + 4 && a - 0 == b - 0
      ensures c.substitute(a, b) <= 0
    {
    }
    DiagonalRun(c, 0, 0, 4);
    ResultIsLastCell(c, |s|, |t|);
    AtMostLevenshtein(s, t, false);
  }
}

=== FILE: distance.dfy ===
/**
 * Shared vocabulary of the library (distance.h): the `min`/`max` macros, the
 * Needleman-Wunsch cost table, and the byte strings every routine receives.
 *
 * Every caller hands the routines C strings, so an input is modelled as a
 * sequence of positive signed chars (1..127) followed by an implicit NUL.
 * `At` reads such a string totally: inside the sequence it is the byte, at
 * the terminator (and at any other position outside the string) it is 0.
 */
module Distance {

  /** `max(a,b)` of distance.h:13-15 (`a >= b ? a : b`). */
  function Max(a: int, b: int): (r: int)
    ensures r >= a && r >= b
    ensures r == a || r == b
  {
    if a >= b then a else b
  }

  /** `min(a,b)` of distance.h:17-19 (`a <= b ? a : b`). */
  function Min(a: int, b: int): (r: int)
    ensures r <= a && r <= b
    ensures r == a || r == b
  {
    if a <= b then a else b
  }

  /** The nested `min(a, min(b, c))` every DP cell is filled with. */
  function Min3(a: int, b: int, c: int): (r: int)
    ensures r <= a && r <= b && r <= c
    ensures r == a || r == b || r == c
  {
    Min(a, Min(b, c))
  }

  /** The value of the nested minimum ignores the order of the first two candidates. */
  lemma Min3Swap(a: int, b: int, c: int)
    ensures Min3(b, a, c) == Min3(a, b, c)
  {
  }

  /** `min` applied to doubles (needleman_wunsch.c:61). */
  function MinReal(a: real, b: real): (r: real)
    ensures r <= a && r <= b
    ensures r == a || r == b
  {
    if a <= b then a else b
  }

  function Min3Real(a: real, b: real, c: real): (r: real)
    ensures r <= a && r <= b && r <= c
    ensures r == a || r == b || r == c
  {
    MinReal(a, MinReal(b, c))
  }

  /** A C string: positive signed chars, the NUL terminator being implicit. */
  predicate IsCString(s: seq<int>)
  {
    forall k :: 0 <= k < |s| ==> 1 <= s[k] <= 127
  }

  /**
   * Total read of `s[k]`: the byte inside the string, 0 elsewhere. At
   * k == |s| this is exactly the NUL terminator the C code reads.
   */
  function At(s: seq<int>, k: int): (c: int)
    ensures IsCString(s) ==> (c != 0 <==> 0 <= k < |s|)
    ensures IsCString(s) ==> 0 <= c <= 127
  {
    if 0 <= k < |s| then s[k] else 0
  }

  /** The positions below n where s and t disagree. */
  function Mismatches(s: seq<int>, t: seq<int>, n: nat): nat
  {
    if n == 0 then 0 else Mismatches(s, t, n - 1) + (if At(s, n - 1) == At(t, n - 1) then 0 else 1)
  }

  /** The positions below n where s and t agree. */
  function Matches(s: seq<int>, t: seq<int>, n: nat): nat
  {
    if n == 0 then 0 else Matches(s, t, n - 1) + (if At(s, n - 1) == At(t, n - 1) then 1 else 0)
  }

  /** Every position below n either agrees or disagrees. */
  lemma {:induction false} MatchesAndMismatches(s: seq<int>, t: seq<int>, n: nat)
    ensures Matches(s, t, n) + Mismatches(s, t, n) == n
  {
    if n != 0 {
      MatchesAndMismatches(s, t, n - 1);
    }
  }

  /** No disagreement below n means the first n positions agree, and conversely. */
  lemma {:induction false} NoMismatches(s: seq<int>, t: seq<int>, n: nat)
    ensures Mismatches(s, t, n) == 0 <==> forall k :: 0 <= k < n ==> At(s, k) == At(t, k)
  {
    if n != 0 {
      NoMismatches(s, t, n - 1);
    }
  }

  /** No agreement below n means the first n positions all disagree, and conversely. */
  lemma {:induction false} NoMatches(s: seq<int>, t: seq<int>, n: nat)
    ensures Matches(s, t, n) == 0 <==> forall k :: 0 <= k < n ==> At(s, k) != At(t, k)
  {
    if n != 0 {
      NoMatches(s, t, n - 1);
    }
  }

  /** Disagreement does not depend on the order of the two strings. */
  lemma {:induction false} MismatchesSymmetric(s: seq<int>, t: seq<int>, n: nat)
    ensures Mismatches(s, t, n) == Mismatches(t, s, n)
  {
    if n != 0 {
      MismatchesSymmetric(s, t, n - 1);
    }
  }

  /** A string never disagrees with itself. */
  lemma {:induction false} MismatchesSelf(s: seq<int>, n: nat)
    ensures Mismatches(s, s, n) == 0
  {
    if n != 0 {
      MismatchesSelf(s, n - 1);
    }
  }

  /** Positions inside a common-length prefix only see the prefix. */
  lemma {:induction false} MismatchesPrefix(a: seq<int>, b: seq<int>, c: seq<int>, d: seq<int>, m: nat)
    requires |a| == |b| && m <= |a|
    ensures Mismatches(a + c, b + d, m) == Mismatches(a, b, m)
  {
    if m != 0 {
      MismatchesPrefix(a, b, c, d, m - 1);
      assert (a + c)[m - 1] == a[m - 1] && (b + d)[m - 1] == b[m - 1];
    }
  }

  /** Disagreements of two concatenations of equal-length heads add up piecewise. */
  lemma {:induction false} MismatchesAppend(a: seq<int>, b: seq<int>, c: seq<int>, d: seq<int>, n: nat)
    requires |a| == |b|
    ensures Mismatches(a + c, b + d, |a| + n) == Mismatches(a, b, |a|) + Mismatches(c, d, n)
  {
    if n == 0 {
      MismatchesPrefix(a, b, c, d, |a|);
    } else {
      MismatchesAppend(a, b, c, d, n - 1);
      var k := |a| + n - 1;
      if n - 1 < |c| {
        assert (a + c)[k] == c[n - 1];
      }
      if n - 1 < |d| {
        assert (b + d)[k] == d[n - 1];
      }
    }
  }

  /** Disagreements of two concatenations of equal-length pieces, of lengths m and n. */
  lemma MismatchesJoin(a: seq<int>, b: seq<int>, c: seq<int>, d: seq<int>, m: nat, n: nat)
    requires |a| == |b| == m && |c| == |d| == n
    ensures Mismatches(a + c, b + d, m + n) == Mismatches(a, b, m) + Mismatches(c, d, n)
  {
    MismatchesAppend(a, b, c, d, n);
  }

  /** The bytes of a string literal, as a caller passes them. */
  function Bytes(text: string): (s: seq<int>)
    ensures |s| == |text|
    ensures forall k :: 0 <= k < |text| ==> s[k] == text[k] as int
  {
    seq(|text|, k requires 0 <= k < |text| => text[k] as int)
  }

  /** The bytes of a concatenation are the concatenated bytes. */
  lemma BytesAppend(x: string, y: string)
    ensures Bytes(x + y) == Bytes(x) + Bytes(y)
  {
  }

  /** Side of the square cost tables in `struct matrix` (distance.h:7-11). */
  const TableSize: nat := 255

  /**
   * `struct matrix`: an `input` character array and two 255-by-255 tables of
   * costs, indexed [from][to] by byte value.
   */
  datatype CostTable = CostTable(input: seq<int>, conversion: seq<seq<real>>, insertion: seq<seq<real>>)

  predicate IsSquare(rows: seq<seq<real>>)
  {
    |rows| == TableSize && forall a :: 0 <= a < |rows| ==> |rows[a]| == TableSize
  }

  predicate ValidTable(m: CostTable)
  {
    |m.input| == TableSize && IsSquare(m.conversion) && IsSquare(m.insertion)
  }

  /** A byte value usable as an index into the cost tables. */
  predicate IsIndex(c: int)
  {
    0 <= c < TableSize
  }

  function Conversion(m: CostTable, from: int, to: int): real
    requires ValidTable(m) && IsIndex(from) && IsIndex(to)
  {
    m.conversion[from][to]
  }

  function Insertion(m: CostTable, from: int, to: int): real
    requires ValidTable(m) && IsIndex(from) && IsIndex(to)
  {
    m.insertion[from][to]
  }

  /** Every cost in both tables is non-negative. */
  predicate NonNegativeTable(m: CostTable)
    requires ValidTable(m)
  {
    forall a, b :: 0 <= a < TableSize && 0 <= b < TableSize ==> Conversion(m, a, b) >= 0.0 && Insertion(m, a, b) >= 0.0
  }

  /** A square table holding `v` in every entry. */
  function Fill(v: real): (rows: seq<seq<real>>)
    ensures IsSquare(rows)
    ensures forall a, b :: 0 <= a < TableSize && 0 <= b < TableSize ==> rows[a][b] == v
  {
    seq(TableSize, _ => seq(TableSize, _ => v))
  }

  /**
   * The table a caller builds by setting every conversion cost to `conv`
   * and every insertion cost to `ins` (the loop of test/test.c:236-241).
   */
  function Uniform(conv: real, ins: real): (m: CostTable)
    ensures ValidTable(m)
    ensures forall a, b :: IsIndex(a) && IsIndex(b) ==> Conversion(m, a, b) == conv && Insertion(m, a, b) == ins
    ensures conv >= 0.0 && ins >= 0.0 ==> NonNegativeTable(m)
  {
    CostTable(seq(TableSize, _ => 0), Fill(conv), Fill(ins))
  }
}

=== FILE: edit_table.dfy ===
/**
 * The dynamic-programming skeleton shared by `levenshtein_d`, `damerau_d` and
 * `minkowski_d`: row 0 and column 0 are the ramps 0..len1 and 0..len2, and
 * every other cell (i, j) is
 *
 *   min(cell(i, j-1) + insert, min(cell(i-1, j) + delete, cell(i-1, j-1) + substitute))
 *
 * where the three edge costs depend on the routine and on the cell. The
 * routines differ only in their `Costs`; everything proved here about an
 * arbitrary `Costs` holds for each of them.
 */
module EditTable {
  import opened Distance
  import opened FlatTable

  /** The edge costs of each cell (i, j): from the left, from above, along the diagonal. */
  datatype Costs = Costs(insert: (nat, nat) -> int, delete: (nat, nat) -> int, substitute: (nat, nat) -> int)

  /** The recurrence of steps 2 to 6 of the C routines: ramps on row 0 and column 0, the cheapest edge elsewhere. */
  function Recurrence(c: Costs, i: nat, j: nat): int
    decreases i + j
  {
    if j == 0 then i
    else if i == 0 then j
    else Min3(Recurrence(c, i, j - 1) + c.insert(i, j), Recurrence(c, i - 1, j) + c.delete(i, j), Recurrence(c, i - 1, j - 1) + c.substitute(i, j))
  }

  /**
   * Cell (i, j) of the table. Every fact below is stated about `Cell`, so
   * that a cell is one and the same term wherever it is mentioned.
   */
  function Cell(c: Costs, i: nat, j: nat): int
  {
    Recurrence(c, i, j)
  }

  /** What a C routine returns: max(len1, len2) when an input is empty, else the last cell. */
  function Result(c: Costs, len1: nat, len2: nat): (r: int)
    ensures len1 == 0 ==> r == len2
    ensures len2 == 0 ==> r == len1
  {
    if len1 != 0 && len2 != 0 then Cell(c, len1, len2) else Max(len2, len1)
  }

  /** The early return for an empty input agrees with the table: the result is always the last cell. */
  lemma ResultIsLastCell(c: Costs, len1: nat, len2: nat)
    ensures Result(c, len1, len2) == Cell(c, len1, len2)
  {
  }

  /** `Cell` as the table contents a fill of the buffer must reproduce. */
  function Cells(c: Costs): (nat, nat) -> int
  {
    (i: nat, j: nat) => Cell(c, i, j)
  }

  // ---------------------------------------------------------------------
  // Filling the buffer
  // ---------------------------------------------------------------------

  /** Step 2: `d[k] = k` for row 0 and `d[k * n] = k` for column 0. */
  method Seed(d: array<int>, len1: nat, len2: nat, ghost c: Costs)
    requires Sized(d, len1, len2)
    modifies d
    ensures Done(d, len1, len2, Cells(c), 1, 1)
  {
    var n := len1 + 1;
    var m := len2 + 1;
    var k := 0;
    while k < n
      invariant k <= n
      invariant forall i: nat :: i < k ==> Get(d, len1, len2, i, 0) == Cell(c, i, 0)
    {
      Put(d, len1, len2, k, 0, k);
      k := k + 1;
    }
    k := 0;
    while k < m
      invariant k <= m
      invariant forall i: nat :: i < n ==> Get(d, len1, len2, i, 0) == Cell(c, i, 0)
      invariant forall j: nat :: j < k ==> Get(d, len1, len2, 0, j) == Cell(c, 0, j)
    {
      Put(d, len1, len2, 0, k, k);
      k := k + 1;
    }
  }

  /** Step 6 for cell (i, j), given the three edge costs step 5 computed. */
  method StoreMin(d: array<int>, len1: nat, len2: nat, ghost c: Costs, i: nat, j: nat, ins: int, del: int, sub: int)
    requires 1 <= i <= len1 && 1 <= j <= len2
    requires Done(d, len1, len2, Cells(c), i, j)
    requires ins == c.insert(i, j) && del == c.delete(i, j) && sub == c.substitute(i, j)
    modifies d
    ensures Done(d, len1, len2, Cells(c), i, j + 1)
  {
    var a := Get(d, len1, len2, i, j - 1) + ins;
    var b := Get(d, len1, len2, i - 1, j) + del;
    var e := Get(d, len1, len2, i - 1, j - 1) + sub;
    assert a == Cell(c, i, j - 1) + ins && b == Cell(c, i - 1, j) + del && e == Cell(c, i - 1, j - 1) + sub;
    Store(d, len1, len2, Cells(c), i, j, Min(a, Min(b, e)));
  }

  /** The finished buffer's last slot, `d[n * m - 1]`, is the last cell. */
  lemma LastCell(d: array<int>, len1: nat, len2: nat, c: Costs)
    requires Done(d, len1, len2, Cells(c), len1 + 1, 1)
    ensures Rows(len1 + 1, len2 + 1) == (len1 + 1) * (len2 + 1)
    ensures d[(len1 + 1) * (len2 + 1) - 1] == Cell(c, len1, len2)
  {
    RowsIsProduct(len1 + 1, len2 + 1);
    LastIdx(len1 + 1, len2 + 1);
    assert Get(d, len1, len2, len1, len2) == Cells(c)(len1, len2);
  }

  // ---------------------------------------------------------------------
  // Facts about any table
  // ---------------------------------------------------------------------

  /** Every edge cost of c1 is at most the matching one of c2 inside the len1-by-len2 table. */
  predicate Cheaper(c1: Costs, c2: Costs, len1: nat, len2: nat)
  {
    forall i: nat, j: nat :: 1 <= i <= len1 && 1 <= j <= len2 ==>
      c1.insert(i, j) <= c2.insert(i, j) && c1.delete(i, j) <= c2.delete(i, j) && c1.substitute(i, j) <= c2.substitute(i, j)
  }

  /**
   * Induction over the table: a property of the ramps that every cell
   * inherits from its three neighbours (left, above, diagonal) holds
   * everywhere in the table.
   */
  lemma {:induction false} Induction(len1: nat, len2: nat, P: (nat, nat) -> bool, i: nat, j: nat)
    requires forall i': nat :: i' <= len1 ==> P(i', 0)
    requires forall j': nat :: j' <= len2 ==> P(0, j')
    requires forall i': nat, j': nat :: 1 <= i' <= len1 && 1 <= j' <= len2 && P(i', j' - 1) && P(i' - 1, j') && P(i' - 1, j' - 1) ==> P(i', j')
    requires i <= len1 && j <= len2
    ensures P(i, j)
    decreases i + j
  {
    if i != 0 && j != 0 {
      Induction(len1, len2, P, i, j - 1);
      Induction(len1, len2, P, i - 1, j);
      Induction(len1, len2, P, i - 1, j - 1);
    }
  }

  /** Cell (i, j) of c1 is at most cell (i, j) of c2. */
  function NoDearer(c1: Costs, c2: Costs): (nat, nat) -> bool
  {
    (i: nat, j: nat) => Cell(c1, i, j) <= Cell(c2, i, j)
  }

  lemma MonotoneStep(c1: Costs, c2: Costs, len1: nat, len2: nat, i: nat, j: nat)
    requires Cheaper(c1, c2, len1, len2)
    requires 1 <= i <= len1 && 1 <= j <= len2
    requires NoDearer(c1, c2)(i, j - 1) && NoDearer(c1, c2)(i - 1, j) && NoDearer(c1, c2)(i - 1, j - 1)
    ensures NoDearer(c1, c2)(i, j)
  {
  }

  /** Cheaper edges give cheaper cells. */
  lemma Monotone(c1: Costs, c2: Costs, len1: nat, len2: nat, i: nat, j: nat)
    requires Cheaper(c1, c2, len1, len2)
    requires i <= len1 && j <= len2
    ensures Cell(c1, i, j) <= Cell(c2, i, j)
  {
    var P := NoDearer(c1, c2);
    forall i': nat, j': nat | 1 <= i' <= len1 && 1 <= j' <= len2 && P(i', j' - 1) && P(i' - 1, j') && P(i' - 1, j' - 1)
      ensures P(i', j')
    {
      MonotoneStep(c1, c2, len1, len2, i', j');
    }
    Induction(len1, len2, P, i, j);
  }

  /** Equal edges give equal cells. */
  lemma SameCosts(c1: Costs, c2: Costs, len1: nat, len2: nat)
    requires Cheaper(c1, c2, len1, len2) && Cheaper(c2, c1, len1, len2)
    ensures Cell(c1, len1, len2) == Cell(c2, len1, len2)
  {
    Monotone(c1, c2, len1, len2, len1, len2);
    Monotone(c2, c1, len1, len2, len1, len2);
  }

  /**
   * c2 is c1 with the two inputs exchanged: its cell (j, i) has c1's edges
   * of cell (i, j), with insertion and deletion swapped.
   */
  predicate Mirror(c1: Costs, c2: Costs, len1: nat, len2: nat)
  {
    forall i: nat, j: nat :: 1 <= i <= len1 && 1 <= j <= len2 ==>
      c2.insert(j, i) == c1.delete(i, j) && c2.delete(j, i) == c1.insert(i, j) && c2.substitute(j, i) == c1.substitute(i, j)
  }

  /** Cell (i, j) of c1 is cell (j, i) of c2. */
  function Transposed(c1: Costs, c2: Costs): (nat, nat) -> bool
  {
    (i: nat, j: nat) => Cell(c1, i, j) == Cell(c2, j, i)
  }

  lemma TransposeStep(c1: Costs, c2: Costs, len1: nat, len2: nat, i: nat, j: nat)
    requires Mirror(c1, c2, len1, len2)
    requires 1 <= i <= len1 && 1 <= j <= len2
    requires Transposed(c1, c2)(i, j - 1) && Transposed(c1, c2)(i - 1, j) && Transposed(c1, c2)(i - 1, j - 1)
    ensures Transposed(c1, c2)(i, j)
  {
    Min3Swap(Cell(c1, i, j - 1) + c1.insert(i, j), Cell(c1, i - 1, j) + c1.delete(i, j), Cell(c1, i - 1, j - 1) + c1.substitute(i, j));
  }

  /** Exchanging the inputs transposes the table. */
  lemma Transpose(c1: Costs, c2: Costs, len1: nat, len2: nat)
    requires Mirror(c1, c2, len1, len2)
    ensures Cell(c1, len1, len2) == Cell(c2, len2, len1)
  {
    var P := Transposed(c1, c2);
    forall i: nat, j: nat | 1 <= i <= len1 && 1 <= j <= len2 && P(i, j - 1) && P(i - 1, j) && P(i - 1, j - 1)
      ensures P(i, j)
    {
      TransposeStep(c1, c2, len1, len2, i, j);
    }
    Induction(len1, len2, P, len1, len2);
  }

  /** Inserting and deleting cost at least 1 and no edge is negative (the unit-cost routines). */
  predicate UnitGaps(c: Costs, len1: nat, len2: nat)
  {
    forall i: nat, j: nat :: 1 <= i <= len1 && 1 <= j <= len2 ==>
      c.insert(i, j) >= 1 && c.delete(i, j) >= 1 && c.substitute(i, j) >= 0
  }

  /** No edge costs more than 1. */
  predicate AtMostUnit(c: Costs, len1: nat, len2: nat)
  {
    forall i: nat, j: nat :: 1 <= i <= len1 && 1 <= j <= len2 ==>
      c.insert(i, j) <= 1 && c.delete(i, j) <= 1 && c.substitute(i, j) <= 1
  }

  /** No edge is negative. */
  predicate NoNegative(c: Costs, len1: nat, len2: nat)
  {
    forall i: nat, j: nat :: 1 <= i <= len1 && 1 <= j <= len2 ==>
      c.insert(i, j) >= 0 && c.delete(i, j) >= 0 && c.substitute(i, j) >= 0
  }

  /** Cell (i, j) is at least |i - j|. */
  function Apart(c: Costs): (nat, nat) -> bool
  {
    (i: nat, j: nat) => i - j <= Cell(c, i, j) && j - i <= Cell(c, i, j)
  }

  lemma LowerBandStep(c: Costs, len1: nat, len2: nat, i: nat, j: nat)
    requires UnitGaps(c, len1, len2)
    requires 1 <= i <= len1 && 1 <= j <= len2
    requires Apart(c)(i, j - 1) && Apart(c)(i - 1, j) && Apart(c)(i - 1, j - 1)
    ensures Apart(c)(i, j)
  {
  }

  /** With unit gaps, reaching (i, j) needs at least |i - j| insertions or deletions. */
  lemma LowerBand(c: Costs, len1: nat, len2: nat, i: nat, j: nat)
    requires UnitGaps(c, len1, len2)
    requires i <= len1 && j <= len2
    ensures i - j <= Cell(c, i, j) && j - i <= Cell(c, i, j)
  {
    var P := Apart(c);
    forall i': nat, j': nat | 1 <= i' <= len1 && 1 <= j' <= len2 && P(i', j' - 1) && P(i' - 1, j') && P(i' - 1, j' - 1)
      ensures P(i', j')
    {
      LowerBandStep(c, len1, len2, i', j');
    }
    Induction(len1, len2, P, i, j);
  }

  /** Cell (i, j) is at most max(i, j). */
  function Within(c: Costs): (nat, nat) -> bool
  {
    (i: nat, j: nat) => Cell(c, i, j) <= Max(i, j)
  }

  lemma UpperBandStep(c: Costs, len1: nat, len2: nat, i: nat, j: nat)
    requires AtMostUnit(c, len1, len2)
    requires 1 <= i <= len1 && 1 <= j <= len2
    requires Within(c)(i - 1, j - 1)
    ensures Within(c)(i, j)
  {
  }

  /** With edges of at most 1, cell (i, j) is at most max(i, j): substitute along the diagonal, then insert or delete. */
  lemma UpperBand(c: Costs, len1: nat, len2: nat, i: nat, j: nat)
    requires AtMostUnit(c, len1, len2)
    requires i <= len1 && j <= len2
    ensures Cell(c, i, j) <= Max(i, j)
  {
    var P := Within(c);
    forall i': nat, j': nat | 1 <= i' <= len1 && 1 <= j' <= len2 && P(i', j' - 1) && P(i' - 1, j') && P(i' - 1, j' - 1)
      ensures P(i', j')
    {
      UpperBandStep(c, len1, len2, i', j');
    }
    Induction(len1, len2, P, i, j);
  }

  /** Cell (i, j) is not negative. */
  function NotBelowZero(c: Costs): (nat, nat) -> bool
  {
    (i: nat, j: nat) => Cell(c, i, j) >= 0
  }

  lemma NonNegativeStep(c: Costs, len1: nat, len2: nat, i: nat, j: nat)
    requires NoNegative(c, len1, len2)
    requires 1 <= i <= len1 && 1 <= j <= len2
    requires NotBelowZero(c)(i, j - 1) && NotBelowZero(c)(i - 1, j) && NotBelowZero(c)(i - 1, j - 1)
    ensures NotBelowZero(c)(i, j)
  {
  }

  /** With no negative edge, no cell is negative. */
  lemma NonNegative(c: Costs, len1: nat, len2: nat, i: nat, j: nat)
    requires NoNegative(c, len1, len2)
    requires i <= len1 && j <= len2
    ensures Cell(c, i, j) >= 0
  {
    var P := NotBelowZero(c);
    forall i': nat, j': nat | 1 <= i' <= len1 && 1 <= j' <= len2 && P(i', j' - 1) && P(i' - 1, j') && P(i' - 1, j' - 1)
      ensures P(i', j')
    {
      NonNegativeStep(c, len1, len2, i', j');
    }
    Induction(len1, len2, P, i, j);
  }

  /** Cell (i, j) costs at most its substitution edge more than its diagonal neighbour. */
  lemma DiagonalStep(c: Costs, i: nat, j: nat)
    requires 1 <= i && 1 <= j
    ensures Cell(c, i, j) <= Cell(c, i - 1, j - 1) + c.substitute(i, j)
  {
  }

  /** Following the diagonal from (i, j) over n free substitutions adds nothing. */
  lemma {:induction false} DiagonalRun(c: Costs, i: nat, j: nat, n: nat)
    requires forall a: nat, b: nat :: i < a <= i + n && a - i == b - j ==> c.substitute(a, b) <= 0
    ensures Cell(c, i + n, j + n) <= Cell(c, i, j)
    decreases n
  {
    if n != 0 {
      DiagonalRun(c, i, j, n - 1);
      DiagonalStep(c, i + n, j + n);
    }
  }

  /** The substitution costs along the main diagonal up to cell (n, n). */
  function DiagonalCost(c: Costs, n: nat): int
  {
    if n == 0 then 0 else DiagonalCost(c, n - 1) + c.substitute(n, n)
  }

  /** Substituting position by position is one way through the table: cell (n, n) costs at most the diagonal. */
  lemma {:induction false} BelowDiagonal(c: Costs, n: nat)
    ensures Cell(c, n, n) <= DiagonalCost(c, n)
  {
    if n != 0 {
      BelowDiagonal(c, n - 1);
      DiagonalStep(c, n, n);
    }
  }

  /** The recurrence at an inner cell, stated over `Cell`. */
  lemma Unfold(c: Costs, i: nat, j: nat)
    requires 1 <= i && 1 <= j
    ensures Cell(c, i, j) == Min3(Cell(c, i, j - 1) + c.insert(i, j), Cell(c, i - 1, j) + c.delete(i, j), Cell(c, i - 1, j - 1) + c.substitute(i, j))
  {
  }

  /** On the main diagonal, cell (i, i) is at least the diagonal cost capped at 2. */
  function CappedDiagonal(c: Costs): (nat, nat) -> bool
  {
    (i: nat, j: nat) => i == j ==> Cell(c, i, j) >= Min(DiagonalCost(c, i), 2)
  }

  lemma CappedDiagonalStep(c: Costs, len1: nat, len2: nat, i: nat, j: nat)
    requires UnitGaps(c, len1, len2)
    requires 1 <= i <= len1 && 1 <= j <= len2
    requires CappedDiagonal(c)(i - 1, j - 1)
    ensures CappedDiagonal(c)(i, j)
  {
    if i == j {
      LowerBand(c, len1, len2, i, j - 1);
      LowerBand(c, len1, len2, i - 1, j);
      Unfold(c, i, j);
    }
  }

  /**
   * With unit gaps, leaving the diagonal costs an insertion and a deletion,
   * so cell (n, n) is the diagonal cost whenever that is at most 2.
   */
  lemma AboveCappedDiagonal(c: Costs, n: nat)
    requires UnitGaps(c, n, n)
    ensures Cell(c, n, n) >= Min(DiagonalCost(c, n), 2)
  {
    var P := CappedDiagonal(c);
    forall i: nat, j: nat | 1 <= i <= n && 1 <= j <= n && P(i, j - 1) && P(i - 1, j) && P(i - 1, j - 1)
      ensures P(i, j)
    {
      CappedDiagonalStep(c, n, n, i, j);
    }
    Induction(n, n, P, n, n);
  }

  /** Inserting into (i, j) costs at most its insertion edge more than the cell to its left. */
  lemma InsertStep(c: Costs, i: nat, j: nat)
    requires 1 <= i && 1 <= j
    ensures Cell(c, i, j) <= Cell(c, i, j - 1) + c.insert(i, j)
  {
  }

  /** Moving k cells along j over insertions of at most 1 adds at most k. */
  lemma {:induction false} InsertRun(c: Costs, i: nat, j: nat, k: nat)
    requires i != 0
    requires forall l: nat :: j < l <= j + k ==> c.insert(i, l) <= 1
    ensures Cell(c, i, j + k) <= Cell(c, i, j) + k
    decreases k
  {
    if k != 0 {
      InsertRun(c, i, j, k - 1);
      InsertStep(c, i, j + k);
    }
  }

  /** A zero cell lies on the diagonal, and every substitution on the diagonal up to it is free. */
  function OnFreeDiagonal(c: Costs): (nat, nat) -> bool
  {
    (i: nat, j: nat) => Cell(c, i, j) == 0 ==> i == j && forall k: nat :: 1 <= k <= i ==> c.substitute(k, k) == 0
  }

  /** Both gaps cost at least 1 and no cell is negative, so a zero cell comes from a zero diagonal neighbour over a free substitution. */
  lemma ZeroEdge(c: Costs, len1: nat, len2: nat, i: nat, j: nat)
    requires UnitGaps(c, len1, len2)
    requires 1 <= i <= len1 && 1 <= j <= len2
    requires Cell(c, i, j) == 0
    ensures Cell(c, i - 1, j - 1) == 0 && c.substitute(i, j) == 0
  {
    LowerBand(c, len1, len2, i, j - 1);
    LowerBand(c, len1, len2, i - 1, j);
    LowerBand(c, len1, len2, i - 1, j - 1);
  }

  lemma ZeroStep(c: Costs, len1: nat, len2: nat, i: nat, j: nat)
    requires UnitGaps(c, len1, len2)
    requires 1 <= i <= len1 && 1 <= j <= len2
    requires OnFreeDiagonal(c)(i - 1, j - 1)
    ensures OnFreeDiagonal(c)(i, j)
  {
    if Cell(c, i, j) == 0 {
      ZeroEdge(c, len1, len2, i, j);
      forall k: nat | 1 <= k <= i
        ensures c.substitute(k, k) == 0
      {
        if k == i {
          assert i == j;
        }
      }
    }
  }

  /** With unit gaps a zero cell lies on the diagonal, and every substitution on the diagonal up to it is free. */
  lemma ZeroCell(c: Costs, len1: nat, len2: nat, i: nat, j: nat)
    requires UnitGaps(c, len1, len2)
    requires i <= len1 && j <= len2
    requires Cell(c, i, j) == 0
    ensures i == j
    ensures forall k: nat :: 1 <= k <= i ==> c.substitute(k, k) == 0
  {
    var P := OnFreeDiagonal(c);
    forall i': nat, j': nat | 1 <= i' <= len1 && 1 <= j' <= len2 && P(i', j' - 1) && P(i' - 1, j') && P(i' - 1, j' - 1)
      ensures P(i', j')
    {
      ZeroStep(c, len1, len2, i', j');
    }
    Induction(len1, len2, P, i, j);
  }
}

=== FILE: flat_table.dfy ===
/**
 * The scratch table of the dynamic-programming routines: one flat buffer of
 * (len1+1)*(len2+1) cells where cell (i, j) lives at `d[j * n + i]`, with
 * n = len1 + 1, i walking the first input and j the second.
 *
 * The product j * n is spelled out as j rows of n cells (`Rows`), which keeps
 * multiplication of two variables out of the proofs about the buffer.
 */
module FlatTable {

  /** The number of cells in j rows of n cells. */
  function Rows(n: nat, j: nat): nat
  {
    if j == 0 then 0 else Rows(n, j - 1) + n
  }

  /** `Rows` is the product the C code allocates: (len2+1) * (len1+1) cells. */
  lemma {:induction false} RowsIsProduct(n: nat, j: nat)
    ensures Rows(n, j) == n * j
  {
    if j > 0 {
      RowsIsProduct(n, j - 1);
    }
  }

  /** Offset of cell (i, j) in a table whose rows hold n cells: j * n + i. */
  function Idx(n: nat, i: nat, j: nat): nat
  {
    Rows(n, j) + i
  }

  /** Later rows start after every cell of the earlier ones. */
  lemma {:induction false} RowsMonotone(n: nat, j: nat, j2: nat)
    requires j < j2
    ensures Rows(n, j) + n <= Rows(n, j2)
    decreases j2
  {
    if j + 1 < j2 {
      RowsMonotone(n, j, j2 - 1);
    }
  }

  /** Every cell of an n-by-m table lies inside its buffer of n * m cells. */
  lemma IdxInRange(n: nat, m: nat, i: nat, j: nat)
    requires i < n && j < m
    ensures Idx(n, i, j) < Rows(n, m)
  {
    RowsMonotone(n, j, m);
  }

  /** Distinct cells never share a slot. */
  lemma IdxDistinct(n: nat, i: nat, j: nat, i2: nat, j2: nat)
    requires i < n && i2 < n
    requires i != i2 || j != j2
    ensures Idx(n, i, j) != Idx(n, i2, j2)
  {
    if j < j2 {
      RowsMonotone(n, j, j2);
    } else if j2 < j {
      RowsMonotone(n, j2, j);
    }
  }

  /** `d[n * m - 1]` is the bottom-right cell. */
  lemma LastIdx(n: nat, m: nat)
    requires n > 0 && m > 0
    ensures Idx(n, n - 1, m - 1) == Rows(n, m) - 1
  {
  }

  /** The buffer holds exactly the (len1+1)*(len2+1) cells of the table. */
  predicate Sized<T>(d: array<T>, len1: nat, len2: nat)
    reads d
  {
    d.Length == Rows(len1 + 1, len2 + 1)
  }

  /** Cell (i, j) of the table, `d[j * n + i]`. */
  function Get<T>(d: array<T>, len1: nat, len2: nat, i: nat, j: nat): T
    requires Sized(d, len1, len2) && i <= len1 && j <= len2
    reads d
  {
    IdxInRange(len1 + 1, len2 + 1, i, j);
    d[Idx(len1 + 1, i, j)]
  }

  /**
   * Cell (i', j') is a seed (row 0 or column 0) or comes before cell (i, j)
   * in the fill order, i outer and j inner.
   */
  predicate Before(i': nat, j': nat, i: nat, j: nat)
  {
    i' == 0 || j' == 0 || i' < i || (i' == i && j' < j)
  }

  /** Every cell filled before (i, j) holds the value `cell` prescribes for it. */
  ghost predicate Done<T>(d: array<T>, len1: nat, len2: nat, cell: (nat, nat) -> T, i: nat, j: nat)
    reads d
  {
    && Sized(d, len1, len2)
    && forall i': nat, j': nat :: i' <= len1 && j' <= len2 && Before(i', j', i, j) ==> Get(d, len1, len2, i', j') == cell(i', j')
  }

  /** `d[j * n + i] = v`: writes one cell and leaves every other cell alone. */
  method Put<T>(d: array<T>, len1: nat, len2: nat, i: nat, j: nat, v: T)
    requires Sized(d, len1, len2) && i <= len1 && j <= len2
    modifies d
    ensures Sized(d, len1, len2)
    ensures Get(d, len1, len2, i, j) == v
    ensures forall i': nat, j': nat :: i' <= len1 && j' <= len2 && (i' != i || j' != j) ==>
      Get(d, len1, len2, i', j') == old(Get(d, len1, len2, i', j'))
  {
    IdxInRange(len1 + 1, len2 + 1, i, j);
    d[Idx(len1 + 1, i, j)] := v;
    forall i': nat, j': nat | i' <= len1 && j' <= len2 && (i' != i || j' != j)
      ensures Get(d, len1, len2, i', j') == old(Get(d, len1, len2, i', j'))
    {
      IdxDistinct(len1 + 1, i', j', i, j);
    }
  }

  /** Storing the prescribed value of cell (i, j) advances the fill by one cell. */
  method Store<T>(d: array<T>, len1: nat, len2: nat, ghost cell: (nat, nat) -> T, i: nat, j: nat, v: T)
    requires 1 <= i <= len1 && 1 <= j <= len2
    requires Done(d, len1, len2, cell, i, j)
    requires v == cell(i, j)
    modifies d
    ensures Done(d, len1, len2, cell, i, j + 1)
  {
    Put(d, len1, len2, i, j, v);
  }

  /** Completing one value of i starts the next one. */
  lemma NextRow<T>(d: array<T>, len1: nat, len2: nat, cell: (nat, nat) -> T, i: nat)
    requires Done(d, len1, len2, cell, i, len2 + 1)
    ensures Done(d, len1, len2, cell, i + 1, 1)
  {
    forall i': nat, j': nat | i' <= len1 && j' <= len2 && Before(i', j', i + 1, 1)
      ensures Get(d, len1, len2, i', j') == cell(i', j')
    {
      assert Before(i', j', i, len2 + 1);
    }
  }

}

=== FILE: hamming.dfy ===
/**
 * `hamming_d` (hamming.c): the number of positions at which two
 * equally long strings differ, or -1 when the lengths differ or are 0.
 */
module Hamming {
  import opened Distance
  import Levenshtein
  import EditTable

  /** Both strings have the same non-zero length (the guard of hamming.c:27-28). */
  predicate Comparable(s: seq<int>, t: seq<int>)
  {
    |s| != 0 && |s| == |t|
  }

  /**
   * The value hamming_d returns: -1 for incomparable lengths
   * (hamming.c:27-28), 0 for equal strings (hamming.c:31-32), and otherwise
   * the count of the scan (hamming.c:34-41).
   */
  function Hamming(s: seq<int>, t: seq<int>): (r: int)
    ensures r == -1 <==> !Comparable(s, t)
    ensures Comparable(s, t) && s == t ==> r == 0
  {
    if !Comparable(s, t) then -1
    else if s == t then 0
    else Mismatches(s, t, |s|)
  }

  /** hamming.c:15-42: the guard, the early exit, then a scan up to the NUL of s. */
  method HammingD(s: seq<int>, t: seq<int>) returns (h: int)
    requires IsCString(s) && IsCString(t)
    ensures h == Hamming(s, t)
    ensures Comparable(s, t) ==> 0 <= h <= |s|
  {
    var n := |s|;
    var m := |t|;
    if n == 0 || n != m {
      return -1;
    }
    if s[..n] == t[..n] {
      assert s == s[..n] && t == t[..n];
      return 0;
    }
    h := 0;
    var k := 0;
    while At(s, k) != 0
      invariant 0 <= k <= |s|
      invariant h == Mismatches(s, t, k)
      decreases |s| - k
    {
      if At(s, k) != At(t, k) {
        h := h + 1;
      }
      k := k + 1;
    }
    assert k == |s|;
    Range(s, t);
  }

  /** The early exit only shortcuts the scan: a comparable pair always gets its mismatch count. */
  lemma CountsMismatches(s: seq<int>, t: seq<int>)
    requires Comparable(s, t)
    ensures Hamming(s, t) == Mismatches(s, t, |s|)
  {
    NoMismatches(s, t, |s|);
  }

  /** For comparable strings 0 <= hamming_d <= len1. */
  lemma Range(s: seq<int>, t: seq<int>)
    requires Comparable(s, t)
    ensures 0 <= Hamming(s, t) <= |s|
  {
    MatchesAndMismatches(s, t, |s|);
  }

  /** For comparable strings the result is 0 exactly when they are equal. */
  lemma ZeroIffEqual(s: seq<int>, t: seq<int>)
    requires Comparable(s, t)
    ensures Hamming(s, t) == 0 <==> s == t
  {
    NoMismatches(s, t, |s|);
    if Mismatches(s, t, |s|) == 0 {
      assert forall k :: 0 <= k < |s| ==> s[k] == At(s, k) == At(t, k) == t[k];
      assert s == t;
    }
  }

  /** Swapping the inputs does not change the result. */
  lemma Symmetric(s: seq<int>, t: seq<int>)
    ensures Hamming(s, t) == Hamming(t, s)
  {
    MismatchesSymmetric(s, t, |s|);
  }

  /**
   * Substituting every differing position is an edit script, and any other
   * script costs at least 2: levenshtein_d is at most hamming_d, and equals
   * it when hamming_d is at most 2.
   */
  lemma AgainstLevenshtein(s: seq<int>, t: seq<int>)
    requires Comparable(s, t)
    ensures Levenshtein.Dist(s, t) <= Hamming(s, t)
    ensures Min(Hamming(s, t), 2) <= Levenshtein.Dist(s, t)
  {
    CountsMismatches(s, t);
    Levenshtein.AgainstMismatches(s, t);
  }
}

=== FILE: jaccard.dfy ===
/**
 * `jaccard_d` (jaccard.c): a positional comparison of two equally long
 * strings, returned as a `float`: -1 when the lengths differ or are 0, 0
 * for equal strings, and otherwise 1 - same / (diff + same).
 *
 * The counter called `same` is incremented on a mismatch and `diff` on a
 * match (jaccard.c:43-46), so the value returned for unequal strings is
 * the fraction of positions that agree.
 */
module Jaccard {
  import opened Distance
  import Hamming

  /** The value jaccard_d returns (jaccard.c:20-53). */
  function Jaccard(s: seq<int>, t: seq<int>): (r: real)
    ensures !Hamming.Comparable(s, t) ==> r == -1.0
    ensures Hamming.Comparable(s, t) && s == t ==> r == 0.0
  {
    if !Hamming.Comparable(s, t) then -1.0
    else if s == t then 0.0
    else Scan(s, t)
  }

  /** The value the scan of jaccard.c:40-52 computes: `same` counts mismatches, `diff` matches. */
  function Scan(s: seq<int>, t: seq<int>): real
    requires Hamming.Comparable(s, t)
  {
    var same := Mismatches(s, t, |s|) as real;
    var diff := Matches(s, t, |s|) as real;
    1.0 - same / (diff + same)
  }

  /** jaccard.c:20-53: the guard, the early exit, then a scan up to the NUL of s. */
  method JaccardD(s: seq<int>, t: seq<int>) returns (r: real)
    requires IsCString(s) && IsCString(t)
    ensures r == Jaccard(s, t)
  {
    var n := |s|;
    var m := |t|;
    if n == 0 || n != m {
      return -1.0;
    }
    if s[..n] == t[..n] {
      assert s == s[..n] && t == t[..n];
      return 0.0;
    }
    var same := 0.0;
    var diff := 0.0;
    var k := 0;
    while At(s, k) != 0
      invariant 0 <= k <= |s|
      invariant same == Mismatches(s, t, k) as real && diff == Matches(s, t, k) as real
      decreases |s| - k
    {
      if At(s, k) != At(t, k) {
        same := same + 1.0;
      } else {
        diff := diff + 1.0;
      }
      k := k + 1;
    }
    assert k == |s|;
    var j := same / (diff + same);
    r := 1.0 - j;
  }

  /** For comparable unequal strings the result is the fraction of positions that agree. */
  lemma MatchRatio(s: seq<int>, t: seq<int>)
    requires Hamming.Comparable(s, t) && s != t
    ensures Jaccard(s, t) == Matches(s, t, |s|) as real / |s| as real
  {
    MatchesAndMismatches(s, t, |s|);
    var same := Mismatches(s, t, |s|) as real;
    var diff := Matches(s, t, |s|) as real;
    Complement(same, diff);
  }

  /** 1 - a / (a + b) = b / (a + b). */
  lemma Complement(a: real, b: real)
    requires a >= 0.0 && b >= 0.0 && a + b > 0.0
    ensures 1.0 - a / (a + b) == b / (a + b)
  {
    var n := a + b;
    var x := a / n;
    var y := b / n;
    assert x * n == a && y * n == b;
    assert (x + y) * n == x * n + y * n == a + b == n;
    assert x + y == 1.0;
  }

  /** For comparable unequal strings the result is 1 - hamming_d / len1. */
  lemma AgainstHamming(s: seq<int>, t: seq<int>)
    requires Hamming.Comparable(s, t) && s != t
    ensures Jaccard(s, t) == 1.0 - Hamming.Hamming(s, t) as real / |s| as real
  {
    MatchesAndMismatches(s, t, |s|);
    MatchRatio(s, t);
  }

  /** Comparable unequal strings agree somewhere less than everywhere: 0 <= result < 1. */
  lemma Range(s: seq<int>, t: seq<int>)
    requires Hamming.Comparable(s, t) && s != t
    ensures 0.0 <= Jaccard(s, t) < 1.0
  {
    Hamming.CountsMismatches(s, t);
    Hamming.ZeroIffEqual(s, t);
    Hamming.Range(s, t);
    AgainstHamming(s, t);
  }

  /** Strings that differ at every position also give 0. */
  lemma AllDiffer(s: seq<int>, t: seq<int>)
    requires Hamming.Comparable(s, t)
    requires forall k :: 0 <= k < |s| ==> s[k] != t[k]
    ensures Jaccard(s, t) == 0.0
  {
    assert s[0] != t[0];
    NoMatches(s, t, |s|);
    MatchRatio(s, t);
  }

  /** Swapping the inputs does not change the result. */
  lemma Symmetric(s: seq<int>, t: seq<int>)
    ensures Jaccard(s, t) == Jaccard(t, s)
  {
    if Hamming.Comparable(s, t) && s != t {
      AgainstHamming(s, t);
      AgainstHamming(t, s);
      Hamming.Symmetric(s, t);
    }
  }

  // ---------------------------------------------------------------------
  // The swapped counters
  // ---------------------------------------------------------------------

  /**
   * The early exit of jaccard.c:37-38 returns 0 for equal strings, but the
   * scan as written would give them 1: the exit is not a shortcut of the
   * scan, and its 0 is also what the scan gives strings that differ
   * everywhere.
   */
  lemma ExitDisagreesWithScan(s: seq<int>)
    requires |s| != 0
    ensures Jaccard(s, s) == 0.0
    ensures Scan(s, s) == 1.0
  {
    NoMismatches(s, s, |s|);
    MatchesAndMismatches(s, s, |s|);
  }

  /** "ab" against itself and "ab" against "cd" both give 0. */
  lemma EqualLooksLikeDisjoint()
    ensures Jaccard(Bytes("ab"), Bytes("ab")) == 0.0
    ensures Jaccard(Bytes("ab"), Bytes("cd")) == 0.0
  {
    AllDiffer(Bytes("ab"), Bytes("cd"));
  }

  /**
   * The scan with the counters used as their names say (`same` counting
   * matches): 1 - matches / len, the share of positions that differ.
   */
  function CorrectedScan(s: seq<int>, t: seq<int>): real
    requires Hamming.Comparable(s, t)
  {
    var same := Matches(s, t, |s|) as real;
    var diff := Mismatches(s, t, |s|) as real;
    1.0 - same / (diff + same)
  }

  /** jaccard_d with the counters corrected; the guard and the early exit are unchanged. */
  function Corrected(s: seq<int>, t: seq<int>): (r: real)
    ensures !Hamming.Comparable(s, t) ==> r == -1.0
  {
    if !Hamming.Comparable(s, t) then -1.0
    else if s == t then 0.0
    else CorrectedScan(s, t)
  }

  /**
   * With the counters corrected, the early exit is only a shortcut of the
   * scan; the result is hamming_d / len1, between 0 and 1, 0 exactly for
   * equal strings and 1 for strings that differ everywhere.
   */
  lemma CorrectedIsMismatchShare(s: seq<int>, t: seq<int>)
    requires Hamming.Comparable(s, t)
    ensures Corrected(s, t) == CorrectedScan(s, t) == Hamming.Hamming(s, t) as real / |s| as real
    ensures 0.0 <= Corrected(s, t) <= 1.0
    ensures Corrected(s, t) == 0.0 <==> s == t
    ensures (forall k :: 0 <= k < |s| ==> s[k] != t[k]) ==> Corrected(s, t) == 1.0
  {
    MatchesAndMismatches(s, t, |s|);
    Complement(Matches(s, t, |s|) as real, Mismatches(s, t, |s|) as real);
    Hamming.CountsMismatches(s, t);
    Hamming.Range(s, t);
    assert Hamming.Hamming(s, t) as real <= |s| as real;
    assert Hamming.Hamming(s, t) as real / |s| as real <= 1.0;
    Hamming.ZeroIffEqual(s, t);
    NoMismatches(s, t, |s|);
    NoMatches(s, t, |s|);
  }

  /** For unequal strings the corrected and the written results add up to 1. */
  lemma CorrectedComplementsWritten(s: seq<int>, t: seq<int>)
    requires Hamming.Comparable(s, t) && s != t
    ensures Corrected(s, t) + Jaccard(s, t) == 1.0
  {
    CorrectedIsMismatchShare(s, t);
    AgainstHamming(s, t);
  }
}

=== FILE: levenshtein.dfy ===
/**
 * `levenshtein_d` (levenshtein.c): the edit distance between two byte
 * strings, where inserting, deleting and substituting a byte each cost 1.
 *
 * The routine is the edit table of `EditTable` with unit gaps and a
 * substitution that is free exactly when the two bytes agree.
 */
module Levenshtein {
  import opened Distance
  import opened FlatTable
  import opened EditTable

  /** Inserting or deleting a byte costs 1 (`a` and `b` of levenshtein.c:54-55). */
  function Gap(): (nat, nat) -> int
  {
    (i: nat, j: nat) => 1
  }

  /** The `cost` of levenshtein.c:49-52: 0 when s[i-1] equals t[j-1], 1 otherwise. */
  function Mismatch(s: seq<int>, t: seq<int>): (nat, nat) -> int
  {
    (i: nat, j: nat) => if At(s, i - 1) == At(t, j - 1) then 0 else 1
  }

  function Edges(s: seq<int>, t: seq<int>): Costs
  {
    Costs(Gap(), Gap(), Mismatch(s, t))
  }

  /**
   * The value `levenshtein_d(s, |s|, t, |t|)` returns: the last table cell
   * when both strings are non-empty, otherwise the longer length
   * (levenshtein.c:36, 59, 62-63).
   */
  function Dist(s: seq<int>, t: seq<int>): (r: int)
    ensures |s| == 0 ==> r == |t|
    ensures |t| == 0 ==> r == |s|
  {
    Result(Edges(s, t), |s|, |t|)
  }

  /**
   * levenshtein.c:25-65: seeds row and column 0, fills the table row by row
   * and returns the bottom-right cell.
   */
  method LevenshteinD(s: seq<int>, t: seq<int>) returns (distance: int)
    ensures distance == Dist(s, t)
    ensures 0 <= distance <= Max(|s|, |t|)
    ensures distance == 0 <==> s == t
  {
    var n := |s|;
    var m := |t|;
    if n != 0 && m != 0 {
      ghost var c := Edges(s, t);
      n := n + 1;
      m := m + 1;
      RowsIsProduct(n, m);
      var d := new int[n * m];
      Seed(d, |s|, |t|, c);
      var i := 1;
      while i < n
        invariant 1 <= i <= n
        invariant Done(d, |s|, |t|, Cells(c), i, 1)
      {
        var j := 1;
        while j < m
          invariant 1 <= j <= m
          invariant Done(d, |s|, |t|, Cells(c), i, j)
        {
          var cost := if s[i - 1] == t[j - 1] then 0 else 1;
          StoreMin(d, |s|, |t|, c, i, j, 1, 1, cost);
          j := j + 1;
        }
        NextRow(d, |s|, |t|, Cells(c), i);
        i := i + 1;
      }
      LastCell(d, |s|, |t|, c);
      distance := d[n * m - 1];
      ResultIsLastCell(c, |s|, |t|);
    } else {
      distance := Max(m, n);
    }
    Bounds(s, t);
    ZeroIffEqual(s, t);
  }

  /** Unit gaps and a 0-or-1 substitution meet the bounds of `EditTable`. */
  lemma EdgesAreUnit(s: seq<int>, t: seq<int>)
    ensures UnitGaps(Edges(s, t), |s|, |t|)
    ensures AtMostUnit(Edges(s, t), |s|, |t|)
  {
  }

  /** The distance lies between the length difference and the longer length. */
  lemma Bounds(s: seq<int>, t: seq<int>)
    ensures |s| - |t| <= Dist(s, t) && |t| - |s| <= Dist(s, t)
    ensures 0 <= Dist(s, t) <= Max(|s|, |t|)
  {
    var c := Edges(s, t);
    EdgesAreUnit(s, t);
    ResultIsLastCell(c, |s|, |t|);
    LowerBand(c, |s|, |t|, |s|, |t|);
    UpperBand(c, |s|, |t|, |s|, |t|);
  }

  /** A string is at distance 0 from itself. */
  lemma Identity(s: seq<int>)
    ensures Dist(s, s) == 0
  {
    var c := Edges(s, s);
    ResultIsLastCell(c, |s|, |s|);
    DiagonalRun(c, 0, 0, |s|);
    Bounds(s, s);
  }

  /** Distance 0 means the strings are equal, and only then. */
  lemma ZeroIffEqual(s: seq<int>, t: seq<int>)
    ensures Dist(s, t) == 0 <==> s == t
  {
    if s == t {
      Identity(s);
    }
    if Dist(s, t) == 0 {
      var c := Edges(s, t);
      EdgesAreUnit(s, t);
      ResultIsLastCell(c, |s|, |t|);
      ZeroCell(c, |s|, |t|, |s|, |t|);
      forall k | 0 <= k < |s|
        ensures s[k] == t[k]
      {
        assert c.substitute(k + 1, k + 1) == 0;
      }
      assert s == t;
    }
  }

  /** The table of (t, s) is the transpose of the table of (s, t). */
  lemma EdgesMirror(s: seq<int>, t: seq<int>)
    ensures Mirror(Edges(s, t), Edges(t, s), |s|, |t|)
  {
  }

  /** Swapping the arguments does not change the distance. */
  lemma Symmetric(s: seq<int>, t: seq<int>)
    ensures Dist(s, t) == Dist(t, s)
  {
    EdgesMirror(s, t);
    ResultIsLastCell(Edges(s, t), |s|, |t|);
    ResultIsLastCell(Edges(t, s), |t|, |s|);
    Transpose(Edges(s, t), Edges(t, s), |s|, |t|);
  }

  lemma {:induction false} MismatchesOnDiagonal(s: seq<int>, t: seq<int>, n: nat)
    ensures DiagonalCost(Edges(s, t), n) == Mismatches(s, t, n)
  {
    if n != 0 {
      MismatchesOnDiagonal(s, t, n - 1);
    }
  }

  /**
   * For strings of one length, substituting every disagreeing position is an
   * edit script, and any cheaper script would have to leave the diagonal at
   * a cost of 2: the distance is at most the number of mismatches and at
   * least that number capped at 2.
   */
  lemma AgainstMismatches(s: seq<int>, t: seq<int>)
    requires |s| == |t|
    ensures Dist(s, t) <= Mismatches(s, t, |s|)
    ensures Dist(s, t) >= Min(Mismatches(s, t, |s|), 2)
  {
    var c := Edges(s, t);
    EdgesAreUnit(s, t);
    ResultIsLastCell(c, |s|, |t|);
    MismatchesOnDiagonal(s, t, |s|);
    BelowDiagonal(c, |s|);
    AboveCappedDiagonal(c, |s|);
  }

  /** The common prefix u of u + v and u + w + v lies on free substitutions. */
  lemma FreePrefix(u: seq<int>, w: seq<int>, v: seq<int>)
    ensures forall a: nat, b: nat :: 0 < a <= 0 + |u| && a - 0 == b - 0 ==> Edges(u + v, u + w + v).substitute(a, b) <= 0
  {
    forall a: nat, b: nat | 0 < a <= 0 + |u| && a - 0 == b - 0
      ensures Edges(u + v, u + w + v).substitute(a, b) <= 0
    {
      assert b == a;
      assert (u + v)[a - 1] == u[a - 1] == (u + w + v)[a - 1];
      assert At(u + v, a - 1) == At(u + w + v, b - 1);
    }
  }

  /** So does the common suffix v, once w has been inserted. */
  lemma FreeSuffix(u: seq<int>, w: seq<int>, v: seq<int>)
    ensures forall a: nat, b: nat :: |u| < a <= |u| + |v| && a - |u| == b - (|u| + |w|) ==> Edges(u + v, u + w + v).substitute(a, b) <= 0
  {
    forall a: nat, b: nat | |u| < a <= |u| + |v| && a - |u| == b - (|u| + |w|)
      ensures Edges(u + v, u + w + v).substitute(a, b) <= 0
    {
      assert (u + v)[a - 1] == v[a - 1 - |u|] == (u + w + v)[b - 1];
      assert At(u + v, a - 1) == At(u + w + v, b - 1);
    }
  }

  /** Inserting a block w into the middle of a string costs exactly |w|. */
  lemma InsertedBlock(u: seq<int>, w: seq<int>, v: seq<int>)
    ensures Dist(u + v, u + w + v) == |w|
  {
    var s := u + v;
    var t := u + w + v;
    var c := Edges(s, t);
    ResultIsLastCell(c, |s|, |t|);
    FreePrefix(u, w, v);
    DiagonalRun(c, 0, 0, |u|);
    if |u| != 0 {
      InsertRun(c, |u|, |u|, |w|);
    }
    FreeSuffix(u, w, v);
    DiagonalRun(c, |u|, |u| + |w|, |v|);
    Bounds(s, t);
  }
}

=== FILE: minkowski.dfy ===
/**
 * `minkowski_d` (minkowski.c): the edit table with ramp seeds whose
 * every edge into cell (i, j) is charged |s[i-1] - t[j-1]|^power, except
 * that a substitution of equal bytes is free. The table holds `int`s; the
 * result is converted to `float` on return.
 *
 * The C code computes the charge with `pow(fabs(...), power)` on doubles;
 * for the non-negative powers modelled here and byte differences, that is
 * the exact integer power `Pow`.
 */
module Minkowski {
  import opened Distance
  import opened FlatTable
  import opened EditTable
  import Levenshtein

  /** b^e for natural numbers; Pow(0, 0) = 1 as with C's `pow`. */
  function Pow(b: nat, e: nat): nat
  {
    if e == 0 then 1 else b * Pow(b, e - 1)
  }

  /** The `fabs` of a byte difference. */
  function Abs(x: int): nat
  {
    if x < 0 then -x else x
  }

  /** `COST_UNQUAL` of minkowski.c:45 at cell (i, j): |s[i-1] - t[j-1]|^power. */
  function Weight(s: seq<int>, t: seq<int>, power: nat, i: int, j: int): nat
  {
    Pow(Abs(At(s, i - 1) - At(t, j - 1)), power)
  }

  /** Inserting and deleting are charged `COST_UNQUAL` (minkowski.c:51-52). */
  function Gaps(s: seq<int>, t: seq<int>, power: nat): (nat, nat) -> int
  {
    (i: nat, j: nat) => Weight(s, t, power, i, j)
  }

  /** The `cost` of minkowski.c:46-49: 0 for equal bytes, `COST_UNQUAL` otherwise. */
  function Substitution(s: seq<int>, t: seq<int>, power: nat): (nat, nat) -> int
  {
    (i: nat, j: nat) => if At(s, i - 1) == At(t, j - 1) then 0 else Weight(s, t, power, i, j)
  }

  function Edges(s: seq<int>, t: seq<int>, power: nat): Costs
  {
    Costs(Gaps(s, t, power), Gaps(s, t, power), Substitution(s, t, power))
  }

  /**
   * The integer `distance` of minkowski.c:56, or the longer length when an
   * input is empty (minkowski.c:32, 60).
   */
  function IntDist(s: seq<int>, t: seq<int>, power: nat): (r: int)
    ensures |s| == 0 ==> r == |t|
    ensures |t| == 0 ==> r == |s|
  {
    Result(Edges(s, t, power), |s|, |t|)
  }

  /** The `float` minkowski_d returns. */
  function Dist(s: seq<int>, t: seq<int>, power: nat): real
  {
    IntDist(s, t, power) as real
  }

  /** `MANHATTAN_D` of distance.h:47-48. */
  function Manhattan(s: seq<int>, t: seq<int>): (r: real)
    ensures r >= 0.0 && r == Dist(t, s, 1)
    ensures s == t ==> r == 0.0
  {
    AtLeastZero(s, t, 1);
    Symmetric(s, t, 1);
    Identity(s, 1);
    Dist(s, t, 1)
  }

  /** `EUCLID_D` of distance.h:49-50. */
  function Euclid(s: seq<int>, t: seq<int>): (r: real)
    ensures r >= 0.0 && r == Dist(t, s, 2)
    ensures s == t ==> r == 0.0
  {
    AtLeastZero(s, t, 2);
    Symmetric(s, t, 2);
    Identity(s, 2);
    Dist(s, t, 2)
  }

  /** minkowski.c:20-62: seeds the ramps, fills the table row by row, returns the last cell. */
  method MinkowskiD(s: seq<int>, t: seq<int>, power: nat) returns (distance: real)
    ensures distance == Dist(s, t, power)
    ensures distance >= 0.0
    ensures s == t ==> distance == 0.0
  {
    var n := |s|;
    var m := |t|;
    var result: int;
    if n != 0 && m != 0 {
      ghost var c := Edges(s, t, power);
      m := m + 1;
      n := n + 1;
      RowsIsProduct(n, m);
      var d := new int[n * m];
      Seed(d, |s|, |t|, c);
      var i := 1;
      while i < n
        invariant 1 <= i <= n
        invariant Done(d, |s|, |t|, Cells(c), i, 1)
      {
        var j := 1;
        while j < m
          invariant 1 <= j <= m
          invariant Done(d, |s|, |t|, Cells(c), i, j)
        {
          var unequal := Pow(Abs(s[i - 1] - t[j - 1]), power);
          var cost := if s[i - 1] == t[j - 1] then 0 else unequal;
          StoreMin(d, |s|, |t|, c, i, j, unequal, unequal, cost);
          j := j + 1;
        }
        NextRow(d, |s|, |t|, Cells(c), i);
        i := i + 1;
      }
      LastCell(d, |s|, |t|, c);
      result := d[n * m - 1];
      ResultIsLastCell(c, |s|, |t|);
    } else {
      result := Max(m, n);
    }
    distance := result as real;
    AtLeastZero(s, t, power);
    if s == t {
      Identity(s, power);
    }
  }

  /** Every edge of the table is non-negative. */
  lemma EdgesNonNegative(s: seq<int>, t: seq<int>, power: nat)
    ensures NoNegative(Edges(s, t, power), |s|, |t|)
  {
  }

  /** The result is never negative. */
  lemma AtLeastZero(s: seq<int>, t: seq<int>, power: nat)
    ensures IntDist(s, t, power) >= 0
  {
    EdgesNonNegative(s, t, power);
    ResultIsLastCell(Edges(s, t, power), |s|, |t|);
    NonNegative(Edges(s, t, power), |s|, |t|, |s|, |t|);
  }

  /** Identical inputs are at distance 0, for every power. */
  lemma Identity(s: seq<int>, power: nat)
    ensures IntDist(s, s, power) == 0
  {
    var c := Edges(s, s, power);
    ResultIsLastCell(c, |s|, |s|);
    DiagonalRun(c, 0, 0, |s|);
    AtLeastZero(s, s, power);
  }

  /** |x - y| = |y - x|: the table of (t, s) is the transpose of that of (s, t). */
  lemma EdgesMirror(s: seq<int>, t: seq<int>, power: nat)
    ensures Mirror(Edges(s, t, power), Edges(t, s, power), |s|, |t|)
  {
    forall i: nat, j: nat | 1 <= i <= |s| && 1 <= j <= |t|
      ensures Weight(t, s, power, j, i) == Weight(s, t, power, i, j)
    {
      assert Abs(At(t, j - 1) - At(s, i - 1)) == Abs(At(s, i - 1) - At(t, j - 1));
    }
  }

  /** Swapping the inputs does not change the distance. */
  lemma Symmetric(s: seq<int>, t: seq<int>, power: nat)
    ensures Dist(s, t, power) == Dist(t, s, power)
  {
    EdgesMirror(s, t, power);
    ResultIsLastCell(Edges(s, t, power), |s|, |t|);
    ResultIsLastCell(Edges(t, s, power), |t|, |s|);
    Transpose(Edges(s, t, power), Edges(t, s, power), |s|, |t|);
  }

  /** pow(x, 0) = 1, so at power 0 every edge is a Levenshtein edge. */
  lemma PowerZeroEdges(s: seq<int>, t: seq<int>)
    ensures Cheaper(Edges(s, t, 0), Levenshtein.Edges(s, t), |s|, |t|)
    ensures Cheaper(Levenshtein.Edges(s, t), Edges(s, t, 0), |s|, |t|)
  {
  }

  /** At power 0 the Minkowski distance is the Levenshtein distance. */
  lemma PowerZeroIsLevenshtein(s: seq<int>, t: seq<int>)
    ensures IntDist(s, t, 0) == Levenshtein.Dist(s, t)
  {
    PowerZeroEdges(s, t);
    SameCosts(Edges(s, t, 0), Levenshtein.Edges(s, t), |s|, |t|);
  }

  /** 0^power = 0 for a positive power. */
  lemma PowZero(power: nat)
    requires power >= 1
    ensures Pow(0, power) == 0
  {
  }

  /**
   * For power >= 1 equal bytes already weigh 0, so every inner cell is the
   * cheapest neighbour plus the cell's weight.
   */
  lemma Factored(s: seq<int>, t: seq<int>, power: nat, i: nat, j: nat)
    requires power >= 1 && 1 <= i && 1 <= j
    ensures Cell(Edges(s, t, power), i, j) ==
      Min3(Cell(Edges(s, t, power), i, j - 1), Cell(Edges(s, t, power), i - 1, j), Cell(Edges(s, t, power), i - 1, j - 1)) + Weight(s, t, power, i, j)
  {
    var c := Edges(s, t, power);
    Unfold(c, i, j);
    if At(s, i - 1) == At(t, j - 1) {
      PowZero(power);
    }
  }

  /** Along the common prefix u of u + x + v and u + y + v the substitutions are free. */
  lemma CommonPrefix(u: seq<int>, x: seq<int>, v: seq<int>, y: seq<int>, w: seq<int>, power: nat)
    ensures forall a: nat, b: nat :: 0 < a <= 0 + |u| && a - 0 == b - 0 ==> Edges(u + x + v, u + y + w, power).substitute(a, b) <= 0
  {
    forall a: nat, b: nat | 0 < a <= 0 + |u| && a - 0 == b - 0
      ensures Edges(u + x + v, u + y + w, power).substitute(a, b) <= 0
    {
      assert (u + x + v)[a - 1] == u[a - 1] == (u + y + w)[b - 1];
    }
  }

  /** Along a common suffix v that starts at cells (i, j) the substitutions are free. */
  lemma CommonSuffix(s: seq<int>, t: seq<int>, v: seq<int>, power: nat)
    requires |v| <= |s| && |v| <= |t|
    requires s[|s| - |v|..] == v && t[|t| - |v|..] == v
    ensures forall a: nat, b: nat :: |s| - |v| < a <= |s| - |v| + |v| && a - (|s| - |v|) == b - (|t| - |v|) ==> Edges(s, t, power).substitute(a, b) <= 0
  {
    var i := |s| - |v|;
    var j := |t| - |v|;
    forall a: nat, b: nat | i < a <= i + |v| && a - i == b - j
      ensures Edges(s, t, power).substitute(a, b) <= 0
    {
      assert s[a - 1] == s[i..][a - 1 - i] == v[a - 1 - i] == t[j..][b - 1 - j] == t[b - 1];
    }
  }

  /**
   * Inserting a copy of a byte next to that byte is free for power >= 1:
   * the inserted byte weighs |x - x|^power = 0.
   */
  lemma DuplicateFree(u: seq<int>, x: int, v: seq<int>, power: nat)
    requires power >= 1
    ensures IntDist(u + [x] + v, u + [x, x] + v, power) == 0
  {
    var s := u + [x] + v;
    var t := u + [x, x] + v;
    var c := Edges(s, t, power);
    ResultIsLastCell(c, |s|, |t|);
    DuplicateHead(u, x, v, power);
    assert s[|u| + 1..] == v && t[|u| + 2..] == v;
    CommonSuffix(s, t, v, power);
    DiagonalRun(c, |u| + 1, |u| + 2, |v|);
    AtLeastZero(s, t, power);
  }

  /** Up to the copied byte: u is matched for free, x against x, and the copy inserted for free. */
  lemma DuplicateHead(u: seq<int>, x: int, v: seq<int>, power: nat)
    requires power >= 1
    ensures Cell(Edges(u + [x] + v, u + [x, x] + v, power), |u| + 1, |u| + 2) <= 0
  {
    var s := u + [x] + v;
    var t := u + [x, x] + v;
    var c := Edges(s, t, power);
    CommonPrefix(u, [x], v, [x, x], v, power);
    DiagonalRun(c, 0, 0, |u|);
    assert s[|u|] == x == t[|u|];
    DiagonalStep(c, |u| + 1, |u| + 1);
    assert t[|u| + 1] == x;
    PowZero(power);
    InsertStep(c, |u| + 1, |u| + 2);
  }

  /** Inputs that differ in one byte are at most that byte's weight apart. */
  lemma OneSubstitution(u: seq<int>, x: int, y: int, v: seq<int>, power: nat)
    ensures IntDist(u + [x] + v, u + [y] + v, power) <= Pow(Abs(x - y), power)
  {
    var s := u + [x] + v;
    var t := u + [y] + v;
    var c := Edges(s, t, power);
    ResultIsLastCell(c, |s|, |t|);
    CommonPrefix(u, [x], v, [y], v, power);
    DiagonalRun(c, 0, 0, |u|);
    assert s[|u|] == x && t[|u|] == y;
    DiagonalStep(c, |u| + 1, |u| + 1);
    assert s[|u| + 1..] == v && t[|u| + 1..] == v;
    CommonSuffix(s, t, v, power);
    DiagonalRun(c, |u| + 1, |u| + 1, |v|);
  }
}

=== FILE: needleman_wunsch.dfy ===
/**
 * `needleman_wunsch_d` (needleman_wunsch.c): the edit table over reals
 * whose charges come from a caller's cost table, indexed by the byte values
 * involved.
 *
 * Unlike the other edit tables, row 0 and column 0 are not ramps: each
 * border cell is one insertion-table lookup, and the lookups of the first
 * loop index t by the counter that walks s (and the second loop the other
 * way round). Cell (0, 0) is then reset to 0.
 */
module NeedlemanWunsch {
  import opened Distance
  import opened FlatTable
  import EditTable

  /** What the routine needs of its caller: C strings and a full cost table. */
  predicate Valid(s: seq<int>, t: seq<int>, m: CostTable)
  {
    ValidTable(m) && IsCString(s) && IsCString(t)
  }

  /** `mt->insertion[s[i-1]][t[j-1]]`, charged for both gap edges (needleman_wunsch.c:50-51, 58-59). */
  function Gap(s: seq<int>, t: seq<int>, m: CostTable, i: int, j: int): real
    requires Valid(s, t, m)
  {
    Insertion(m, At(s, i - 1), At(t, j - 1))
  }

  /** The `cost` of needleman_wunsch.c:53-56: 0 for equal bytes, else the conversion cost. */
  function Change(s: seq<int>, t: seq<int>, m: CostTable, i: int, j: int): real
    requires Valid(s, t, m)
  {
    if At(s, i - 1) == At(t, j - 1) then 0.0 else Conversion(m, At(s, i - 1), At(t, j - 1))
  }

  /**
   * Step 2 (needleman_wunsch.c:36-46): cell (i, 0) is insertion[s[0]][t[i]],
   * cell (0, j) is insertion[s[j]][t[0]], and cell (0, 0) is 0.
   */
  function Border(s: seq<int>, t: seq<int>, m: CostTable, i: nat, j: nat): real
    requires Valid(s, t, m)
  {
    if i == 0 && j == 0 then 0.0
    else if j == 0 then Insertion(m, At(s, 0), At(t, i))
    else Insertion(m, At(s, j), At(t, 0))
  }

  /** The table the loops of needleman_wunsch.c:48-62 fill. */
  function Recurrence(s: seq<int>, t: seq<int>, m: CostTable, i: nat, j: nat): real
    requires Valid(s, t, m)
    decreases i + j
  {
    if i == 0 || j == 0 then Border(s, t, m, i, j)
    else Min3Real(Recurrence(s, t, m, i, j - 1) + Gap(s, t, m, i, j),
                  Recurrence(s, t, m, i - 1, j) + Gap(s, t, m, i, j),
                  Recurrence(s, t, m, i - 1, j - 1) + Change(s, t, m, i, j))
  }

  /** Cell (i, j) of the table, the term the lemmas below speak about. */
  function Cell(s: seq<int>, t: seq<int>, m: CostTable, i: nat, j: nat): real
    requires Valid(s, t, m)
  {
    Recurrence(s, t, m, i, j)
  }

  /**
   * The value needleman_wunsch_d returns: the last cell, or the longer
   * length when an input is empty (needleman_wunsch.c:31, 63, 67).
   */
  function Dist(s: seq<int>, t: seq<int>, m: CostTable): (r: real)
    requires Valid(s, t, m)
    ensures |s| == 0 ==> r == |t| as real
    ensures |t| == 0 ==> r == |s| as real
  {
    if |s| != 0 && |t| != 0 then Cell(s, t, m, |s|, |t|) else Max(|t|, |s|) as real
  }

  function Cells(s: seq<int>, t: seq<int>, m: CostTable): (nat, nat) -> real
  {
    (i: nat, j: nat) => if Valid(s, t, m) then Cell(s, t, m, i, j) else 0.0
  }

  /** Step 2 (needleman_wunsch.c:36-46): the border lookups, then `d[0] = 0`. */
  method SeedBorders(d: array<real>, s: seq<int>, t: seq<int>, mt: CostTable)
    requires Valid(s, t, mt) && Sized(d, |s|, |t|)
    modifies d
    ensures Done(d, |s|, |t|, Cells(s, t, mt), 1, 1)
  {
    var n := |s| + 1;
    var m := |t| + 1;
    var k := 0;
    while k < n
      invariant k <= n
      invariant forall i: nat :: i < k ==> Get(d, |s|, |t|, i, 0) == Insertion(mt, At(s, 0), At(t, i))
    {
      Put(d, |s|, |t|, k, 0, Insertion(mt, At(s, 0), At(t, k)));
      k := k + 1;
    }
    k := 0;
    while k < m
      invariant k <= m
      invariant forall i: nat :: 1 <= i < n ==> Get(d, |s|, |t|, i, 0) == Insertion(mt, At(s, 0), At(t, i))
      invariant forall j: nat :: j < k ==> Get(d, |s|, |t|, 0, j) == Insertion(mt, At(s, j), At(t, 0))
    {
      Put(d, |s|, |t|, 0, k, Insertion(mt, At(s, k), At(t, 0)));
      k := k + 1;
    }
    Put(d, |s|, |t|, 0, 0, 0.0);
    forall i': nat, j': nat | i' <= |s| && j' <= |t| && Before(i', j', 1, 1)
      ensures Get(d, |s|, |t|, i', j') == Cells(s, t, mt)(i', j')
    {
      assert Cells(s, t, mt)(i', j') == Border(s, t, mt, i', j');
    }
  }

  /** Steps 5 and 6 (needleman_wunsch.c:50-61) for cell (i, j). */
  method FillCell(d: array<real>, s: seq<int>, t: seq<int>, mt: CostTable, i: nat, j: nat)
    requires Valid(s, t, mt)
    requires 1 <= i <= |s| && 1 <= j <= |t|
    requires Done(d, |s|, |t|, Cells(s, t, mt), i, j)
    modifies d
    ensures Done(d, |s|, |t|, Cells(s, t, mt), i, j + 1)
  {
    var from := s[i - 1];
    var to := t[j - 1];
    var cost := if from == to then 0.0 else Conversion(mt, from, to);
    var a := Get(d, |s|, |t|, i, j - 1) + Insertion(mt, from, to);
    var b := Get(d, |s|, |t|, i - 1, j) + Insertion(mt, from, to);
    var c := Get(d, |s|, |t|, i - 1, j - 1) + cost;
    assert a == Cell(s, t, mt, i, j - 1) + Gap(s, t, mt, i, j);
    assert b == Cell(s, t, mt, i - 1, j) + Gap(s, t, mt, i, j);
    assert c == Cell(s, t, mt, i - 1, j - 1) + Change(s, t, mt, i, j);
    Store(d, |s|, |t|, Cells(s, t, mt), i, j, MinReal(a, MinReal(b, c)));
  }

  /** The routine of needleman_wunsch.c:19-69; the cost table is a value and is only read. */
  method NeedlemanWunschD(s: seq<int>, t: seq<int>, mt: CostTable) returns (distance: real)
    requires Valid(s, t, mt)
    ensures distance == Dist(s, t, mt)
    ensures NonNegativeTable(mt) ==> distance >= 0.0
    ensures NonNegativeTable(mt) && s == t ==> distance == 0.0
  {
    var n := |s|;
    var m := |t|;
    if n != 0 && m != 0 {
      m := m + 1;
      n := n + 1;
      RowsIsProduct(n, m);
      var d := new real[n * m];
      SeedBorders(d, s, t, mt);
      var i := 1;
      while i < n
        invariant 1 <= i <= n
        invariant Done(d, |s|, |t|, Cells(s, t, mt), i, 1)
      {
        var j := 1;
        while j < m
          invariant 1 <= j <= m
          invariant Done(d, |s|, |t|, Cells(s, t, mt), i, j)
        {
          FillCell(d, s, t, mt, i, j);
          j := j + 1;
        }
        NextRow(d, |s|, |t|, Cells(s, t, mt), i);
        i := i + 1;
      }
      LastIdx(n, m);
      distance := d[n * m - 1];
      assert distance == Get(d, |s|, |t|, |s|, |t|);
    } else {
      distance := Max(m, n) as real;
    }
    if NonNegativeTable(mt) {
      AtLeastZero(s, t, mt);
      if s == t {
        Identity(s, mt);
      }
    }
  }

  // ---------------------------------------------------------------------
  // Non-negative tables
  // ---------------------------------------------------------------------

  function NotBelowZero(s: seq<int>, t: seq<int>, m: CostTable): (nat, nat) -> bool
  {
    (i: nat, j: nat) => Valid(s, t, m) ==> Cell(s, t, m, i, j) >= 0.0
  }

  lemma NotBelowZeroStep(s: seq<int>, t: seq<int>, m: CostTable, i: nat, j: nat)
    requires Valid(s, t, m) && NonNegativeTable(m)
    requires 1 <= i && 1 <= j
    requires NotBelowZero(s, t, m)(i, j - 1) && NotBelowZero(s, t, m)(i - 1, j) && NotBelowZero(s, t, m)(i - 1, j - 1)
    ensures NotBelowZero(s, t, m)(i, j)
  {
    assert Gap(s, t, m, i, j) >= 0.0 && Change(s, t, m, i, j) >= 0.0;
  }

  /** With no negative entry in the cost table, every cell is at least 0. */
  lemma CellNotBelowZero(s: seq<int>, t: seq<int>, m: CostTable, i: nat, j: nat)
    requires Valid(s, t, m) && NonNegativeTable(m)
    ensures Cell(s, t, m, i, j) >= 0.0
  {
    var P := NotBelowZero(s, t, m);
    forall i': nat | i' <= i
      ensures P(i', 0)
    {
      assert Cell(s, t, m, i', 0) == Border(s, t, m, i', 0);
    }
    forall j': nat | j' <= j
      ensures P(0, j')
    {
      assert Cell(s, t, m, 0, j') == Border(s, t, m, 0, j');
    }
    forall i': nat, j': nat | 1 <= i' <= i && 1 <= j' <= j && P(i', j' - 1) && P(i' - 1, j') && P(i' - 1, j' - 1)
      ensures P(i', j')
    {
      NotBelowZeroStep(s, t, m, i', j');
    }
    EditTable.Induction(i, j, P, i, j);
  }

  /** With no negative entry in the cost table, the result is at least 0. */
  lemma AtLeastZero(s: seq<int>, t: seq<int>, m: CostTable)
    requires Valid(s, t, m) && NonNegativeTable(m)
    ensures Dist(s, t, m) >= 0.0
  {
    CellNotBelowZero(s, t, m, |s|, |t|);
  }

  /** Cell (i, j) costs at most its diagonal neighbour plus the change into it. */
  lemma DiagonalStep(s: seq<int>, t: seq<int>, m: CostTable, i: nat, j: nat)
    requires Valid(s, t, m) && 1 <= i && 1 <= j
    ensures Cell(s, t, m, i, j) <= Cell(s, t, m, i - 1, j - 1) + Change(s, t, m, i, j)
  {
  }

  /** Following the diagonal from (i, j) over n free changes adds nothing. */
  lemma {:induction false} DiagonalRun(s: seq<int>, t: seq<int>, m: CostTable, i: nat, j: nat, n: nat)
    requires Valid(s, t, m)
    requires forall a: nat, b: nat :: i < a <= i + n && a - i == b - j ==> Change(s, t, m, a, b) <= 0.0
    ensures Cell(s, t, m, i + n, j + n) <= Cell(s, t, m, i, j)
    decreases n
  {
    if n != 0 {
      DiagonalRun(s, t, m, i, j, n - 1);
      DiagonalStep(s, t, m, i + n, j + n);
    }
  }

  /** With no negative entry in the cost table, identical inputs are at distance 0 (the free diagonal). */
  lemma Identity(s: seq<int>, m: CostTable)
    requires Valid(s, s, m) && NonNegativeTable(m)
    ensures Dist(s, s, m) == 0.0
  {
    if |s| != 0 {
      DiagonalRun(s, s, m, 0, 0, |s|);
      CellNotBelowZero(s, s, m, |s|, |s|);
    }
  }

  /** Inputs differing in one byte are at most that byte's conversion cost apart. */
  lemma OneConversion(u: seq<int>, x: int, y: int, v: seq<int>, m: CostTable)
    requires Valid(u + [x] + v, u + [y] + v, m)
    ensures Dist(u + [x] + v, u + [y] + v, m) <= Change(u + [x] + v, u + [y] + v, m, |u| + 1, |u| + 1)
  {
    var s := u + [x] + v;
    var t := u + [y] + v;
    forall a: nat, b: nat | 0 < a <= 0 + |u| && a - 0 == b - 0
      ensures Change(s, t, m, a, b) <= 0.0
    {
      assert s[a - 1] == u[a - 1] == t[b - 1];
    }
    DiagonalRun(s, t, m, 0, 0, |u|);
    DiagonalStep(s, t, m, |u| + 1, |u| + 1);
    var k := |u| + 1;
    forall a: nat, b: nat | k < a <= k + |v| && a - k == b - k
      ensures Change(s, t, m, a, b) <= 0.0
    {
      assert s[a - 1] == v[a - 1 - k] == t[b - 1];
    }
    DiagonalRun(s, t, m, k, k, |v|);
  }

  // ---------------------------------------------------------------------
  // Uniform tables
  // ---------------------------------------------------------------------

  /**
   * With every conversion `conv` and every insertion `ins`, 0 < conv <= ins,
   * a cell below `conv` lies on the main diagonal over equal prefixes.
   */
  function Cheap(s: seq<int>, t: seq<int>, conv: real, ins: real): (nat, nat) -> bool
  {
    (i: nat, j: nat) => Valid(s, t, Uniform(conv, ins)) ==>
      && Cell(s, t, Uniform(conv, ins), i, j) >= 0.0
      && (Cell(s, t, Uniform(conv, ins), i, j) < conv ==> i == j && forall k: nat :: k < i ==> At(s, k) == At(t, k))
  }

  lemma CheapStep(s: seq<int>, t: seq<int>, conv: real, ins: real, i: nat, j: nat)
    requires Valid(s, t, Uniform(conv, ins)) && 0.0 < conv <= ins
    requires 1 <= i && 1 <= j
    requires Cheap(s, t, conv, ins)(i, j - 1) && Cheap(s, t, conv, ins)(i - 1, j) && Cheap(s, t, conv, ins)(i - 1, j - 1)
    ensures Cheap(s, t, conv, ins)(i, j)
  {
    var m := Uniform(conv, ins);
    assert Gap(s, t, m, i, j) == ins;
    assert Change(s, t, m, i, j) == if At(s, i - 1) == At(t, j - 1) then 0.0 else conv;
    if Cell(s, t, m, i, j) < conv {
      forall k: nat | k < i
        ensures At(s, k) == At(t, k)
      {
        if k == i - 1 {
          assert At(s, i - 1) == At(t, j - 1);
        }
      }
    }
  }

  /** The lemma behind `Cheap`, over the whole table. */
  lemma CellCheap(s: seq<int>, t: seq<int>, conv: real, ins: real, i: nat, j: nat)
    requires Valid(s, t, Uniform(conv, ins)) && 0.0 < conv <= ins
    ensures Cheap(s, t, conv, ins)(i, j)
  {
    var m := Uniform(conv, ins);
    var P := Cheap(s, t, conv, ins);
    forall i': nat | i' <= i
      ensures P(i', 0)
    {
      assert Cell(s, t, m, i', 0) == Border(s, t, m, i', 0);
    }
    forall j': nat | j' <= j
      ensures P(0, j')
    {
      assert Cell(s, t, m, 0, j') == Border(s, t, m, 0, j');
    }
    forall i': nat, j': nat | 1 <= i' <= i && 1 <= j' <= j && P(i', j' - 1) && P(i' - 1, j') && P(i' - 1, j' - 1)
      ensures P(i', j')
    {
      CheapStep(s, t, conv, ins, i', j');
    }
    EditTable.Induction(i, j, P, i, j);
  }

  /**
   * With a uniform table, 0 < conv <= ins, non-empty inputs are less than
   * `conv` apart only when they are equal, and then they are 0 apart.
   */
  lemma UniformSeparates(s: seq<int>, t: seq<int>, conv: real, ins: real)
    requires Valid(s, t, Uniform(conv, ins)) && 0.0 < conv <= ins
    requires |s| != 0 && |t| != 0
    ensures Dist(s, t, Uniform(conv, ins)) < conv <==> s == t
    ensures s == t ==> Dist(s, t, Uniform(conv, ins)) == 0.0
  {
    CellCheap(s, t, conv, ins, |s|, |t|);
    if Dist(s, t, Uniform(conv, ins)) < conv {
      assert |s| == |t|;
      forall k | 0 <= k < |s|
        ensures s[k] == t[k]
      {
        assert At(s, k) == At(t, k);
      }
      assert s == t;
    }
    if s == t {
      Identity(s, Uniform(conv, ins));
    }
  }
}

=== FILE: vectors.dfy ===
/**
 * Expected values from test/test.c and python/test.py, derived from the
 * general properties of each routine. Each test string is cut at the edit
 * that separates it from its partner, so that the shared context can be
 * dismissed by a lemma and only a few bytes have to be compared.
 */
module Vectors {
  import opened Distance
  import Levenshtein
  import Damerau
  import Hamming
  import Jaccard
  import Minkowski
  import NeedlemanWunsch

  /** The bytes of three concatenated strings. */
  lemma Bytes3(x: string, y: string, z: string)
    ensures Bytes(x + y + z) == Bytes(x) + Bytes(y) + Bytes(z)
  {
    BytesAppend(x + y, z);
    BytesAppend(x, y);
  }

  /** A shared prefix u and suffix v contribute no disagreement. */
  lemma SharedContext(u: seq<int>, a: seq<int>, b: seq<int>, v: seq<int>)
    requires |a| == |b|
    ensures Mismatches(u + a + v, u + b + v, |u + a + v|) == Mismatches(a, b, |a|)
  {
    var i, j, k := |u|, |a|, |v|;
    MismatchesJoin(u, u, a, b, i, j);
    MismatchesSelf(u, i);
    MismatchesJoin(u + a, u + b, v, v, i + j, k);
    MismatchesSelf(v, k);
  }

  /** A string of positive ASCII characters is a C string. */
  lemma Joined(u: seq<int>, a: seq<int>, v: seq<int>)
    requires IsCString(u) && IsCString(a) && IsCString(v)
    ensures IsCString(u + a + v)
  {
  }

  // levenshtein_d

  /** test/test.c:74-76: "foo bar" against "foo   bar" is two inserted spaces. */
  lemma FooBar()
    ensures Levenshtein.Dist(Bytes("foo bar"), Bytes("foo   bar")) == 2
  {
    assert "foo bar" == "foo" + "" + " bar";
    assert "foo   bar" == "foo" + "  " + " bar";
    Bytes3("foo", "", " bar");
    Bytes3("foo", "  ", " bar");
    assert Bytes("foo") + Bytes("") + Bytes(" bar") == Bytes("foo") + Bytes(" bar");
    Levenshtein.InsertedBlock(Bytes("foo"), Bytes("  "), Bytes(" bar"));
  }

  /** "hello my name is jose", cut where its two partners depart from it. */
  const Jose: seq<int> := Bytes("h") + Bytes("el") + Bytes("lo m") + Bytes("y ") + Bytes("name is jose")
  /** "hello m yname is jose" */
  const JoseSwapped: seq<int> := Bytes("h") + Bytes("el") + Bytes("lo m") + Bytes(" y") + Bytes("name is jose")
  /** "hlelo my name is jose" */
  const Hlelo: seq<int> := Bytes("h") + Bytes("le") + Bytes("lo m") + Bytes("y ") + Bytes("name is jose")

  /** The first pair differs in "y " against " y". */
  lemma JoseCut()
    ensures Jose == Bytes("h") + Bytes("el") + Bytes("lo m") + [121, 32] + Bytes("name is jose")
    ensures JoseSwapped == Bytes("h") + Bytes("el") + Bytes("lo m") + [32, 121] + Bytes("name is jose")
  {
    assert Bytes("y ") == [121, 32] && Bytes(" y") == [32, 121];
  }

  /** The second pair differs in "el" against "le". */
  lemma HleloCut()
    ensures Jose == Bytes("h") + [101, 108] + (Bytes("lo m") + Bytes("y ") + Bytes("name is jose"))
    ensures Hlelo == Bytes("h") + [108, 101] + (Bytes("lo m") + Bytes("y ") + Bytes("name is jose"))
  {
    assert Bytes("el") == [101, 108] && Bytes("le") == [108, 101];
  }

  /** Two strings that differ only in a swapped pair x y / y x. */
  predicate SwappedPair(s: seq<int>, t: seq<int>, u: seq<int>, x: int, y: int, v: seq<int>)
  {
    x != y && s == u + [x, y] + v && t == u + [y, x] + v
  }

  /** Such strings disagree at exactly two positions. */
  lemma SwapMismatches(s: seq<int>, t: seq<int>, u: seq<int>, x: int, y: int, v: seq<int>)
    requires SwappedPair(s, t, u, x, y, v)
    ensures |s| == |t| && Mismatches(s, t, |s|) == 2
  {
    SharedContext(u, [x, y], [y, x], v);
    assert Mismatches([x, y], [y, x], 1) == 1;
  }

  /** ... and are two edits apart, whichever comes first. */
  lemma SwapLevenshtein(s: seq<int>, t: seq<int>, u: seq<int>, x: int, y: int, v: seq<int>)
    requires SwappedPair(s, t, u, x, y, v)
    ensures Levenshtein.Dist(s, t) == 2 && Levenshtein.Dist(t, s) == 2
  {
    SwapMismatches(s, t, u, x, y, v);
    Levenshtein.AgainstMismatches(s, t);
    Levenshtein.Symmetric(s, t);
  }

  /** python/test.py:14-17: both pairs are at distance 2, in either order. */
  lemma JoseLevenshtein()
    ensures Levenshtein.Dist(Jose, JoseSwapped) == 2 && Levenshtein.Dist(JoseSwapped, Jose) == 2
    ensures Levenshtein.Dist(Jose, Hlelo) == 2
  {
    JoseCut();
    HleloCut();
    SwapLevenshtein(Jose, JoseSwapped, Bytes("h") + Bytes("el") + Bytes("lo m"), 121, 32, Bytes("name is jose"));
    SwapLevenshtein(Jose, Hlelo, Bytes("h"), 101, 108, Bytes("lo m") + Bytes("y ") + Bytes("name is jose"));
  }

  // hamming_d

  /** A swapped pair is two positions of disagreement. */
  lemma SwapHamming(s: seq<int>, t: seq<int>, u: seq<int>, x: int, y: int, v: seq<int>)
    requires SwappedPair(s, t, u, x, y, v)
    ensures Hamming.Hamming(s, t) == 2
  {
    SwapMismatches(s, t, u, x, y, v);
    Hamming.CountsMismatches(s, t);
  }

  /** python/test.py:23-24: two positions differ in each pair. */
  lemma JoseHamming()
    ensures Hamming.Hamming(Jose, JoseSwapped) == 2 && Hamming.Hamming(Jose, Hlelo) == 2
  {
    JoseCut();
    HleloCut();
    SwapHamming(Jose, JoseSwapped, Bytes("h") + Bytes("el") + Bytes("lo m"), 121, 32, Bytes("name is jose"));
    SwapHamming(Jose, Hlelo, Bytes("h"), 101, 108, Bytes("lo m") + Bytes("y ") + Bytes("name is jose"));
  }

  /** `h1` of test/test.c:125, cut every nine bytes. */
  const SpamLine: seq<int> := Bytes("Ge t gen:") + Bytes("eric Via-") + Bytes("gr@ f:or ") + Bytes("as low as") + Bytes(" $2.50 pe") + Bytes("r 50 mg ")
  /** `h2` of test/test.c:126, cut at the same places. */
  const ScamLine: seq<int> := Bytes("G et gene") + Bytes("ri:c Via-") + Bytes("gra f(o)r") + Bytes(" as 1ow a") + Bytes("s $2.50 p") + Bytes("er 50 mg")

  /** Disagreements chunk by chunk: 3 + 3 + 4 ... */
  lemma SpamHead()
    ensures Mismatches(Bytes("Ge t gen:"), Bytes("G et gene"), 9) == 3
    ensures Mismatches(Bytes("eric Via-"), Bytes("ri:c Via-"), 9) == 3
    ensures Mismatches(Bytes("gr@ f:or "), Bytes("gra f(o)r"), 9) == 4
  {
  }

  /** ... + 9 + 9 + 8: from "as low as" on, the second line lags one byte behind. */
  lemma SpamTail()
    ensures Mismatches(Bytes("as low as"), Bytes(" as 1ow a"), 9) == 9
    ensures Mismatches(Bytes(" $2.50 pe"), Bytes("s $2.50 p"), 9) == 9
    ensures Mismatches(Bytes("r 50 mg "), Bytes("er 50 mg"), 8) == 8
  {
  }

  /** Three equal-length chunk pairs disagree as often as their pieces do. */
  lemma ThreeChunks(a1: seq<int>, a2: seq<int>, a3: seq<int>, b1: seq<int>, b2: seq<int>, b3: seq<int>, n1: nat, n2: nat, n3: nat)
    requires |a1| == |b1| == n1 && |a2| == |b2| == n2 && |a3| == |b3| == n3
    ensures Mismatches(a1 + a2 + a3, b1 + b2 + b3, n1 + n2 + n3) ==
      Mismatches(a1, b1, n1) + Mismatches(a2, b2, n2) + Mismatches(a3, b3, n3)
  {
    MismatchesJoin(a1, b1, a2, b2, n1, n2);
    MismatchesJoin(a1 + a2, b1 + b2, a3, b3, n1 + n2, n3);
  }

  /** The first 27 bytes of the two lines differ at 10 positions. */
  lemma SpamFirstHalf()
    ensures Mismatches(Bytes("Ge t gen:") + Bytes("eric Via-") + Bytes("gr@ f:or "),
                       Bytes("G et gene") + Bytes("ri:c Via-") + Bytes("gra f(o)r"), 27) == 10
  {
    SpamHead();
    ThreeChunks(Bytes("Ge t gen:"), Bytes("eric Via-"), Bytes("gr@ f:or "), Bytes("G et gene"), Bytes("ri:c Via-"), Bytes("gra f(o)r"), 9, 9, 9);
  }

  /** The last 26 bytes differ at all of them. */
  lemma SpamSecondHalf()
    ensures Mismatches(Bytes("as low as") + Bytes(" $2.50 pe") + Bytes("r 50 mg "),
                       Bytes(" as 1ow a") + Bytes("s $2.50 p") + Bytes("er 50 mg"), 26) == 26
  {
    SpamTail();
    ThreeChunks(Bytes("as low as"), Bytes(" $2.50 pe"), Bytes("r 50 mg "), Bytes(" as 1ow a"), Bytes("s $2.50 p"), Bytes("er 50 mg"), 9, 9, 8);
  }

  /** Two lines cut into halves of equal lengths differ as often as the halves do. */
  lemma HammingHalves(s: seq<int>, t: seq<int>, x1: seq<int>, x2: seq<int>, y1: seq<int>, y2: seq<int>, n1: nat, n2: nat)
    requires s == x1 + x2 && t == y1 + y2 && |x1| == |y1| == n1 && |x2| == |y2| == n2 && n1 + n2 != 0
    ensures Hamming.Hamming(s, t) == Mismatches(x1, y1, n1) + Mismatches(x2, y2, n2)
  {
    MismatchesJoin(x1, y1, x2, y2, n1, n2);
    Hamming.CountsMismatches(s, t);
  }

  /** test/test.c:134-136: the two 53-byte lines differ at 36 positions. */
  lemma SpamHamming()
    ensures Hamming.Hamming(SpamLine, ScamLine) == 36
  {
    var x1 := Bytes("Ge t gen:") + Bytes("eric Via-") + Bytes("gr@ f:or ");
    var x2 := Bytes("as low as") + Bytes(" $2.50 pe") + Bytes("r 50 mg ");
    var y1 := Bytes("G et gene") + Bytes("ri:c Via-") + Bytes("gra f(o)r");
    var y2 := Bytes(" as 1ow a") + Bytes("s $2.50 p") + Bytes("er 50 mg");
    SpamFirstHalf();
    SpamSecondHalf();
    HammingHalves(SpamLine, ScamLine, x1, x2, y1, y2, 27, 26);
  }

  // jaccard_d, needleman_wunsch_d and minkowski_d share "this party is started"

  /** "this party is started", cut where its partners depart from it. */
  const Party: seq<int> := Bytes("this part") + Bytes("y") + Bytes(" ") + Bytes("is ") + Bytes("started")
  /** "this parte is started" */
  const Parte: seq<int> := Bytes("this part") + Bytes("e") + Bytes(" ") + Bytes("is ") + Bytes("started")
  /** "this party wasstarted" */
  const PartyWas: seq<int> := Bytes("this part") + Bytes("y") + Bytes(" ") + Bytes("was") + Bytes("started")
  /** "this party  is started" */
  const PartySpaced: seq<int> := Bytes("this part") + Bytes("y") + Bytes("  ") + Bytes("is ") + Bytes("started")

  /** Two strings that differ only in one byte x / y. */
  predicate Substituted(s: seq<int>, t: seq<int>, u: seq<int>, x: int, y: int, v: seq<int>)
  {
    x != y && s == u + [x] + v && t == u + [y] + v
  }

  /** The first pair differs in one byte, 'y' against 'e'. */
  lemma ParteCut()
    ensures Substituted(Party, Parte, Bytes("this part"), 121, 101, Bytes(" ") + Bytes("is ") + Bytes("started"))
    ensures |Party| == 21 && IsCString(Party) && IsCString(Parte)
  {
    assert Bytes("y") == [121] && Bytes("e") == [101];
    Joined(Bytes("this part"), [121], Bytes(" ") + Bytes("is ") + Bytes("started"));
    Joined(Bytes("this part"), [101], Bytes(" ") + Bytes("is ") + Bytes("started"));
  }

  /** The second pair differs in "is " against "was", three disagreeing bytes. */
  lemma WasMismatches()
    ensures |Party| == |PartyWas| == 21 && Mismatches(Party, PartyWas, |Party|) == 3
  {
    var u := Bytes("this part") + Bytes("y") + Bytes(" ");
    assert Mismatches(Bytes("is "), Bytes("was"), 3) == 3;
    SharedContext(u, Bytes("is "), Bytes("was"), Bytes("started"));
  }

  /** A one-byte substitution is one disagreeing position. */
  lemma SubstitutedMismatches(s: seq<int>, t: seq<int>, u: seq<int>, x: int, y: int, v: seq<int>)
    requires Substituted(s, t, u, x, y, v)
    ensures |s| == |t| && Mismatches(s, t, |s|) == 1
  {
    SharedContext(u, [x], [y], v);
  }

  /** Comparable strings with k disagreements score the share of the other |s| - k positions. */
  lemma JaccardShare(s: seq<int>, t: seq<int>, n: nat, k: nat, share: real)
    requires Hamming.Comparable(s, t) && |s| == n && Mismatches(s, t, n) == k && k != 0
    requires share == (n - k) as real / n as real
    ensures Jaccard.Jaccard(s, t) == share
  {
    MismatchesSelf(s, |s|);
    MatchesAndMismatches(s, t, |s|);
    Jaccard.MatchRatio(s, t);
  }

  /** test/test.c:286-288: one of 21 positions differs, 20/21 agree. */
  lemma ParteJaccard()
    ensures Jaccard.Jaccard(Party, Parte) == 20.0 / 21.0
  {
    ParteCut();
    SubstitutedMismatches(Party, Parte, Bytes("this part"), 121, 101, Bytes(" ") + Bytes("is ") + Bytes("started"));
    JaccardShare(Party, Parte, 21, 1, 20.0 / 21.0);
  }

  /** test/test.c:290-292: three of 21 positions differ, 18/21 agree. */
  lemma WasJaccard()
    ensures Jaccard.Jaccard(Party, PartyWas) == 18.0 / 21.0
  {
    WasMismatches();
    JaccardShare(Party, PartyWas, 21, 3, 18.0 / 21.0);
  }

  /** Under uniform costs, a one-byte substitution costs exactly one conversion. */
  lemma UniformConversion(s: seq<int>, t: seq<int>, u: seq<int>, x: int, y: int, v: seq<int>, conv: real, ins: real)
    requires Substituted(s, t, u, x, y, v) && IsIndex(x) && IsIndex(y)
    requires NeedlemanWunsch.Valid(s, t, Uniform(conv, ins)) && 0.0 < conv <= ins
    ensures NeedlemanWunsch.Dist(s, t, Uniform(conv, ins)) == conv
  {
    NeedlemanWunsch.OneConversion(u, x, y, v, Uniform(conv, ins));
    assert s[|u|] != t[|u|];
    NeedlemanWunsch.UniformSeparates(s, t, conv, ins);
  }

  /**
   * test/test.c:251-253: with every conversion costing 0.1 and every
   * insertion 1.0, "this party is started" against "this parte is started"
   * is one conversion, 0.1 exactly.
   */
  lemma PartyNeedlemanWunsch()
    ensures NeedlemanWunsch.Dist(Party, Parte, Uniform(0.1, 1.0)) == 0.1
  {
    ParteCut();
    UniformConversion(Party, Parte, Bytes("this part"), 121, 101, Bytes(" ") + Bytes("is ") + Bytes("started"), 0.1, 1.0);
  }

  /** test/test.c:350-352: doubling the space of "this party is started" is free. */
  lemma PartySpace()
    ensures Minkowski.Dist(Party, PartySpaced, 1) == 0.0
  {
    var u := Bytes("this part") + Bytes("y");
    var v := Bytes("is ") + Bytes("started");
    assert Bytes(" ") == [32] && Bytes("  ") == [32, 32];
    assert Party == u + [32] + v && PartySpaced == u + [32, 32] + v;
    Minkowski.DuplicateFree(u, 32, v, 1);
  }

  /** A substitution of x by y costs at most |x - y| to the power, in either order. */
  lemma SubstitutedMinkowski(s: seq<int>, t: seq<int>, u: seq<int>, x: int, y: int, v: seq<int>, power: nat, bound: int)
    requires Substituted(s, t, u, x, y, v) && Minkowski.Pow(Minkowski.Abs(x - y), power) == bound
    ensures Minkowski.IntDist(s, t, power) <= bound && Minkowski.IntDist(t, s, power) <= bound
  {
    Minkowski.OneSubstitution(u, x, y, v, power);
    Minkowski.OneSubstitution(u, y, x, v, power);
    assert Minkowski.Abs(x - y) == Minkowski.Abs(y - x);
  }

  /** The bounds |'y' - 'e'| = 20 and 20 * 20 = 400. */
  lemma ParteBounds()
    ensures Minkowski.Pow(Minkowski.Abs(121 - 101), 1) == 20
    ensures Minkowski.Pow(Minkowski.Abs(121 - 101), 2) == 400
  {
  }

  /** test/test.c:326-328: "this party" against "this parte" is at most |'y' - 'e'| = 20. */
  lemma PartyManhattan()
    ensures Minkowski.IntDist(Party, Parte, 1) <= 20
  {
    ParteCut();
    ParteBounds();
    var u, v := Bytes("this part"), Bytes(" ") + Bytes("is ") + Bytes("started");
    SubstitutedMinkowski(Party, Parte, u, 121, 101, v, 1, 20);
  }

  /** test/test.c:330-332: and so is the other order. */
  lemma ParteManhattan()
    ensures Minkowski.IntDist(Parte, Party, 1) <= 20
  {
    ParteCut();
    ParteBounds();
    var u, v := Bytes("this part"), Bytes(" ") + Bytes("is ") + Bytes("started");
    SubstitutedMinkowski(Party, Parte, u, 121, 101, v, 1, 20);
  }

  /** test/test.c:334-336: at power 2 the bound is 20 * 20 = 400. */
  lemma ParteSquare()
    ensures Minkowski.IntDist(Parte, Party, 2) <= 400
  {
    ParteCut();
    ParteBounds();
    var u, v := Bytes("this part"), Bytes(" ") + Bytes("is ") + Bytes("started");
    SubstitutedMinkowski(Party, Parte, u, 121, 101, v, 2, 400);
  }

  // damerau_d

  /** "hello my name is jose nazario", cut where the extra space goes. */
  const Nazario: seq<int> := Bytes("hello") + Bytes(" my name is jose nazario")
  /** "hello  my name is jose nazario" */
  const NazarioSpaced: seq<int> := Bytes("hello") + Bytes(" ") + Bytes(" my name is jose nazario")

  /** One inserted byte is one edit with a fresh flag. */
  lemma InsertedDamerau(u: seq<int>, w: seq<int>, v: seq<int>)
    requires |w| == 1
    ensures Damerau.Dist(u + v, u + w + v) == 1
  {
    Levenshtein.InsertedBlock(u, w, v);
    Damerau.AtMostLevenshtein(u + v, u + w + v, false);
    Damerau.LengthGap(u + v, u + w + v, false);
  }

  /** test/test.c:108-110: one inserted space, distance 1 with a fresh flag. */
  lemma NazarioSpace()
    ensures Damerau.Dist(Nazario, NazarioSpaced) == 1
  {
    InsertedDamerau(Bytes("hello"), Bytes(" "), Bytes(" my name is jose nazario"));
  }

  /** A swapped pair costs nothing under the stateless swap relaxation. */
  lemma SwapDamerau(s: seq<int>, t: seq<int>, u: seq<int>, x: int, y: int, v: seq<int>)
    requires SwappedPair(s, t, u, x, y, v)
    ensures Damerau.SwapDist(s, t) == 0
  {
    Damerau.SwapIsFree(u, x, y, v);
  }

  /** "hello m" holds no " y", and "yname is jose" no "ym". */
  lemma JoseFree()
    ensures Damerau.PairFree(Bytes("h") + Bytes("el") + Bytes("lo m"), 32, 121)
    ensures Damerau.PairFree([121] + Bytes("name is jose"), 121, 109)
  {
    assert Bytes("h") + Bytes("el") + Bytes("lo m") == [104, 101, 108, 108, 111, 32, 109];
    assert Bytes("name is jose") == [110, 97, 109, 101, 32, 105, 115, 32, 106, 111, 115, 101];
  }

  /** The first pair: "y " in "hello my name is jose", where neither " y" nor "ym" occurs. */
  lemma JoseFlag()
    ensures Damerau.Dist(Jose, JoseSwapped) == 0
  {
    JoseCut();
    JoseFree();
    var u, v := Bytes("h") + Bytes("el") + Bytes("lo m"), Bytes("name is jose");
    Joined(u, [121, 32], v);
    Joined(u, [32, 121], v);
    Damerau.SwapKept(u, 121, 32, v);
  }

  /** A pair whose second byte is absent, except possibly in front, never occurs. */
  lemma Absent(x: int, text: string, a: int, c: char)
    requires c !in text
    ensures Damerau.PairFree([x] + Bytes(text), a, c as int)
  {
    var w := [x] + Bytes(text);
    forall m | 1 <= m < |w|
      ensures w[m] != c as int
    {
      assert w[m] == text[m - 1] as int;
    }
  }

  /** "elo my name is jose" holds no "eh". */
  lemma HleloFree()
    ensures Damerau.PairFree([101] + (Bytes("lo m") + Bytes("y ") + Bytes("name is jose")), 101, 104)
  {
    Bytes3("lo m", "y ", "name is jose");
    assert "lo m" + "y " + "name is jose" == "lo my name is jose";
    Absent(101, "lo my name is jose", 101, 'h');
  }

  /** The second pair: "el" in "hello my name is jose", where "eh" does not occur. */
  lemma HleloFlag()
    ensures Damerau.Dist(Jose, Hlelo) == 0
  {
    HleloCut();
    HleloFree();
    var u, v := Bytes("h"), Bytes("lo m") + Bytes("y ") + Bytes("name is jose");
    Joined(u, [101, 108], v);
    Joined(u, [108, 101], v);
    Damerau.SwapKept(u, 101, 108, v);
  }

  /** python/test.py:30-31: with a fresh flag, both pairs are at distance 0 as the code is written. */
  lemma JoseDamerau()
    ensures Damerau.Dist(Jose, JoseSwapped) == 0 && Damerau.Dist(Jose, Hlelo) == 0
  {
    JoseFlag();
    HleloFlag();
  }

  /** python/test.py:29-31 under the stateless swap relaxation: each pair is one adjacent swap. */
  lemma JoseSwaps()
    ensures Damerau.SwapDist(Jose, JoseSwapped) == 0 && Damerau.SwapDist(Jose, Hlelo) == 0
  {
    JoseCut();
    HleloCut();
    SwapDamerau(Jose, JoseSwapped, Bytes("h") + Bytes("el") + Bytes("lo m"), 121, 32, Bytes("name is jose"));
    SwapDamerau(Jose, Hlelo, Bytes("h"), 101, 108, Bytes("lo m") + Bytes("y ") + Bytes("name is jose"));
  }
}
